=== FILE: README.md ===
# A verified model of the bborclient Python client

bborclient is the Python client of the BBO-Rietveld service. The service runs Bayesian-optimised
Rietveld refinements on a server. The client keeps a session with the server: a token, the
user's lists of instrument (prm), crystal-structure (cif) and sequence files, and the history of
submitted studies. It validates the parameters of a new study twice: once in the client-side
parameter model and once in the server-side model the request is checked against. It is meant
to parse two-column measurement files (a hand-written CSV detector plus a table reader) into the
CSV text it uploads; as written, that path fails before a study is posted (see "## Left out"). It classifies the entries of an input directory into the files of a GSAS-II project.
It also decodes the refinement-result documents the server sends back into discriminated unions.

This project models that core in Dafny and proves what the code promises about it.

| module (file) | models | form |
|---|---|---|
| `Common` (common.dfy) | the errors Python raises, `Option`/`Result`, pydantic's omitted / `None` / given argument, one-or-many arguments | datatypes |
| `Conf` (conf.dfy) | the constants of `conf.py` | constants |
| `Text` (text.dfy) | `endswith`, ASCII `lower()`, `'\n'.join`, the `f'{n:04d}'` format | functions, lemmas |
| `Paths` (paths.dfy) | `pathlib` `name`, `suffix`, `stem`, `with_suffix` | functions, lemmas |
| `Util` (util.dfy) | `util.py`: stream size, server URL table, the `require_token` decorator | class, functions, lemmas |
| `ServerParams` (server_params.dfy) | `params/post_study/server.py`: `PostStudyServerParams` validation | functions, lemmas |
| `ClientParams` (client_params.dfy) | `params/post_study/client.py`: `PostStudyClientParams`, whose validators assign fields in place | class, step functions, lemmas |
| `LegacyParams` (legacy_params.dfy) | `params.py`: `ParamsUserTask` and the path checks of `InputFilesInput` | class, functions, methods, lemmas |
| `Session` (session.dfy) | `client.py`: `BBORClient` and its state | class with a step-function specification, lemmas |
| `CsvParser` (csv_parser.dfy) | `parsers/csv.py`: the data-line pattern, header detection, separator selection | functions, a method, lemmas |
| `ParserInterface` (parser_interface.dfy) | `parsers/interface.py`: the parser base class and its CSV text | class, functions, lemmas |
| `GpxView` (gpxview.dfy) | `gpxview.py`: `load_gpx`'s directory scan and project plan | methods, functions, lemmas |
| `Trial` (trial.dfy) | `models/trial.py`: refinable numbers, coefficient lists, Miller indices, the discriminated unions, sample and instrument documents | datatypes, functions, lemmas |

How the Python is rendered:

- Everything that raises returns a `Result` or `Option` error instead. The error names where the
  Python raises it.
- `BBORClient` is a Dafny class whose fields are the session state. Each method is specified by a
  step function from the old state to the new state and the result.
  - Server replies are a queue `inbox` given to the constructor.
  - The requests sent are appended to `outbox`.
- The pydantic models that assign fields in their validators are classes. Those are
  `PostStudyClientParams` and `ParamsUserTask`. Their `model_validate` is a method that builds the
  object and then runs the assigning validators, proved against a pure specification.
- `random.randint(0, MAX_RANDOM_SEED - 1)` is the parameter `draw`, with `draw < 10000`.
- The `\w` class of the server's file-name pattern is the parameter `isWord`. Python's Unicode
  word class is not spelled out.
- The number formatting `f'{x}'` of a float is the parameter `fmt`.
- A directory listing is a sequence of paths given in listing order.

Behaviour kept as written. Except for the measurement path, the stream type checks and the
module-level errors named under "## Left out", the model follows the code where it departs from its comments or its evident
purpose. A lemma exhibits each of these:

- `populate_cif_filename` raises for a cif path whose name is absent from `prm_file_list`. The
  guard is inverted, and it checks the prm list.
  - Nothing ever fills the client model's own `prm_file_list`.
  - So cif paths can only be submitted with `overwrite_ciffiles`.
- `ensure_ciffiles_list` wraps only a `Path` object. A single cif path passed as a `str` becomes one
  bare path, and `populate_cif_filename` then fails with `TypeError` when it iterates it.
- The `delete_*` methods check every name against `prmlist`, whatever the kind.
- `upload_seq` refreshes the cif list, not the sequence list.
- `_post_study_task` never passes the bundle path (`gpxfile`) to the server model, because it is
  excluded from the dump. So a submission without a measurement file is rejected before it is
  posted.
- In `params.py`, `validate_prmfile_name` demands the `.gpx` suffix.
- `validate_filesize` asserts that its argument is a list. So a single path always fails, and
  outside a resumed study only the directory source is accepted.
- `f'{None:04d}'` fails when `random_seed=None` is passed explicitly with a study-name base.

## Model

| member | source | states |
|---|---|---|
| Text.ZeroPad4RoundTrip | src/bbor_client/params/post_study/client.py:206 | a seed below 10000 formats as exactly four decimal digits that read back as the seed |
| Text.DecimalValue | src/bbor_client/params/post_study/client.py:206 | the decimal digits of a number read back as the number |
| Paths.RFind | src/bbor_client/parsers/interface.py:22-23 | the index returned holds the last occurrence of the character, or is -1 when there is none |
| Paths.Name | src/bbor_client/parsers/interface.py:21 | the final path component contains no slash and is not `.` |
| Paths.StemSuffixSplit | src/bbor_client/parsers/interface.py:22-23 | stem followed by suffix is the whole name, and a suffix is empty or starts with its dot |
| Paths.NameOfChild | src/bbor_client/gpxview.py:23-24 | an entry `dir/leaf` of a directory has the name `leaf` |
| Paths.NameIdempotent | src/bbor_client/parsers/interface.py:21 | the name of a name is the name itself |
| Paths.WithSuffixNameShape | src/bbor_client/parsers/interface.py:22 | `with_suffix(s).name` keeps the stem and carries exactly the suffix `s` |
| Util.GetFileSize | src/bbor_client/util.py:5-21 | `None` has size 0; a stream's size is its total length, and its length and position are as they were |
| Util.ApiUrl | src/bbor_client/util.py:24-32 | a URL exactly for "mdx", "local" and "docker"; any other server name raises the fixed `ValueError`, which the model tags `UnknownServer(server)` |
| Util.ApiUrlTable | src/bbor_client/util.py:24-32 | the three URLs are those of `conf.py`, and "dev" has none |
| Util.ApiUrlInjective | src/bbor_client/util.py:24-32 | two server names with the same URL are the same name |
| Util.RequireToken | src/bbor_client/util.py:35-41 | the wrapped call runs exactly when the token is truthy; otherwise "Token is empty" |
| Util.RequireTokenRefuses | src/bbor_client/util.py:37-40 | both an absent and an empty token are refused |
| ServerParams.FirstBadCif | src/bbor_client/params/post_study/server.py:111-122 | no error exactly when every cif name matches the file-name constraint and is registered |
| ServerParams.Validate | src/bbor_client/params/post_study/server.py:192-204 | the payload exactly when every field constraint and model validator holds; the payload carries the fields, the total defaulting to 200 |
| ServerParams.StudyNameLength | src/bbor_client/params/post_study/server.py:8-12 | a study name is accepted exactly when its length is in [1, 500] |
| ServerParams.TrialBudget | src/bbor_client/params/post_study/server.py:32-43 | both counts in (0, 10000), the start-up count required and at most the total; an omitted total is 200 |
| ServerParams.SeedRange | src/bbor_client/params/post_study/server.py:18-21 | a seed is accepted exactly when it is in [0, 10000) |
| ServerParams.FileNameExcludesSeparators | src/bbor_client/params/post_study/server.py:22-27 | no accepted file name contains `/`, `\` or `$` |
| ServerParams.PairsAndCeilings | src/bbor_client/params/post_study/server.py:51-99 | content and file name come together for the bundle and the measurement; at most 1 MB and 10 MB |
| ServerParams.ExactlyOneInput | src/bbor_client/params/post_study/server.py:124-153 | exactly one of bundle and measurement; a measurement needs a prm name and cif names, a bundle forbids both |
| ServerParams.RegisteredNames | src/bbor_client/params/post_study/server.py:101-165 | the prm name, every cif name and the sequence are registered; "latest" gets no exemption |
| ServerParams.EmptyCifListPasses | src/bbor_client/params/post_study/server.py:115-122 | an empty cif list passes the registry check whatever the registry holds |
| ClientParams.WrapList | src/bbor_client/params/post_study/client.py:89-94 | a single cif name becomes a one-element list, a list stays itself, `None` stays `None` |
| ClientParams.WrapCifPaths | src/bbor_client/params/post_study/client.py:96-101 | a single path passed as a `Path` becomes a one-element list; one passed as a `str` stays a single bare path; a list stays itself; `None` stays `None`; the paths named are unchanged |
| ClientParams.CifExclusive | src/bbor_client/params/post_study/client.py:103-109 | refused exactly when both cif names and cif paths are given; otherwise the fields are unchanged |
| ClientParams.PrmExclusive | src/bbor_client/params/post_study/client.py:57-63 | refused exactly when both a prm name and a prm path are given; otherwise unchanged |
| ClientParams.StudyNameExclusive | src/bbor_client/params/post_study/client.py:22-30 | accepted exactly when one of study name and base is given; otherwise unchanged |
| ClientParams.CifGuard | src/bbor_client/params/post_study/client.py:111-122 | as written, passes exactly when overwriting is allowed or every path's name is in the prm list; an error names such a path |
| ClientParams.Names | src/bbor_client/params/post_study/client.py:123 | one name per path, the path's final component, in order |
| ClientParams.PostStudyClientParams.PopulateCifFilenames | src/bbor_client/params/post_study/client.py:111-124 | the new fields are those of the populate-cif step, or the error with the fields unchanged |
| ClientParams.PostStudyClientParams.PopulatePrmFilename | src/bbor_client/params/post_study/client.py:65-80 | the new fields are those of the populate-prm step, or the error with the fields unchanged |
| ClientParams.PostStudyClientParams.GenerateStudyName | src/bbor_client/params/post_study/client.py:203-208 | the new fields are those of the name-synthesis step, or the error with the fields unchanged |
| ClientParams.Construct | src/bbor_client/params/post_study/client.py:190-208 | a fresh model whose fields are those of the normalisation specification, or its error |
| ClientParams.StudyNameExclusivity | src/bbor_client/params/post_study/client.py:22-30 | an accepted construction had exactly one of study name and base; both or neither is an error |
| ClientParams.StudyNameSynthesis | src/bbor_client/params/post_study/client.py:203-208 | an explicit name survives; otherwise the name is the base, `_s` and the zero-padded seed; an explicit `None` seed with a base is an error |
| ClientParams.SeedDefaulting | src/bbor_client/params/post_study/client.py:34-42 | an omitted seed is the draw, in [0, 9999]; an explicit seed outside [0, 10000) is an error |
| ClientParams.GeneratedNameRecoversSeed | src/bbor_client/params/post_study/client.py:206 | the synthesised name is six characters longer than the base, starts with it, and its last four digits read back as the seed |
| ClientParams.GeneratedNameFitsServer | src/bbor_client/params/post_study/client.py:206 | the synthesised name meets the server's study-name bound exactly when the base has at most 494 characters |
| ClientParams.GeneratedNameExample | src/bbor_client/params/post_study/client.py:206 | base "run" with seed 42 gives "run_s0042" |
| ClientParams.PrmPopulation | src/bbor_client/params/post_study/client.py:57-80 | a name and a path together are an error; a path's name already registered without overwrite is an error; otherwise the prm name is the given name or the path's name |
| ClientParams.CifPopulation | src/bbor_client/params/post_study/client.py:89-124 | names and paths together are an error; a single name or `Path` is wrapped; a single path given as a `str` is never wrapped, and iterating it fails; paths give their names in order; as written, a path whose name is unregistered is an error without overwrite |
| ClientParams.NormalizeKeepsFiles | src/bbor_client/params/post_study/client.py:190-199 | construction leaves the measurement, bundle and prm paths and the tags as passed |
| ClientParams.CifGuardWithEmptyRegistry | src/bbor_client/params/post_study/client.py:116 | with the never-filled (empty) prm list, any cif path fails the guard unless overwriting is allowed |
| LegacyParams.RequiredOptional | src/bbor_client/params.py:29-30 | an omitted required field is an error, `None` stays `None`, a value must meet its constraint |
| LegacyParams.ParamsUserTask.GenerateStudyName | src/bbor_client/params.py:279-284 | the new fields are those of the legacy synthesis step |
| LegacyParams.ConstructUserTask | src/bbor_client/params.py:269-284 | a fresh model whose fields are the legacy specification's, or its error |
| LegacyParams.UserTaskStudyNames | src/bbor_client/params.py:12-40 | exactly one of name and base; a base has 1 to 494 characters, so a synthesised name fits 500; both is an error |
| LegacyParams.UserTaskFieldStageNames | src/bbor_client/params.py:29-30 | neither name field may be omitted; each is kept as passed and meets its length bound |
| LegacyParams.StartupTrialsOptional | src/bbor_client/params.py:49-57 | the start-up count passes exactly when absent or in [0, total]; 0 is allowed |
| LegacyParams.LegacySeedDefaulting | src/bbor_client/params.py:73-80 | an explicit `None` seed becomes the draw; an omitted seed stays absent and then no name is synthesised |
| LegacyParams.LegacySynthesis | src/bbor_client/params.py:281-282 | the name is synthesised exactly when absent with a base and a seed; nothing else changes |
| LegacyParams.StreamNameSuffixes | src/bbor_client/params.py:100-116 | the bundle name must end in `.gpx` in any case, and so, as written, must the prm name |
| LegacyParams.InputFilesRules | src/bbor_client/params.py:121-147 | the bundle pair excludes every other input; half a pair is an error; otherwise prm name, cif names, measurement and its name are required |
| LegacyParams.FirstNonCif | src/bbor_client/params.py:203-210 | no error exactly when every cif path has the `.cif` suffix |
| LegacyParams.FilesizeCheck | src/bbor_client/params.py:222-239 | a single path always fails; a list passes exactly when every file is within 1 MB |
| LegacyParams.FirstOversize | src/bbor_client/params.py:235-238 | the index of the first file over the ceiling |
| LegacyParams.ValidateFilesize | src/bbor_client/params.py:222-239 | the size loop raises for the first oversized file, as LegacyParams.FilesizeCheck specifies |
| LegacyParams.FirstOversizeIsFirst | src/bbor_client/params.py:235-238 | an oversized file preceded only by files within the ceiling is the one reported |
| LegacyParams.ExactlyOneSource | src/bbor_client/params.py:164-183 | outside a resumed study exactly one of directory, bundle and full suite; a resumed study takes none |
| LegacyParams.AcceptedCifPaths | src/bbor_client/params.py:203-239 | every accepted cif path has the `.cif` suffix in some case and is within 1 MB |
| LegacyParams.SuffixOfChild | src/bbor_client/params.py:189 | the suffix check sees the lower-cased extension of the final component |
| LegacyParams.GpxSuffixExample | src/bbor_client/params.py:189 | `Quartz.GPX` passes the bundle check |
| LegacyParams.PrmSuffixExample | src/bbor_client/params.py:198 | `Bruker.PRM` passes the prm check |
| LegacyParams.CifSuffixExample | src/bbor_client/params.py:208 | `phase.cif.bak` fails the cif check: only the last extension counts |
| LegacyParams.OnlyDirectoryAccepted | src/bbor_client/params.py:222-234 | as written, an accepted input outside a resumed study has the directory and no bundle, prm or measurement file; cif paths may still be given beside it |
| Session.NormalizeEndpoint | src/bbor_client/client.py:53-54 | the endpoint starts with `/`; one that already did is unchanged, otherwise `/` is prefixed |
| Session.AuthHeader | src/bbor_client/client.py:56-62 | the header carries `Bearer <token>` and every other entry the caller passed, and nothing else |
| Session.DeletePrecheck | src/bbor_client/client.py:219-226 | passes exactly when absent names are ignored or every name is known; an error names an unknown name |
| Session.BBORClient.constructor | src/bbor_client/client.py:24-30 | the state of a new client: no token, empty history and lists, and no user record |
| Session.BBORClient.SendApi | src/bbor_client/client.py:42-71 | the new state and result are those of the send step |
| Session.BBORClient.GetList | src/bbor_client/client.py:169-186 | the new state and result are those of the list-refresh step |
| Session.BBORClient.GetMe | src/bbor_client/client.py:73-94 | the new state and result are those of the get-me step, which Session.GetMeOutcome proves sets the user record to the reply's user on 200 and to `None` otherwise |
| Session.BBORClient.UpdateClientParams | src/bbor_client/client.py:96-112 | the new state and result are those of the selected refreshes |
| Session.BBORClient.GetToken | src/bbor_client/client.py:114-140 | the new state and result are those of the token step, which Session.GetTokenOutcome proves sets the token and refreshes the user record and all three lists on 200, and clears the token otherwise |
| Session.BBORClient.Upload | src/bbor_client/client.py:188-209 | the new state and result are those of the upload step, which Session.UploadOutcome proves replaces the refreshed list and its registry with the next reply's names after a 200 reply |
| Session.BBORClient.PrecheckDelete | src/bbor_client/client.py:219-226 | the pre-check loop returns the pre-check's verdict and changes nothing |
| Session.BBORClient.DeleteFiles | src/bbor_client/client.py:211-239 | the new state and result are those of the delete step |
| Session.BBORClient.UploadCifs | src/bbor_client/client.py:447-449 | the new state and result are those of the cif uploads in order, stopping at the first error |
| Session.BBORClient.PostStudyTask | src/bbor_client/client.py:388-437 | the new state and result are those of the study-task step |
| Session.BBORClient.PostStudy | src/bbor_client/client.py:439-473 | the new state and result are those of the study-submission step |
| Session.New | src/bbor_client/client.py:17-40 | a client whose state is that of `__init__`: a token is requested only with both credentials |
| Session.UploadCifsStops | src/bbor_client/client.py:447-449 | once one cif upload raises, the paths after it change nothing: the outcome is that of the prefix |
| Session.InitialState | src/bbor_client/client.py:17-40 | a new client has an empty history; without both credentials no token and empty lists; with both, a 200 token reply gives its access token, and any other status leaves no token and empty lists |
| Session.NormalizeEndpointIdempotent | src/bbor_client/client.py:53-54 | normalising twice is normalising once |
| Session.AuthorizationGuard | src/bbor_client/client.py:55-62 | an authorised call without a token raises before any request; with one, the request carries `Bearer <token>` |
| Session.SendFrame | src/bbor_client/client.py:42-71 | sending changes only the reply queue and the requests sent |
| Session.GetListOutcome | src/bbor_client/client.py:169-186 | on 200 the kind's list and registry become the reply's names and the other lists stay; otherwise the lists are unchanged |
| Session.GetMeFrame | src/bbor_client/client.py:73-94 | `get_me` keeps the token, the server, the history and every list |
| Session.GetMeOutcome | src/bbor_client/client.py:73-94 | without a truthy token nothing changes and "Token is empty" is raised; on 200 the user record becomes the reply's user and is returned; on any other status it becomes `None`; whenever the call returns, the record is what it returned |
| Session.UpdateAllOutcome | src/bbor_client/client.py:96-112 | with every flag and four successful replies, the user record, the prm, cif and sequence lists and the three registries become the replies' contents, in that order, and exactly four replies are consumed |
| Session.UpdateFrame | src/bbor_client/client.py:96-112 | the refreshes keep the token, the server and the history |
| Session.GetTokenFrame | src/bbor_client/client.py:114-140 | `get_token` keeps the server and the history |
| Session.GetTokenOutcome | src/bbor_client/client.py:114-140 | a 200 reply sets the token to its access token, and an empty one fails the refresh that follows; with a non-empty token and successful replies after it, the user record, the three lists and the registries become what those replies carry; any other status clears the token and changes nothing else |
| Session.UploadOutcome | src/bbor_client/client.py:188-209 | the session is kept; after a 200 reply followed by a list reply, the upload's reply is returned and the refreshed list and its registry become that reply's names; a refused refresh changes no list; without a 200 reply no list changes; only the refreshed list may change: prm after prm, cif after cif, and, as written, cif after a sequence upload, which never touches the sequence list |
| Session.DeleteFrame | src/bbor_client/client.py:211-239 | deleting keeps the token, the server and the history |
| Session.DeleteRefusesUnknown | src/bbor_client/client.py:218-226 | a name unknown to `prmlist` raises before any request unless absent names are ignored; a single name is a one-element list |
| Session.DeleteSendsFullList | src/bbor_client/client.py:227-232 | with absent names ignored, the full unfiltered list is sent with the bearer token to the kind's endpoint |
| Session.GetListOutbox | src/bbor_client/client.py:169-186 | a list refresh only appends to the requests sent |
| Session.UploadCifsFrame | src/bbor_client/client.py:447-449 | the cif uploads keep the token, the server and the history |
| Session.PostStudyTaskFrame | src/bbor_client/client.py:388-437 | posting a study task keeps the token, the server and the history |
| Session.StudyUploadsFrame | src/bbor_client/client.py:445-449 | the uploads before posting keep the token, the server and the history |
| Session.PostStudyHistory | src/bbor_client/client.py:464-468 | after a 202 reply with a study id the history is the old one plus that id; otherwise unchanged; the token never changes |
| Session.PostStudyTaskWithoutMeasurement | src/bbor_client/client.py:410-415 | without a measurement file the server model rejects the study before anything is posted |
| Session.BundleSubmissionRejected | src/bbor_client/client.py:439-458 | as written, a bundle-only submission is rejected and never posted |
| Session.CifPathsNeedOverwrite | src/bbor_client/params/post_study/client.py:111-122 | with the empty client prm list, a submission naming cif paths without overwrite fails before any upload or post |
| CsvParser.DigitsEnd | src/bbor_client/parsers/csv.py:7 | the end of the digit run: every character before it is a digit, the one at it is not |
| CsvParser.Recognize | src/bbor_client/parsers/csv.py:6-8 | a captured separator run is non-empty and made of separators only |
| CsvParser.NumericHasNoSeps | src/bbor_client/parsers/csv.py:6-7 | a numeric token is non-empty and contains no separator |
| CsvParser.TailScanSound | src/bbor_client/parsers/csv.py:8 | what the tail scanner returns is a match of the tail grammar |
| CsvParser.TailScanComplete | src/bbor_client/parsers/csv.py:8 | every match of the tail grammar is what the tail scanner returns |
| CsvParser.RecognizeMatchesGrammar | src/bbor_client/parsers/csv.py:6-14 | the recogniser captures `sep` exactly when the whole expression matches the line with `sep` as its last separator run |
| CsvParser.SeparatorUnique | src/bbor_client/parsers/csv.py:14 | the captured separator is determined by the line |
| CsvParser.FourTokens | src/bbor_client/parsers/csv.py:8 | four numeric tokens split by three separator runs match, with the last run captured |
| CsvParser.ExampleMixedSeparators | src/bbor_client/parsers/csv.py:9 | the pattern's own example matches, capturing the comma-and-spaces run |
| CsvParser.ExampleBlankColumn | src/bbor_client/parsers/csv.py:13 | `123,, 456` matches |
| CsvParser.ExampleTextColumn | src/bbor_client/parsers/csv.py:10 | `123, abc` does not match |
| CsvParser.ExampleOneColumn | src/bbor_client/parsers/csv.py:11-12 | `123` and `123,` do not match |
| CsvParser.SepSelector | src/bbor_client/parsers/csv.py:30-40 | comma if the run has one; else the tab tuple if it has a tab; else whitespace if all space; else the run itself |
| CsvParser.CapturedSeparatorNeverLiteral | src/bbor_client/parsers/csv.py:36-39 | a separator captured from a data line never reaches the last branch |
| CsvParser.Marks | src/bbor_client/parsers/csv.py:45-46 | one verdict per line, the recogniser's |
| CsvParser.DataCount | src/bbor_client/parsers/csv.py:44-52 | the number of data lines among the first `n` is at most `n` |
| CsvParser.DetectHeaderSeparator | src/bbor_client/parsers/csv.py:42-57 | the scan loop returns the detection the specification gives |
| CsvParser.DataCountMonotone | src/bbor_client/parsers/csv.py:44-52 | counting over more lines never gives fewer data lines |
| CsvParser.DetectCharacterisation | src/bbor_client/parsers/csv.py:42-57 | success exactly at the eleventh data line with no non-data line at index 200 or beyond before it; header count is its index minus ten |
| CsvParser.DetectNeedsElevenDataLines | src/bbor_client/parsers/csv.py:47-51 | success needs eleven data lines, and the header count plus eleven is at most the line count |
| CsvParser.ParseLayout | src/bbor_client/parsers/csv.py:59-61 | the layout is the detection with the separator chosen from its captured run; an error exactly when detection fails |
| ParserInterface.PairCount | src/bbor_client/parsers/interface.py:62 | `zip` yields as many pairs as the shorter list |
| ParserInterface.CsvTextLines | src/bbor_client/parsers/interface.py:58-67 | read back line by line, the text has one line per pair, the two numbers joined by a comma, and no title line |
| ParserInterface.Parser.constructor | src/bbor_client/parsers/interface.py:16-29 | path, name, suffix and `.csv` name come from the path; header and data from the parse |
| ParserInterface.Parser.ToCsvText | src/bbor_client/parsers/interface.py:58-67 | the text written is one line per pair of the data |
| ParserInterface.Open | src/bbor_client/parsers/interface.py:16-29 | an empty name raises before parsing; a failing parse raises; otherwise a fresh parser with the derived names and parsed data |
| ParserInterface.CsvNameOfMeasurement | src/bbor_client/parsers/interface.py:22-23 | the CSV name keeps the file's stem with suffix `.csv`; stem plus extension is the file name |
| GpxView.ScanStep | src/bbor_client/gpxview.py:23-35 | one more entry extends the last-of-kind and filter results, and a project entry ends the scan |
| GpxView.FirstGpx | src/bbor_client/gpxview.py:24-26 | the index of the first project entry; no earlier entry is one |
| GpxView.PhasesOf | src/bbor_client/gpxview.py:45-51 | one phase per CIF file, named after the file's stem, in order |
| GpxView.ScanDirectory | src/bbor_client/gpxview.py:20-35 | the scan loop leaves the arguments the classification specifies |
| GpxView.LoadGpx | src/bbor_client/gpxview.py:9-58 | the project is the one the load specification gives |
| GpxView.LastOfKindAt | src/bbor_client/gpxview.py:27-32 | a variable ends at the last entry of its kind |
| GpxView.LastOfKindNone | src/bbor_client/gpxview.py:27-32 | a variable whose kind never occurs keeps the caller's value |
| GpxView.FilterKindMembers | src/bbor_client/gpxview.py:33-34 | the phase files found are exactly the entries of that kind |
| GpxView.FilterKindAppend | src/bbor_client/gpxview.py:33-34 | collecting over two parts concatenates the two collections |
| GpxView.LastOfKindSkips | src/bbor_client/gpxview.py:27-32 | an entry of another kind never changes a variable |
| GpxView.ClassifyStopsAtGpx | src/bbor_client/gpxview.py:24-26 | entries after the first project file change nothing |
| GpxView.ClassifyIgnoresOther | src/bbor_client/gpxview.py:23-35 | an entry with no recognised suffix is ignored |
| GpxView.CallerCifsDiscarded | src/bbor_client/gpxview.py:22 | scanning a directory discards the caller's phase list |
| GpxView.GpxTakesPrecedence | src/bbor_client/gpxview.py:36-40 | a project file, passed or found, is opened as it is; the other arguments play no part |
| GpxView.BuiltFromDirectory | src/bbor_client/gpxview.py:41-51 | without a project file the new project has the classified histogram files and one phase per CIF entry in scan order |
| GpxView.KindOfChild | src/bbor_client/gpxview.py:24 | a directory entry is classified by its own name |
| GpxView.UpperCaseProject | src/bbor_client/gpxview.py:24 | `Sample.GPX` is a project file |
| GpxView.FinalSuffixOnly | src/bbor_client/gpxview.py:33 | `phase.cif.bak` is ignored |
| GpxView.DotFileIsOther | src/bbor_client/gpxview.py:24 | `.gpx` alone has no suffix and is ignored |
| GpxView.InstprmIsInstrument | src/bbor_client/gpxview.py:30 | `inst.instprm` is an instrument file |
| Trial.OptionalArg | src/bbor_client/models/trial.py:14 | an optional field is present exactly when given, with the given value |
| Trial.FlagArg | src/bbor_client/models/trial.py:21 | a boolean flag is false unless set to true; an explicit `None` is refused |
| Trial.MakeRefinable | src/bbor_client/models/trial.py:13-22 | a refinable number keeps its value; unit and uncertainty are absent unless given; refine is off unless set |
| Trial.MakeConstrainable | src/bbor_client/models/trial.py:24-25 | as a refinable number, and the constraint flag is off unless set |
| Trial.DefaultsAreOff | src/bbor_client/models/trial.py:20-25 | a number given only its value is neither refined nor constrained and has no unit or uncertainty |
| Trial.MakeFloatList | src/bbor_client/models/trial.py:27-42 | accepted exactly when the uncertainties are omitted, empty or one per value; the list keeps its values |
| Trial.MakeMillerIndex | src/bbor_client/models/trial.py:44-45 | an `hkl` list is accepted exactly when it has three entries |
| Trial.MillerIndexRoundTrip | src/bbor_client/models/trial.py:44-45 | an index's list validates back to it, and an accepted list is the index's list |
| Trial.AdpModel | src/bbor_client/models/trial.py:407-432 | the discriminator names the atom variant, one tag per variant |
| Trial.SizeTag | src/bbor_client/models/trial.py:440-469 | the discriminator names the size variant, one tag per variant |
| Trial.MustrainTag | src/bbor_client/models/trial.py:471-509 | the discriminator names the microstrain variant, one tag per variant |
| Trial.PreferredOrientationTag | src/bbor_client/models/trial.py:511-538 | the discriminator names the orientation variant, one tag per variant |
| Trial.MakeSphericalHarmonics | src/bbor_client/models/trial.py:516-530 | accepted exactly when the order is even in [0, 32], the coefficients are well formed and the names, if any, match the coefficients |
| Trial.HarmonicsOrders | src/bbor_client/models/trial.py:518 | the accepted orders are exactly 0, 2, ..., 32 |
| Trial.Get | src/bbor_client/models/base.py:4-10 | reading a table gives one value per field |
| Trial.PutAt | src/bbor_client/models/base.py:6 | after serialising with distinct aliases, each alias holds its own field's value |
| Trial.PutKeeps | src/bbor_client/models/base.py:6 | keys that are no field's alias keep their value |
| Trial.GetEach | src/bbor_client/models/base.py:7 | reading every field gives the values when each field on its own does |
| Trial.GetPut | src/bbor_client/models/base.py:4-10 | with distinct aliases, reading back what was serialised gives the values |
| Trial.ReadTagged | src/bbor_client/models/trial.py:177-184 | a missing or unknown `type` is refused; an accepted document gives a known tag and one value per field |
| Trial.ReadDumpTagged | src/bbor_client/models/trial.py:177-184 | a variant with distinct aliases, none of them `type`, validates back to its tag and values |
| Trial.SampleTag | src/bbor_client/models/trial.py:78-122 | "DS", "TOF" and "BB" name the three sample variants |
| Trial.BuildSample | src/bbor_client/models/trial.py:177-184 | a tag with the right number of values builds the variant with that tag and those values |
| Trial.SampleRoundTrip | src/bbor_client/models/trial.py:49-184 | a serialised sample validates back to itself (with `transparency` under its own alias) |
| Trial.SampleNeedsKnownType | src/bbor_client/models/trial.py:177-184 | a document whose `type` is "CW" is refused |
| Trial.ShiftLostAsWritten | src/bbor_client/models/trial.py:121-175 | as declared, a Bragg-Brentano sample validates back with its shift replaced by its transparency |
| Trial.ShiftLostExample | src/bbor_client/models/trial.py:138-141 | a sample with shift 1.0 and transparency 2.0 does not round-trip as declared |
| Trial.InstrumentTag | src/bbor_client/models/trial.py:273-287 | "PXC", "PNC" and "PNT" name the three instrument variants |
| Trial.BuildInstrument | src/bbor_client/models/trial.py:388-395 | a tag with the right number of values builds the variant with that tag and those values |
| Trial.InstrumentRoundTrip | src/bbor_client/models/trial.py:186-395 | a serialised instrument validates back to itself |
| Trial.InstrumentTablesDistinct | src/bbor_client/models/trial.py:186-386 | each instrument variant's aliases are distinct and none is `type` |
| Trial.PowderCWDistinct | src/bbor_client/models/trial.py:186-271 | the constant-wavelength aliases are distinct and none is `type` |
| Trial.PowderNeutronTOFDistinct | src/bbor_client/models/trial.py:286-386 | the time-of-flight aliases are distinct and none is `type` |

## Left out

- HTTP and JSON transport: requests, status codes and parsed bodies are values. Replies come from the queue given to the client. Certificate checking and `requests` keyword handling are not modelled.
- `print` output, and the `return_response` / `return_dict` choices of what to return. Only the state changes and the errors are modelled.
- `create_user` and `ask_task_queue_status`: they only send a request and print. `get_study` is commented out in the source.
- File system access (`is_file`, `open`, `stat`, `iterdir`, `read_bytes`): a file is a path with a size, and a directory is its listing in order.
- `random.randint` is the parameter `draw`.
- `pandas.read_csv`, the `_validate` dtype check and the xrdml and 2ta parsers. The model stops at the header, the skip count and the separator that `_parse` hands to `read_csv`.
- Session.MeasurementAttachment, Session.PostStudyTaskStep and ParserInterface.Open follow the evident logic of the measurement path, not the code as written, which fails in two places. First, `_post_study_task` calls `selector(filename=...)` at client.py:398-399 and :403-404, but `selector` takes only `extension` (selector.py:5-7), so every submission with a measurement file raises `TypeError` before parsing. Second, `ParserInterface.__init__` passes `filepath.as_posix()` to `_parse` (interface.py:26), while the CSV parser reads its argument as the file's content (csv.py:59-63), so a CSV parser built from a path scans the path text and raises "Maybe measurement file too short?" (csv.py:57). With the bundle rejection of Session.BundleSubmissionRejected, `post_bborietveld_study_task` as written never posts a study. The model instead takes the measurement's `.csv` name and the size of its CSV text as given (the `Measurement` parameter), and ParserInterface.Open hands `_parse` the path as a parameter `parse` whose meaning is left to the caller. The 202 case of Session.PostStudyHistory is therefore reachable only in this evident-logic model.
- GSAS-II (`G2Project`, `add_powder_histogram`, `add_phase`) and `linear_absorption_coefficients`. The project is the plan `load_gpx` builds: a project file opened as it is, or histogram files plus one phase per CIF file. The `newgpx` argument, the path the project is written to (gpxview.py:15, :39, :43), is passed through to `G2Project` unchanged and is not carried in `Project`.
- GpxView.LoadGpx: the `Uiso` loop is left out. It evaluates a comparison and discards it, so it has no effect.
- Float formatting `f'{x}'` is the parameter `fmt`, and UTF-8 encoding of the CSV text is not modelled. ParserInterface.Parser.ToCsvText therefore states the text, not its bytes.
- `Path.as_posix()` and path normalisation beyond trailing slashes and `.` components. `Path(p).name` is modelled on `/`-separated strings.
- Python's Unicode `\w` is the parameter `isWord`. `\d` is ASCII digits only. `str.lower()` is modelled on ASCII letters.
- `str.splitlines()` splits on more line terminators than `\n`. CsvParser works on the list of lines.
- The aliasing of the caller's header dictionary by `header.update` in `send_api`. The model builds the merged header as a new map.
- `api_url` takes one argument, but `send_api` calls it with two, which raises `TypeError` as written. The model calls it with the server only.
- `params.py` uses `resume_study`, `MAX_MEAS_FILESIZE`, `MAX_FILE_SIZE` and `Path` without defining or importing them (its import at line 4 takes none of them). As written, every file field that is given raises `NameError` at line 227 or 228, because the field-name comparison at line 224 never holds. `resume_study` is a parameter. LegacyParams.FilesizeCheck and LegacyParams.ValidateFilesize model the evident logic: the 1 MB ceiling of `MAX_FILE_SIZE` in `conf.py`, with the `isinstance` checks and the list assert as written.
- LegacyParams.ConstructUserTask, LegacyParams.InputFilesRules, ServerParams.Validate, ServerParams.PairsAndCeilings and ServerParams.ExactlyOneInput model the evident logic of the stream fields, not their declared types. First, `InputFiles` in `params.py` declares `Optional[BinaryIO]` and `Optional[list[BinaryIO]]` fields (lines 91-97) without `arbitrary_types_allowed`, so pydantic refuses to build its schema when the class is defined and, as written, `ParamsUserTask` never exists; the `NameError` above is never reached. Second, `server.py` checks `gpx_filecontent` (line 52) with `isinstance(x, typing.BinaryIO)`, which no `io` stream satisfies, and `measurement_filecontent` (line 77) with `isinstance(x, BufferedReader)`, which the `BytesIO` built by `_to_csv_bytesio` does not satisfy; so, as written, neither the bundle nor the measurement branch of `PostStudyServerParams` accepts the stream the client hands it. The model gives each stream by its size and accepts any stream within its ceiling.
- Session.BBORClient.constructor: `__init__` never creates `self.me`, so reading `client.me` before `get_me` raises `AttributeError`. The model starts with `me` as `None`; no operation of the model reads it.
- `params/post_study/client.py` does not import as written. The f-strings at lines 75-77 and 119-121 are unterminated, and `Union` at line 85 is not imported. The ClientParams members, and the Session members that use them (Session.BBORClient.PostStudy, Session.PostStudyHistory, Session.BundleSubmissionRejected, Session.CifPathsNeedOverwrite), model the evident logic of that module: the messages as single-line strings and `Union` from `typing`.
- The result models of `models/trial.py` (`Trial`, `Refine`, `Rvalues`, backgrounds, lattice and phase containers) and `models/study.py`. They are plain records with no rule beyond the unions and list rules modelled here.
- `str_max_length=1000` of `ClientModel`, and field docstrings.
- Trial.ReadTagged: numbers are read as opaque refinable values. Nested validation of each number is stated separately by Trial.MakeRefinable.

## Findings

| source | as written | input that shows it | evidently intended | confidence | as-written member | corrected member |
|---|---|---|---|---|---|---|
| src/bbor_client/models/trial.py:138-141 | the `transparency` field of `SampleParametersBraggBrentano` has the alias `'Shift'`, the same as `shift`, so serialising writes the transparency over the shift and validating reads both from that one key | a Bragg-Brentano sample with shift 1.0 and transparency 2.0 validates back with shift 2.0 | alias `'Transparency'`, as the commented-out serialization alias beside it says, so the sample round-trips | not executed | Trial.ShiftLostAsWritten, Trial.ShiftLostExample | Trial.SampleRoundTrip |

=== FILE: client_params.dfy ===
/** The client-side parameter model (`PostStudyClientParams`). It turns the
    user's permissive input into the request the server model re-checks. First
    come the field constraints, then the model validators. pydantic runs them
    base class first: the cif group, the prm group, the trial budget, study-name
    exclusivity, and last the study-name synthesis. The prm, cif and study-name
    steps assign fields of the model in place, so the model is a class and
    those steps are methods. Each method is proved against a pure step function. */
module ClientParams {
  import opened Common
  import opened Conf
  import opened Text
  import opened Paths
  import ServerParams

  /** The keyword arguments of `PostStudyClientParams(...)`. `None` means the
      argument was not passed; paths are given by their text. */
  datatype ClientArgs = ClientArgs(
    studyName: Option<string>,
    studyNameBase: Option<string>,
    nTrialsTotal: Option<int>,
    nStartupTrials: Option<int>,
    randomSeed: Arg<int>,
    gpxfile: Option<string>,
    measurementfile: Option<string>,
    prmFilename: Option<string>,
    prmfile: Option<string>,
    overwritePrmfile: bool,
    cifFilenames: Option<OneOrMany<string>>,
    ciffiles: Option<PathArg>,
    overwriteCiffiles: bool,
    sequence: Option<string>,
    tags: seq<string>)

  /** How the `ciffiles` argument was passed: one `Path` object, one `str`,
      or a list of paths. */
  datatype PathArg = PathValue(path: string) | TextValue(text: string) | PathList(paths: seq<string>)

  /** The paths a `ciffiles` argument names. */
  function ArgPaths(x: PathArg): seq<string> {
    match x
    case PathValue(p) => [p]
    case TextValue(t) => [t]
    case PathList(ps) => ps
  }

  /** The field values of a constructed model. `ciffiles` is
      `Union[FilePath, list[FilePath]]`: `One` is a single path left
      unwrapped. */
  datatype Fields = Fields(
    studyName: Option<string>,
    studyNameBase: Option<string>,
    nTrialsTotal: int,
    nStartupTrials: int,
    randomSeed: Option<nat>,
    gpxfile: Option<string>,
    measurementfile: Option<string>,
    prmFilename: Option<string>,
    prmfile: Option<string>,
    overwritePrmfile: bool,
    cifFilenames: Option<seq<string>>,
    ciffiles: Option<OneOrMany<string>>,
    overwriteCiffiles: bool,
    sequence: string,
    tags: seq<string>)

  /** `ensure_ciffilenames_list`: a single name, a `str`, is wrapped. */
  function WrapList(x: Option<OneOrMany<string>>): (r: Option<seq<string>>)
    ensures x.None? <==> r.None?
    ensures x.Some? && x.value.One? ==> r == Some([x.value.item])
    ensures x.Some? && x.value.Many? ==> r == Some(x.value.items)
  {
    if x.None? then None else Some(AsList(x.value))
  }

  /** `ensure_ciffiles_list`: only a `Path` object is wrapped. A `str` is
      left alone, and pydantic then converts it into one bare path. */
  function WrapCifPaths(x: Option<PathArg>): (r: Option<OneOrMany<string>>)
    ensures x.None? <==> r.None?
    ensures x.Some? && x.value.PathValue? ==> r == Some(Many([x.value.path]))
    ensures x.Some? && x.value.TextValue? ==> r == Some(One(x.value.text))
    ensures x.Some? && x.value.PathList? ==> r == Some(Many(x.value.paths))
    ensures r.Some? ==> AsList(r.value) == ArgPaths(x.value)
  {
    match x
    case None => None
    case Some(PathValue(p)) => Some(Many([p]))
    case Some(TextValue(t)) => Some(One(t))
    case Some(PathList(ps)) => Some(Many(ps))
  }

  /** The seed field: drawn when omitted, kept `None` when passed as `None`. */
  function SeedField(s: Arg<int>, draw: nat): Option<nat>
  {
    match s
    case Omitted => Some(draw)
    case ExplicitNone => None
    case Given(n) => if n < 0 then None else Some(n)
  }

  /** Field validation: the constraint primitives, defaults, and list wrapping.
      `draw` stands for `random.randint(0, MAX_RANDOM_SEED - 1)`. */
  function FieldStage(a: ClientArgs, draw: nat): Result<Fields>
    requires draw < MaxRandomSeed
  {
    var total := if a.nTrialsTotal.Some? then a.nTrialsTotal.value else DefaultNTrialsTotal;
    if a.studyName.Some? && !ServerParams.ValidStudyName(a.studyName.value) then Err(BoundsError("study_name"))
    else if !ServerParams.ValidTrialNumber(total) then Err(BoundsError("n_trials_total"))
    else if a.nStartupTrials.None? then Err(MissingRequired("n_startup_trials"))
    else if !ServerParams.ValidTrialNumber(a.nStartupTrials.value) then Err(BoundsError("n_startup_trials"))
    else if a.randomSeed.Given? && !ServerParams.ValidRandomSeed(a.randomSeed.value) then
      Err(BoundsError("random_seed"))
    else Ok(Fields(
      a.studyName, a.studyNameBase, total, a.nStartupTrials.value, SeedField(a.randomSeed, draw),
      a.gpxfile, a.measurementfile,
      a.prmFilename, a.prmfile, a.overwritePrmfile,
      WrapList(a.cifFilenames), WrapCifPaths(a.ciffiles), a.overwriteCiffiles,
      if a.sequence.Some? then a.sequence.value else LatestSequence,
      a.tags))
  }

  // The validators that only check.

  function CifExclusive(f: Fields): (r: Result<Fields>)
    ensures r.Ok? <==> !(f.cifFilenames.Some? && f.ciffiles.Some?)
    ensures r.Ok? ==> r.value == f
  {
    if f.cifFilenames.Some? && f.ciffiles.Some? then Err(MutuallyExclusive("cif_filenames")) else Ok(f)
  }

  function PrmExclusive(f: Fields): (r: Result<Fields>)
    ensures r.Ok? <==> !(f.prmFilename.Some? && f.prmfile.Some?)
    ensures r.Ok? ==> r.value == f
  {
    if f.prmFilename.Some? && f.prmfile.Some? then Err(MutuallyExclusive("prm_filename")) else Ok(f)
  }

  function StartupWithinTotal(f: Fields): (r: Result<Fields>)
    ensures r.Ok? <==> f.nStartupTrials <= f.nTrialsTotal
    ensures r.Ok? ==> r.value == f
  {
    if f.nStartupTrials > f.nTrialsTotal then Err(BoundsError("n_startup_trials")) else Ok(f)
  }

  function StudyNameExclusive(f: Fields): (r: Result<Fields>)
    ensures r.Ok? <==> (f.studyName.Some? != f.studyNameBase.Some?)
    ensures r.Ok? ==> r.value == f
  {
    if f.studyName.Some? && f.studyNameBase.Some? then Err(MutuallyExclusive("study_name"))
    else if f.studyName.None? && f.studyNameBase.None? then Err(MissingRequired("study_name"))
    else Ok(f)
  }

  // The validators that assign, as step functions.

  /** The guard of `populate_cif_filename`, as written: the first file whose
      name is ABSENT from `prm_file_list` fails unless overwriting is allowed. */
  function CifGuard(files: seq<string>, prmFileList: seq<string>, overwrite: bool): (r: Option<Error>)
    ensures r.None? <==> overwrite || forall k | 0 <= k < |files| :: Name(files[k]) in prmFileList
    ensures r.Some? ==> exists k | 0 <= k < |files| :: r.value == NameCollision(Name(files[k]))
  {
    if files == [] || overwrite then None
    else if Name(files[0]) !in prmFileList then Some(NameCollision(Name(files[0])))
    else
      assert forall k | 1 <= k < |files| :: files[k] == files[1..][k - 1];
      CifGuard(files[1..], prmFileList, overwrite)
  }

  function Names(files: seq<string>): (r: seq<string>)
    ensures |r| == |files|
    ensures forall k | 0 <= k < |files| :: r[k] == Name(files[k])
  {
    seq(|files|, k requires 0 <= k < |files| => Name(files[k]))
  }

  /** `populate_cif_filename`. Iterating a bare path raises `TypeError`. */
  function PopulateCif(f: Fields, prmFileList: seq<string>): Result<Fields>
  {
    if f.cifFilenames.None? && f.ciffiles.Some? then
      if f.ciffiles.value.One? then Err(TypeMismatch("ciffiles"))
      else
        var g := CifGuard(f.ciffiles.value.items, prmFileList, f.overwriteCiffiles);
        if g.Some? then Err(g.value) else Ok(f.(cifFilenames := Some(Names(f.ciffiles.value.items))))
    else Ok(f)
  }

  function PopulatePrm(f: Fields, prmFileList: seq<string>): Result<Fields>
  {
    if f.prmFilename.None? && f.prmfile.Some? then
      var n := Name(f.prmfile.value);
      if n in prmFileList && !f.overwritePrmfile then Err(NameCollision(n))
      else Ok(f.(prmFilename := Some(n)))
    else Ok(f)
  }

  /** `f'{x}'` of an optional string: Python renders `None` as the text "None". */
  function BaseText(b: Option<string>): string {
    if b.Some? then b.value else "None"
  }

  function GeneratedName(base: string, seed: nat): string {
    base + "_s" + ZeroPad4(seed)
  }

  /** `generate_study_name`: formatting a `None` seed with `:04d` fails. */
  function Generate(f: Fields): Result<Fields>
  {
    if f.studyName.None? then
      if f.randomSeed.None? then Err(FormatError("random_seed"))
      else Ok(f.(studyName := Some(GeneratedName(BaseText(f.studyNameBase), f.randomSeed.value))))
    else Ok(f)
  }

  /** The whole construction, validators in the order pydantic runs them. */
  function NormalizeSpec(a: ClientArgs, prmFileList: seq<string>, draw: nat): Result<Fields>
    requires draw < MaxRandomSeed
  {
    var f0 :- FieldStage(a, draw);
    var f1 :- CifExclusive(f0);
    var f2 :- PopulateCif(f1, prmFileList);
    var f3 :- PrmExclusive(f2);
    var f4 :- PopulatePrm(f3, prmFileList);
    var f5 :- StartupWithinTotal(f4);
    var f6 :- StudyNameExclusive(f5);
    Generate(f6)
  }

  class PostStudyClientParams {
    var studyName: Option<string>
    var studyNameBase: Option<string>
    var nTrialsTotal: int
    var nStartupTrials: int
    var randomSeed: Option<nat>
    var gpxfile: Option<string>
    var measurementfile: Option<string>
    var prmFilename: Option<string>
    var prmfile: Option<string>
    var overwritePrmfile: bool
    var cifFilenames: Option<seq<string>>
    var ciffiles: Option<OneOrMany<string>>
    var overwriteCiffiles: bool
    var sequence: string
    var tags: seq<string>

    function Snapshot(): Fields
      reads this
    {
      Fields(studyName, studyNameBase, nTrialsTotal, nStartupTrials, randomSeed,
             gpxfile, measurementfile, prmFilename, prmfile, overwritePrmfile,
             cifFilenames, ciffiles, overwriteCiffiles, sequence, tags)
    }

    constructor (f: Fields)
      ensures Snapshot() == f
    {
      studyName, studyNameBase := f.studyName, f.studyNameBase;
      nTrialsTotal, nStartupTrials, randomSeed := f.nTrialsTotal, f.nStartupTrials, f.randomSeed;
      gpxfile, measurementfile := f.gpxfile, f.measurementfile;
      prmFilename, prmfile, overwritePrmfile := f.prmFilename, f.prmfile, f.overwritePrmfile;
      cifFilenames, ciffiles, overwriteCiffiles := f.cifFilenames, f.ciffiles, f.overwriteCiffiles;
      sequence, tags := f.sequence, f.tags;
    }

    /** `populate_cif_filename`: scan the paths, stop at the first that trips
        the guard, otherwise record their names in order. */
    method PopulateCifFilenames(prmFileList: seq<string>) returns (err: Option<Error>)
      modifies this
      ensures var s := PopulateCif(old(Snapshot()), prmFileList);
              (s.Ok? ==> err.None? && Snapshot() == s.value) &&
              (s.Err? ==> err == Some(s.error) && Snapshot() == old(Snapshot()))
    {
      if cifFilenames.None? && ciffiles.Some? {
        if ciffiles.value.One? {
          return Some(TypeMismatch("ciffiles"));
        }
        var files := ciffiles.value.items;
        var k := 0;
        while k < |files|
          invariant 0 <= k <= |files|
          invariant CifGuard(files, prmFileList, overwriteCiffiles)
                 == CifGuard(files[k..], prmFileList, overwriteCiffiles)
        {
          if Name(files[k]) !in prmFileList && !overwriteCiffiles {
            return Some(NameCollision(Name(files[k])));
          }
          assert files[k..][1..] == files[k + 1..];
          k := k + 1;
        }
        cifFilenames := Some(Names(files));
      }
      return None;
    }

    /** `populate_prm_filename`. */
    method PopulatePrmFilename(prmFileList: seq<string>) returns (err: Option<Error>)
      modifies this
      ensures var s := PopulatePrm(old(Snapshot()), prmFileList);
              (s.Ok? ==> err.None? && Snapshot() == s.value) &&
              (s.Err? ==> err == Some(s.error) && Snapshot() == old(Snapshot()))
    {
      if prmFilename.None? && prmfile.Some? {
        var n := Name(prmfile.value);
        if n in prmFileList && !overwritePrmfile {
          return Some(NameCollision(n));
        }
        prmFilename := Some(n);
      }
      return None;
    }

    /** `generate_study_name`. */
    method GenerateStudyName() returns (err: Option<Error>)
      modifies this
      ensures var s := Generate(old(Snapshot()));
              (s.Ok? ==> err.None? && Snapshot() == s.value) &&
              (s.Err? ==> err == Some(s.error) && Snapshot() == old(Snapshot()))
    {
      if studyName.None? {
        if randomSeed.None? {
          return Some(FormatError("random_seed"));
        }
        studyName := Some(GeneratedName(BaseText(studyNameBase), randomSeed.value));
      }
      return None;
    }
  }

  /** `PostStudyClientParams(**kwargs)`: a model whose fields are those the
      validators leave, or the first validation error. */
  method Construct(a: ClientArgs, prmFileList: seq<string>, draw: nat)
    returns (res: Result<PostStudyClientParams>)
    requires draw < MaxRandomSeed
    ensures var s := NormalizeSpec(a, prmFileList, draw);
            (res.Ok? <==> s.Ok?) && (res.Ok? ==> fresh(res.value) && res.value.Snapshot() == s.value)
  {
    var f0 :- FieldStage(a, draw);
    var f1 :- CifExclusive(f0);
    var p := new PostStudyClientParams(f1);
    var e := p.PopulateCifFilenames(prmFileList);
    if e.Some? { return Err(e.value); }
    var f3 :- PrmExclusive(p.Snapshot());
    e := p.PopulatePrmFilename(prmFileList);
    if e.Some? { return Err(e.value); }
    var f5 :- StartupWithinTotal(p.Snapshot());
    var f6 :- StudyNameExclusive(f5);
    e := p.GenerateStudyName();
    if e.Some? { return Err(e.value); }
    return Ok(p);
  }

  // Properties of the construction.

  /** Exactly one of `study_name` and `study_name_base` must be given. */
  lemma StudyNameExclusivity(a: ClientArgs, prmFileList: seq<string>, draw: nat)
    requires draw < MaxRandomSeed
    ensures NormalizeSpec(a, prmFileList, draw).Ok? ==> (a.studyName.Some? != a.studyNameBase.Some?)
    ensures a.studyName.Some? && a.studyNameBase.Some? ==> NormalizeSpec(a, prmFileList, draw).Err?
    ensures a.studyName.None? && a.studyNameBase.None? ==> NormalizeSpec(a, prmFileList, draw).Err?
  {
  }

  /** An explicit study name survives unchanged; otherwise the name is
      `base + "_s" + NNNN` for the seed in effect: the drawn one when the seed
      is omitted, the given one when it is explicit. An explicit `None` seed fails. */
  lemma StudyNameSynthesis(a: ClientArgs, prmFileList: seq<string>, draw: nat)
    requires draw < MaxRandomSeed
    ensures var r := NormalizeSpec(a, prmFileList, draw);
            r.Ok? ==>
              && (a.studyName.Some? ==> r.value.studyName == a.studyName)
              && (a.studyName.None? && a.randomSeed.Omitted? ==>
                    r.value.studyName == Some(GeneratedName(a.studyNameBase.value, draw)))
              && (a.studyName.None? && a.randomSeed.Given? ==>
                    r.value.studyName == Some(GeneratedName(a.studyNameBase.value, a.randomSeed.value)))
    ensures a.studyName.None? && a.randomSeed.ExplicitNone? ==> NormalizeSpec(a, prmFileList, draw).Err?
  {
  }

  /** The seed is the draw, in [0, 9999], when omitted; an explicit seed is
      accepted only within [0, 10000). */
  lemma SeedDefaulting(a: ClientArgs, prmFileList: seq<string>, draw: nat)
    requires draw < MaxRandomSeed
    ensures var r := NormalizeSpec(a, prmFileList, draw);
            r.Ok? && a.randomSeed.Omitted? ==> r.value.randomSeed == Some(draw) && draw <= 9999
    ensures a.randomSeed.Given? && !(0 <= a.randomSeed.value < 10000) ==>
              NormalizeSpec(a, prmFileList, draw).Err?
  {
  }

  /** For a seed below 10000 the synthesised name is the base, `_s`, and four
      digits that read back as the seed. */
  lemma {:induction false} GeneratedNameRecoversSeed(base: string, seed: nat)
    requires seed < 10000
    ensures |GeneratedName(base, seed)| == |base| + 6
    ensures GeneratedName(base, seed)[..|base|] == base
    ensures var tail := GeneratedName(base, seed)[|base| + 2..];
            AllDigits(tail) && ValueOf(tail) == seed
  {
    ZeroPad4RoundTrip(seed);
    var n := GeneratedName(base, seed);
    assert n[|base| + 2..] == ZeroPad4(seed);
  }

  /** The synthesised name passes the server's study-name bound iff the base
      has at most 494 characters. */
  lemma GeneratedNameFitsServer(base: string, seed: nat)
    requires seed < 10000
    ensures ServerParams.ValidStudyName(GeneratedName(base, seed)) <==> |base| <= 494
  {
    GeneratedNameRecoversSeed(base, seed);
  }

  lemma GeneratedNameExample()
    ensures GeneratedName("run", 42) == "run_s0042"
  {
    assert Decimal(42) == "42" by {
      assert Decimal(4) == "4";
    }
  }

  /** Passing both a prm file name and a prm path is an error; passing only a
      path fills in the path's name unless that name is registered and
      overwriting is not allowed; an explicit name is left unchanged. */
  lemma PrmPopulation(a: ClientArgs, prmFileList: seq<string>, draw: nat)
    requires draw < MaxRandomSeed
    ensures a.prmFilename.Some? && a.prmfile.Some? ==> NormalizeSpec(a, prmFileList, draw).Err?
    ensures a.prmFilename.None? && a.prmfile.Some? && Name(a.prmfile.value) in prmFileList && !a.overwritePrmfile ==>
              NormalizeSpec(a, prmFileList, draw).Err?
    ensures var r := NormalizeSpec(a, prmFileList, draw);
            r.Ok? ==>
              && (a.prmFilename.Some? ==> r.value.prmFilename == a.prmFilename)
              && (a.prmFilename.None? && a.prmfile.Some? ==> r.value.prmFilename == Some(Name(a.prmfile.value)))
              && (a.prmFilename.None? && a.prmfile.None? ==> r.value.prmFilename.None?)
  {
  }

  /** A single cif name, or a single path passed as a `Path`, is wrapped into
      a one-element list; a single path passed as a `str` is not, and the
      construction fails. Passing both names and paths is an error. With
      paths only, the names are those of the paths in the same order, unless
      the guard (as written) trips. */
  lemma CifPopulation(a: ClientArgs, prmFileList: seq<string>, draw: nat)
    requires draw < MaxRandomSeed
    ensures a.cifFilenames.Some? && a.ciffiles.Some? ==> NormalizeSpec(a, prmFileList, draw).Err?
    ensures var r := NormalizeSpec(a, prmFileList, draw);
            r.Ok? ==>
              && (a.cifFilenames.Some? ==> r.value.cifFilenames == Some(AsList(a.cifFilenames.value)))
              && (a.cifFilenames.Some? && a.cifFilenames.value.One? ==>
                    r.value.cifFilenames == Some([a.cifFilenames.value.item]))
              && (a.ciffiles.Some? ==> r.value.cifFilenames == Some(Names(ArgPaths(a.ciffiles.value))))
              && (a.ciffiles.Some? && a.ciffiles.value.PathValue? ==>
                    r.value.cifFilenames == Some([Name(a.ciffiles.value.path)]))
    ensures a.ciffiles.Some? && a.ciffiles.value.TextValue? ==> NormalizeSpec(a, prmFileList, draw).Err?
    ensures a.cifFilenames.None? && a.ciffiles.Some? && !a.overwriteCiffiles &&
            (exists k | 0 <= k < |ArgPaths(a.ciffiles.value)| :: Name(ArgPaths(a.ciffiles.value)[k]) !in prmFileList) ==>
              NormalizeSpec(a, prmFileList, draw).Err?
  {
    if a.ciffiles.Some? && a.ciffiles.value.PathValue? {
      var xs := [a.ciffiles.value.path];
      assert Names(xs) == [Name(a.ciffiles.value.path)];
    }
  }

  /** The construction never touches the stream paths, the tags or the
      overwrite flags: they come out as they went in. */
  lemma NormalizeKeepsFiles(a: ClientArgs, prmFileList: seq<string>, draw: nat)
    requires draw < MaxRandomSeed
    ensures var r := NormalizeSpec(a, prmFileList, draw);
            r.Ok? ==>
              && r.value.measurementfile == a.measurementfile
              && r.value.gpxfile == a.gpxfile
              && r.value.prmfile == a.prmfile
              && r.value.tags == a.tags
  {
    var r := NormalizeSpec(a, prmFileList, draw);
    if r.Ok? {
      var f0 := FieldStage(a, draw).value;
      var f1 := CifExclusive(f0).value;
      var f2 := PopulateCif(f1, prmFileList).value;
      var f3 := PrmExclusive(f2).value;
      var f4 := PopulatePrm(f3, prmFileList).value;
      var f5 := StartupWithinTotal(f4).value;
      var f6 := StudyNameExclusive(f5).value;
      assert r == Generate(f6);
      assert SameFiles(f2, f0);
      assert SameFiles(f4, f0);
      assert SameFiles(r.value, f0);
    }
  }

  /** The stream paths and the tags of two field sets agree. */
  predicate SameFiles(f: Fields, g: Fields) {
    && f.measurementfile == g.measurementfile
    && f.gpxfile == g.gpxfile
    && f.prmfile == g.prmfile
    && f.tags == g.tags
  }

  /** The client-side `prm_file_list` is never filled at runtime, so with the
      guard as written any cif path fails unless overwriting is allowed. */
  lemma CifGuardWithEmptyRegistry(files: seq<string>)
    requires files != []
    ensures CifGuard(files, [], false).Some?
    ensures CifGuard(files, [], true).None?
  {
  }
}

=== FILE: common.dfy ===
/** Shared value types: optional values, results carrying the client's error
    taxonomy, and the two "permissive input" shapes the parameter models accept. */
module Common {

  datatype Option<+T> = None | Some(value: T)

  /** Why a validation or a client call failed. Python raises these as
      `ValueError`, `KeyError` or `TypeError`; the model returns them. */
  datatype Error =
    | BoundsError(field: string)          // a constraint primitive is violated
    | PatternError(field: string)         // a file name outside the allowed character class
    | SuffixError(field: string)          // a file name with the wrong extension
    | FileTooLarge(field: string)         // a payload above its size ceiling
    | MutuallyExclusive(field: string)    // two alternatives were both supplied
    | MissingRequired(field: string)      // a required alternative was not supplied
    | NotOnServer(name: string)           // a name absent from a server registry
    | InvalidSequence(name: string)       // a sequence name absent from the registry
    | NameCollision(name: string)         // an upload would overwrite without consent
    | NotFoundOnServer(name: string)      // a delete names a file the client does not know
    | TokenEmpty                          // an authorised call without a token
    | UnknownServer(name: string)         // a server selector with no configured URL
    | FormatError(field: string)          // formatting None with `:04d`
    | TypeMismatch(field: string)         // a value of the wrong Python type
    | CannotParse                         // a CSV file whose data block is not found
    | TooShort                            // a CSV file that ends before the data block
    | NoResponse                          // the transport delivered no reply
    | EmptyName                           // pathlib's with_suffix on a path with no name
    | LengthMismatch(field: string)       // two lists a model requires to be equally long

  datatype Result<+T> = Ok(value: T) | Err(error: Error) {
    predicate IsFailure() { Err? }
    function PropagateFailure<U>(): Result<U> requires Err? { Err(error) }
    function Extract(): T requires Ok? { value }
  }

  /** A keyword argument that pydantic may see omitted, explicitly `None`, or
      set. pydantic runs after-validators on an explicit `None` but never on an
      omitted default. */
  datatype Arg<+T> = Omitted | ExplicitNone | Given(value: T)

  /** A field declared as `Union[T, list[T]]`, or filled from a single value
      that a before-validator wraps into a list. */
  datatype OneOrMany<T> = One(item: T) | Many(items: seq<T>)

  /** The list a `OneOrMany` denotes once a single value is wrapped. */
  function AsList<T>(x: OneOrMany<T>): (r: seq<T>)
    ensures x.One? ==> r == [x.item]
    ensures x.Many? ==> r == x.items
  {
    match x
    case One(i) => [i]
    case Many(xs) => xs
  }
}

=== FILE: conf.dfy ===
/** Configuration constants of the client (bbor_client/conf.py). */
module Conf {

  const MB: nat := 1024 * 1024

  const MaxStudyNameLength: nat := 500
  const MinStudyNameLength: nat := 1
  const DefaultNTrialsTotal: nat := 200
  const MaxNTrialsTotal: nat := 10000
  const MaxRandomSeed: nat := 10000
  const MaxFileNameLength: nat := 256
  const MaxFileSize: nat := 1 * MB
  const MaxMeasFileSize: nat := 10 * MB

  const MfileSuffixes: seq<string> := [".csv"]
  const PrmSuffixes: seq<string> := [".prm", ".instprm"]
  const CifSuffixes: seq<string> := [".cif"]

  const ServerAddress: string := "api.bborietveld.quantumbeam.org"
  const ApiUrlMdx: string := "https://" + ServerAddress
  const ApiUrlLocal: string := "http://localhost:8000"
  const ApiUrlDocker: string := "http://bborapi:8000"

  /** The sequence name the client-side model uses when none is given. */
  const LatestSequence: string := "latest"
}

=== FILE: csv_parser.dfy ===
/** The CSV measurement parser (bbor_client/parsers/csv.py): a hand-written
    recogniser for the numeric data lines of a histogram, the scan that finds
    where the header ends, and the choice of separator handed to the table
    reader. The regular expression `DPATTERN` of csv.py is given twice: as a
    deterministic scanner (`Recognize`) and as a ghost grammar that admits
    every way of splitting a line the way the expression does (`LineMatch`).
    The two are proved to agree, so the captured separator is unique. */
module CsvParser {
  import opened Common
  import opened Text

  /** Data lines that must precede the one that ends the scan. */
  const MinMatchingLines: nat := 10

  /** Lines that may be skipped as non-data before the scan gives up. */
  const MaxReadLines: nat := 200

  /** Python's Unicode whitespace (what `\s` and `str.isspace` accept). */
  predicate IsSpace(c: char) {
    || c == '\t' || c == '\n' || c == '\U{000B}' || c == '\U{000C}' || c == '\r'
    || ('\U{001C}' <= c <= '\U{001F}') || c == ' ' || c == '\U{0085}' || c == '\U{00A0}'
    || c == '\U{1680}' || ('\U{2000}' <= c <= '\U{200A}') || c == '\U{2028}' || c == '\U{2029}'
    || c == '\U{202F}' || c == '\U{205F}' || c == '\U{3000}'
  }

  /** The class `[,\s]`. */
  predicate IsSep(c: char) { c == ',' || IsSpace(c) }

  predicate AllSeps(s: string) { forall k | 0 <= k < |s| :: IsSep(s[k]) }

  predicate NoSeps(s: string) { forall k | 0 <= k < |s| :: !IsSep(s[k]) }

  predicate IsSign(c: char) { c == '+' || c == '-' }

  /** The end of the run of digits starting at `i`. */
  function DigitsEnd(t: string, i: nat): (r: nat)
    requires i <= |t|
    ensures i <= r <= |t|
    ensures r < |t| ==> !IsDigit(t[r])
    decreases |t| - i
  {
    if i < |t| && IsDigit(t[i]) then DigitsEnd(t, i + 1) else i
  }

  lemma {:induction false} DigitsEndDigits(t: string, i: nat)
    requires i <= |t|
    ensures forall k | i <= k < DigitsEnd(t, i) :: IsDigit(t[k])
    decreases |t| - i
  {
    if i < |t| && IsDigit(t[i]) {
      DigitsEndDigits(t, i + 1);
    }
  }

  /** The optional exponent `[eE][+-]?\d+`, which must end the token. */
  predicate ExponentOk(t: string, c: nat)
    requires c <= |t|
  {
    || c == |t|
    || ((t[c] == 'e' || t[c] == 'E') &&
        var d := if c + 1 < |t| && IsSign(t[c + 1]) then c + 2 else c + 1;
        var e := DigitsEnd(t, d);
        e > d && e == |t|)
  }

  /** A whole token matches the NUMERIC pattern: an optional sign, then
      digits with an optional fraction or a dot and at least one digit, then
      an optional exponent. */
  predicate IsNumeric(t: string) {
    var a := if |t| > 0 && IsSign(t[0]) then 1 else 0;
    var b := DigitsEnd(t, a);
    var dot := b < |t| && t[b] == '.';
    var c := if dot then DigitsEnd(t, b + 1) else b;
    (b > a || c > b + 1) && ExponentOk(t, c)
  }

  /** The end of the separator run starting at `i`. */
  function SepEnd(s: string, i: nat): (r: nat)
    requires i <= |s|
    ensures i <= r <= |s|
    ensures AllSeps(s[i..r])
    ensures r < |s| ==> !IsSep(s[r])
    decreases |s| - i
  {
    if i < |s| && IsSep(s[i]) then
      var r := SepEnd(s, i + 1);
      assert forall k | 1 <= k < r - i :: s[i..r][k] == s[i + 1..r][k - 1];
      r
    else i
  }

  /** The end of the token starting at `i`. */
  function TokEnd(s: string, i: nat): (r: nat)
    requires i <= |s|
    ensures i <= r <= |s|
    ensures NoSeps(s[i..r])
    ensures r < |s| ==> IsSep(s[r])
    decreases |s| - i
  {
    if i < |s| && !IsSep(s[i]) then
      var r := TokEnd(s, i + 1);
      assert forall k | 1 <= k < r - i :: s[i..r][k] == s[i + 1..r][k - 1];
      r
    else i
  }

  /** Scans `(SEP+ NUMERIC)+ SEP*` from position `j` to the end of `s` and
      returns the separator run before the last token. */
  function TailScan(s: string, j: nat): (r: Option<string>)
    requires j <= |s|
    ensures r.Some? ==> |r.value| > 0 && AllSeps(r.value)
    decreases |s| - j
  {
    var i := SepEnd(s, j);
    if i == j || i == |s| then None
    else
      var k := TokEnd(s, i);
      if !IsNumeric(s[i..k]) then None
      else if SepEnd(s, k) == |s| then Some(s[j..i])
      else TailScan(s, k)
  }

  /** `DPATTERN.match(line)`, with `match.group(1)` as the result. */
  function Recognize(line: string): (r: Option<string>)
    ensures r.Some? ==> |r.value| > 0 && AllSeps(r.value)
  {
    var i := SepEnd(line, 0);
    if i == |line| then None
    else
      var k := TokEnd(line, i);
      if !IsNumeric(line[i..k]) then None
      else TailScan(line, k)
  }

  // The grammar of the expression: every split it admits.

  /** One split of `s[j..]` as a separator run `s[j..a]`, a numeric token
      `s[a..b]`, and then either trailing separators (with `sep` the run just
      split off) or a further tail. */
  ghost predicate TailSplit(s: string, j: nat, sep: string, a: nat, b: nat)
    decreases |s| - j, 0
  {
    && j < a < b <= |s|
    && AllSeps(s[j..a])
    && IsNumeric(s[a..b])
    && ((AllSeps(s[b..]) && sep == s[j..a]) || TailMatch(s, b, sep))
  }

  /** `s[j..]` matches `(SEP+ NUMERIC)+ SEP*` and `sep` is the separator run
      before the last token. */
  ghost predicate TailMatch(s: string, j: nat, sep: string)
    decreases |s| - j, 1
  {
    exists a: nat, b: nat :: TailSplit(s, j, sep, a, b)
  }

  /** `line` matches the whole expression: leading separators, a numeric
      token and a tail, with `sep` the captured group. */
  ghost predicate LineMatch(line: string, sep: string) {
    exists a: nat, b: nat | a < b <= |line| ::
      AllSeps(line[..a]) && IsNumeric(line[a..b]) && TailMatch(line, b, sep)
  }

  // Properties of the recogniser.

  lemma NumericHasNoSeps(t: string)
    requires IsNumeric(t)
    ensures |t| > 0 && NoSeps(t)
  {
    var a := if |t| > 0 && IsSign(t[0]) then 1 else 0;
    var b := DigitsEnd(t, a);
    DigitsEndDigits(t, a);
    var dot := b < |t| && t[b] == '.';
    var c := if dot then DigitsEnd(t, b + 1) else b;
    if dot {
      DigitsEndDigits(t, b + 1);
    }
    if c < |t| {
      var d := if c + 1 < |t| && IsSign(t[c + 1]) then c + 2 else c + 1;
      DigitsEndDigits(t, d);
    }
  }

  lemma {:induction false} SepEndUnique(s: string, i: nat, m: nat)
    requires i <= m <= |s|
    requires AllSeps(s[i..m]) && (m < |s| ==> !IsSep(s[m]))
    ensures SepEnd(s, i) == m
    decreases m - i
  {
    if i < m {
      assert s[i] == s[i..m][0];
      assert s[i + 1..m] == s[i..m][1..];
      SepEndUnique(s, i + 1, m);
    }
  }

  lemma {:induction false} TokEndUnique(s: string, i: nat, m: nat)
    requires i <= m <= |s|
    requires NoSeps(s[i..m]) && (m < |s| ==> IsSep(s[m]))
    ensures TokEnd(s, i) == m
    decreases m - i
  {
    if i < m {
      assert s[i] == s[i..m][0];
      assert s[i + 1..m] == s[i..m][1..];
      TokEndUnique(s, i + 1, m);
    }
  }

  lemma TailMatchStartsWithSep(s: string, j: nat, sep: string)
    requires TailMatch(s, j, sep)
    ensures j < |s| && IsSep(s[j])
  {
    var a: nat, b: nat :| TailSplit(s, j, sep, a, b);
    assert s[j..a][0] == s[j];
  }

  lemma TailMatchHasToken(s: string, j: nat, sep: string)
    requires j <= |s| && TailMatch(s, j, sep)
    ensures !AllSeps(s[j..])
  {
    var a: nat, b: nat :| TailSplit(s, j, sep, a, b);
    NumericHasNoSeps(s[a..b]);
    assert s[a..b][0] == s[j..][a - j];
  }

  lemma {:induction false} TailScanSound(s: string, j: nat)
    requires j <= |s|
    ensures TailScan(s, j).Some? ==> TailMatch(s, j, TailScan(s, j).value)
    decreases |s| - j
  {
    var i := SepEnd(s, j);
    if i != j && i != |s| {
      var k := TokEnd(s, i);
      if IsNumeric(s[i..k]) {
        if SepEnd(s, k) == |s| {
          assert s[k..|s|] == s[k..];
          assert TailSplit(s, j, s[j..i], i, k);
        } else if TailScan(s, k).Some? {
          TailScanSound(s, k);
          assert TailSplit(s, j, TailScan(s, k).value, i, k);
        }
      }
    }
  }

  /** One step of the scanner, at a token where the grammar put one. */
  lemma TailScanAt(s: string, j: nat, a: nat, b: nat)
    requires j < a < b <= |s|
    requires AllSeps(s[j..a]) && IsNumeric(s[a..b])
    requires b < |s| ==> IsSep(s[b])
    ensures TailScan(s, j) == if SepEnd(s, b) == |s| then Some(s[j..a]) else TailScan(s, b)
  {
    NumericHasNoSeps(s[a..b]);
    assert s[a] == s[a..b][0];
    SepEndUnique(s, j, a);
    TokEndUnique(s, a, b);
  }

  lemma {:induction false} TailScanComplete(s: string, j: nat, sep: string)
    requires j <= |s|
    requires TailMatch(s, j, sep)
    ensures TailScan(s, j) == Some(sep)
    decreases |s| - j
  {
    var a: nat, b: nat :| TailSplit(s, j, sep, a, b);
    if b < |s| {
      if AllSeps(s[b..]) {
        assert s[b..][0] == s[b];
      } else {
        TailMatchStartsWithSep(s, b, sep);
      }
    }
    TailScanAt(s, j, a, b);
    assert s[b..] == s[b..|s|];
    if AllSeps(s[b..]) {
      SepEndUnique(s, b, |s|);
      if sep != s[j..a] {
        TailMatchHasToken(s, b, sep);
      }
    } else {
      var e := SepEnd(s, b);
      assert e != |s| by {
        assert AllSeps(s[b..e]);
      }
      TailScanComplete(s, b, sep);
    }
  }

  /** The scanner and the grammar agree: a line is a data line with separator
      `sep` exactly when the expression can split it with `sep` as the last
      separator run. */
  lemma RecognizeMatchesGrammar(line: string, sep: string)
    ensures Recognize(line) == Some(sep) <==> LineMatch(line, sep)
  {
    var i := SepEnd(line, 0);
    if Recognize(line) == Some(sep) {
      var k := TokEnd(line, i);
      TailScanSound(line, k);
      assert line[..i] == line[0..i];
      assert AllSeps(line[..i]) && IsNumeric(line[i..k]) && TailMatch(line, k, sep);
    }
    if LineMatch(line, sep) {
      var a: nat, b: nat :| a < b <= |line| && AllSeps(line[..a]) && IsNumeric(line[a..b]) && TailMatch(line, b, sep);
      NumericHasNoSeps(line[a..b]);
      assert line[..a] == line[0..a];
      assert line[a] == line[a..b][0];
      SepEndUnique(line, 0, a);
      if b < |line| {
        TailMatchStartsWithSep(line, b, sep);
      }
      TokEndUnique(line, a, b);
      TailScanComplete(line, b, sep);
    }
  }

  /** The captured separator is determined by the line. */
  lemma SeparatorUnique(line: string, a: string, b: string)
    requires LineMatch(line, a) && LineMatch(line, b)
    ensures a == b
  {
    RecognizeMatchesGrammar(line, a);
    RecognizeMatchesGrammar(line, b);
  }

  lemma SepsBetween(s: string, i: nat, j: nat)
    requires i <= j <= |s|
    requires forall k | i <= k < j :: IsSep(s[k])
    ensures AllSeps(s[i..j])
  {
  }

  lemma SliceIs(s: string, i: nat, t: string)
    requires i + |t| <= |s|
    requires forall k | 0 <= k < |t| :: s[i + k] == t[k]
    ensures s[i..i + |t|] == t
  {
  }

  /** Where each piece of a line joined from seven pieces sits. */
  lemma Pieces(t0: string, s1: string, t1: string, s2: string, t2: string, s3: string, t3: string,
               n0: nat, n1: nat, n2: nat, n3: nat, n4: nat, n5: nat)
    requires n0 == |t0| && n1 == n0 + |s1| && n2 == n1 + |t1|
    requires n3 == n2 + |s2| && n4 == n3 + |t2| && n5 == n4 + |s3|
    ensures var line := t0 + s1 + t1 + s2 + t2 + s3 + t3;
            && |line| == n5 + |t3|
            && line[..0] == [] && line[0..n0] == t0
            && line[n0..n1] == s1 && line[n1..n2] == t1
            && line[n2..n3] == s2 && line[n3..n4] == t2
            && line[n4..n5] == s3 && line[n5..|line|] == t3 && line[|line|..] == []
  {
    var p1 := t0 + s1;
    var p2 := p1 + t1;
    var p3 := p2 + s2;
    var p4 := p3 + t2;
    var p5 := p4 + s3;
    var line := p5 + t3;
    assert p1[0..n0] == t0 && p1[n0..n1] == s1;
    Grow(p1, t1, 0, n0, t0); Grow(p1, t1, n0, n1, s1);
    Grow(p2, s2, 0, n0, t0); Grow(p2, s2, n0, n1, s1); Grow(p2, s2, n1, n2, t1);
    Grow(p3, t2, 0, n0, t0); Grow(p3, t2, n0, n1, s1); Grow(p3, t2, n1, n2, t1); Grow(p3, t2, n2, n3, s2);
    Grow(p4, s3, 0, n0, t0); Grow(p4, s3, n0, n1, s1); Grow(p4, s3, n1, n2, t1); Grow(p4, s3, n2, n3, s2);
    Grow(p4, s3, n3, n4, t2);
    Grow(p5, t3, 0, n0, t0); Grow(p5, t3, n0, n1, s1); Grow(p5, t3, n1, n2, t1); Grow(p5, t3, n2, n3, s2);
    Grow(p5, t3, n3, n4, t2); Grow(p5, t3, n4, n5, s3);
    assert line[n5..|line|] == t3;
  }

  /** A slice of a prefix is unchanged by appending. */
  lemma Grow(p: string, y: string, i: nat, j: nat, x: string)
    requires i <= j <= |p| && p[i..j] == x
    ensures (p + y)[i..j] == x
    ensures (p + y)[|p|..] == y
  {
    assert (p + y)[i..j] == p[i..j];
  }

  /** A separator run `s[j..a]` and a numeric token `s[a..b]`, followed by
      trailing separators or a further tail, extend the tail. */
  lemma TailAt(s: string, j: nat, a: nat, b: nat, sep: string)
    requires j < a < b <= |s| && AllSeps(s[j..a]) && IsNumeric(s[a..b])
    requires (AllSeps(s[b..]) && sep == s[j..a]) || TailMatch(s, b, sep)
    ensures TailMatch(s, j, sep)
  {
    assert TailSplit(s, j, sep, a, b);
  }

  /** Four numeric tokens split by three separator runs match, with the
      last run captured. */
  lemma FourTokens(t0: string, s1: string, t1: string, s2: string, t2: string, s3: string, t3: string)
    requires IsNumeric(t0) && IsNumeric(t1) && IsNumeric(t2) && IsNumeric(t3)
    requires |s1| > 0 && AllSeps(s1) && |s2| > 0 && AllSeps(s2) && |s3| > 0 && AllSeps(s3)
    ensures LineMatch(t0 + s1 + t1 + s2 + t2 + s3 + t3, s3)
  {
    var line := t0 + s1 + t1 + s2 + t2 + s3 + t3;
    var n0 := |t0|;
    var n1 := n0 + |s1|;
    var n2 := n1 + |t1|;
    var n3 := n2 + |s2|;
    var n4 := n3 + |t2|;
    var n5 := n4 + |s3|;
    Pieces(t0, s1, t1, s2, t2, s3, t3, n0, n1, n2, n3, n4, n5);
    NumericHasNoSeps(t0);
    NumericHasNoSeps(t3);
    assert AllSeps(line[|line|..]);
    TailAt(line, n4, n5, |line|, s3);
    NumericHasNoSeps(t2);
    TailAt(line, n2, n3, n4, s3);
    NumericHasNoSeps(t1);
    TailAt(line, n0, n1, n2, s3);
    assert AllSeps(line[..0]) && IsNumeric(line[0..n0]) && TailMatch(line, n0, s3);
  }

  /** The line of the pattern's own example, token by token. */
  const MixedLine: string := "123" + "     " + "-.456" + "\t" + "+7e-8" + ",     " + ".9"

  /** The examples that accompany the pattern. */
  lemma ExampleMixedSeparators()
    ensures Recognize(MixedLine) == Some(",     ")
  {
    assert IsNumeric("123") && IsNumeric("-.456") && IsNumeric("+7e-8") && IsNumeric(".9");
    assert AllSeps("     ") && AllSeps("\t") && AllSeps(",     ");
    FourTokens("123", "     ", "-.456", "\t", "+7e-8", ",     ", ".9");
    RecognizeMatchesGrammar(MixedLine, ",     ");
  }

  lemma ExampleBlankColumn()
    ensures Recognize("123,, 456") == Some(",, ")
  {
    var line := "123,, 456";
    var sep := ",, ";
    SliceIs(line, 3, sep);
    SepsBetween(line, 3, 6);
    SliceIs(line, 0, "123");
    SliceIs(line, 6, "456");
    assert IsNumeric("123") && IsNumeric("456");
    assert TailSplit(line, 3, sep, 6, 9);
    assert AllSeps(line[..0]) && IsNumeric(line[0..3]) && TailMatch(line, 3, sep);
    RecognizeMatchesGrammar(line, sep);
  }

  lemma ExampleTextColumn()
    ensures Recognize("123, abc") == None
  {
    var line := "123, abc";
    SepEndUnique(line, 0, 0);
    TokEndUnique(line, 0, 3);
    SepEndUnique(line, 3, 5);
    TokEndUnique(line, 5, 8);
    SliceIs(line, 5, "abc");
    assert !IsNumeric("abc");
  }

  lemma ExampleOneColumn()
    ensures Recognize("123") == None
    ensures Recognize("123,") == None
  {
    var one := "123";
    SepEndUnique(one, 0, 0);
    TokEndUnique(one, 0, 3);
    SepEndUnique(one, 3, 3);
    var two := "123,";
    SepEndUnique(two, 0, 0);
    TokEndUnique(two, 0, 3);
    SepEndUnique(two, 3, 4);
  }

  // The separator handed to the table reader.

  /** `_sep_selector`. The tab branch yields, as written, a one-element tuple
      rather than a string. */
  datatype Separator = Comma | TabTuple | Whitespace | Literal(text: string)

  predicate IsSpaceText(s: string) {
    |s| > 0 && forall k | 0 <= k < |s| :: IsSpace(s[k])
  }

  function SepSelector(s: string): (r: Separator)
    ensures r == Comma <==> ',' in s
    ensures r == TabTuple <==> ',' !in s && '\t' in s
    ensures r == Whitespace <==> ',' !in s && '\t' !in s && IsSpaceText(s)
    ensures r.Literal? ==> r.text == s
  {
    if ',' in s then Comma
    else if '\t' in s then TabTuple
    else if IsSpaceText(s) then Whitespace
    else Literal(s)
  }

  /** A separator captured from a data line always selects one of the first
      three branches: the last branch is unreachable. */
  lemma CapturedSeparatorNeverLiteral(line: string)
    requires Recognize(line).Some?
    ensures !SepSelector(Recognize(line).value).Literal?
  {
    var s := Recognize(line).value;
    if ',' !in s {
      assert forall k | 0 <= k < |s| :: IsSpace(s[k]) by {
        forall k | 0 <= k < |s| ensures IsSpace(s[k]) {
          assert s[k] in s;
        }
      }
    }
  }

  // The header scan.

  /** What `_detect_header_separator` returns. */
  datatype Detection = Detection(header: string, headerCount: nat, sep: string)

  /** The recogniser's verdict on every line. */
  function Marks(lines: seq<string>): (m: seq<Option<string>>)
    ensures |m| == |lines|
    ensures forall k | 0 <= k < |lines| :: m[k] == Recognize(lines[k])
  {
    seq(|lines|, k requires 0 <= k < |lines| => Recognize(lines[k]))
  }

  /** The number of data lines among the first `n`. */
  function DataCount(marks: seq<Option<string>>, n: nat): (c: nat)
    requires n <= |marks|
    ensures c <= n
  {
    if n == 0 then 0 else DataCount(marks, n - 1) + (if marks[n - 1].Some? then 1 else 0)
  }

  /** The scan from line `i`, with `count` data lines seen so far; `marks`
      holds the verdict on each line. */
  function DetectFrom(lines: seq<string>, marks: seq<Option<string>>, i: nat, count: nat): Result<Detection>
    requires |marks| == |lines| && count <= i <= |lines|
    decreases |lines| - i
  {
    if i == |lines| then Err(TooShort)
    else if marks[i].Some? then
      if count >= MinMatchingLines then Ok(Detection(Join(lines[..i - count], "\n"), i - count, marks[i].value))
      else DetectFrom(lines, marks, i + 1, count + 1)
    else if i < MaxReadLines then DetectFrom(lines, marks, i + 1, count)
    else Err(CannotParse)
  }

  function Detect(lines: seq<string>): Result<Detection> {
    DetectFrom(lines, Marks(lines), 0, 0)
  }

  /** `_detect_header_separator` over the lines of the content. */
  method DetectHeaderSeparator(lines: seq<string>) returns (res: Result<Detection>)
    ensures res == Detect(lines)
  {
    ghost var marks := Marks(lines);
    var count := 0;
    var i := 0;
    while i < |lines|
      invariant count <= i <= |lines|
      invariant DetectFrom(lines, marks, i, count) == Detect(lines)
    {
      var m := Recognize(lines[i]);
      assert m == marks[i];
      if m.Some? {
        if count >= MinMatchingLines {
          return Ok(Detection(Join(lines[..i - count], "\n"), i - count, m.value));
        }
        count := count + 1;
      } else if i >= MaxReadLines {
        return Err(CannotParse);
      }
      i := i + 1;
    }
    return Err(TooShort);
  }

  lemma {:induction false} DataCountMonotone(marks: seq<Option<string>>, m: nat, n: nat)
    requires m <= n <= |marks|
    ensures DataCount(marks, m) <= DataCount(marks, n)
    decreases n - m
  {
    if m < n {
      DataCountMonotone(marks, m, n - 1);
    }
  }

  /** Line `i` ends the scan begun at `from`: it is a data line preceded by
      exactly ten data lines, and no non-data line at index 200 or beyond
      lies between. */
  predicate EndsScan(marks: seq<Option<string>>, i: nat, from: nat)
    requires from <= i < |marks|
  {
    && marks[i].Some?
    && DataCount(marks, i) == MinMatchingLines
    && forall k | from <= k < i :: marks[k].Some? || k < MaxReadLines
  }

  function DetectionAt(lines: seq<string>, marks: seq<Option<string>>, i: nat): Detection
    requires |marks| == |lines| && MinMatchingLines <= i < |lines| && marks[i].Some?
  {
    Detection(Join(lines[..i - MinMatchingLines], "\n"), i - MinMatchingLines, marks[i].value)
  }

  lemma {:induction false} DetectFromOk(lines: seq<string>, marks: seq<Option<string>>, i0: nat, d: Detection)
    requires |marks| == |lines| && i0 <= |lines| && DataCount(marks, i0) <= MinMatchingLines
    ensures DetectFrom(lines, marks, i0, DataCount(marks, i0)) == Ok(d) <==>
            exists i | i0 <= i < |lines| :: EndsScan(marks, i, i0) && d == DetectionAt(lines, marks, i)
    decreases |lines| - i0
  {
    if i0 < |lines| {
      var count := DataCount(marks, i0);
      assert DataCount(marks, i0 + 1) == count + (if marks[i0].Some? then 1 else 0);
      if marks[i0].Some? && count >= MinMatchingLines {
        assert EndsScan(marks, i0, i0);
        forall i | i0 < i < |lines| ensures !EndsScan(marks, i, i0) {
          DataCountMonotone(marks, i0 + 1, i);
        }
      } else if marks[i0].Some? || i0 < MaxReadLines {
        DetectFromOk(lines, marks, i0 + 1, d);
        forall i | i0 + 1 <= i < |lines| ensures EndsScan(marks, i, i0) <==> EndsScan(marks, i, i0 + 1) {
        }
        if exists i | i0 <= i < |lines| :: EndsScan(marks, i, i0) && d == DetectionAt(lines, marks, i) {
          var i :| i0 <= i < |lines| && EndsScan(marks, i, i0) && d == DetectionAt(lines, marks, i);
          assert i != i0;
        }
      } else {
        forall i | i0 <= i < |lines| ensures !EndsScan(marks, i, i0) {
          if i > i0 {
            assert !(marks[i0].Some? || i0 < MaxReadLines);
          }
        }
      }
    }
  }

  /** The scan succeeds exactly at the eleventh data line, provided no
      non-data line at index 200 or beyond comes before it. The header count
      is that line's index minus ten, and the header is the lines before
      that index, joined by newlines. When non-data lines sit among the data
      lines counted, that index falls after the first of them. The separator
      is the one captured from the eleventh data line. */
  lemma DetectCharacterisation(lines: seq<string>, d: Detection)
    ensures var marks := Marks(lines);
            Detect(lines) == Ok(d) <==>
            exists i | 0 <= i < |lines| :: EndsScan(marks, i, 0) && d == DetectionAt(lines, marks, i)
  {
    DetectFromOk(lines, Marks(lines), 0, d);
  }

  /** Success needs at least eleven data lines; the header count plus eleven
      is at most the number of lines. */
  lemma DetectNeedsElevenDataLines(lines: seq<string>, marks: seq<Option<string>>, d: Detection)
    requires |marks| == |lines| && DetectFrom(lines, marks, 0, 0) == Ok(d)
    ensures DataCount(marks, |lines|) >= MinMatchingLines + 1
    ensures d.headerCount + MinMatchingLines + 1 <= |lines|
  {
    DetectFromOk(lines, marks, 0, d);
    var i :| 0 <= i < |lines| && EndsScan(marks, i, 0) && d == DetectionAt(lines, marks, i);
    DataCountMonotone(marks, i + 1, |lines|);
  }

  /** The layout `_parse` hands to the table reader: the detection and the
      separator chosen from the captured run. */
  function ParseLayout(lines: seq<string>): (r: Result<(Detection, Separator)>)
    ensures r.Ok? ==> Detect(lines) == Ok(r.value.0)
    ensures r.Ok? ==> r.value.1 == SepSelector(r.value.0.sep)
    ensures r.Err? <==> Detect(lines).Err?
  {
    var d :- Detect(lines);
    Ok((d, SepSelector(d.sep)))
  }
}

=== FILE: gpxview.dfy ===
/** The input-directory classification of `load_gpx` (bbor_client/gpxview.py):
    which directory entry becomes the GSAS-II project, the measurement file,
    the instrument-parameter file and the phase files, and what project is
    then built. The GSAS-II calls themselves are described, not performed:
    the result is the plan `load_gpx` hands to `G2Project`. */
module GpxView {
  import opened Common
  import opened Text
  import opened Paths
  import Conf

  /** The branch of the classification an entry falls into, tested in the
      order of `load_gpx` on the lower-cased suffix of the entry's name. */
  datatype FileKind = GpxProject | MeasurementFile | InstrumentFile | PhaseFile | OtherFile

  function KindOf(file: string): FileKind {
    KindOfName(Name(file))
  }

  /** The classification of an entry by its name. */
  function KindOfName(name: string): FileKind {
    var suffix := Lower(Suffix(name));
    if EndsWith(suffix, ".gpx") then GpxProject
    else if EndsWithAny(suffix, Conf.MfileSuffixes) then MeasurementFile
    else if EndsWithAny(suffix, Conf.PrmSuffixes) then InstrumentFile
    else if EndsWithAny(suffix, Conf.CifSuffixes) then PhaseFile
    else OtherFile
  }

  /** The file arguments of `load_gpx`; `None` is a missing argument. */
  datatype Inputs = Inputs(gpxfile: Option<string>, mfile: Option<string>,
                           prmfile: Option<string>, ciffiles: Option<seq<string>>)

  /** A phase added to a new project: the CIF file and the phase name, its stem. */
  datatype Phase = Phase(file: string, name: string)

  /** What `G2Project` is asked for: open an existing project, or build a new
      one from a powder histogram and its phases. */
  datatype Project =
    | FromGpx(gpxfile: string)
    | Built(mfile: Option<string>, prmfile: Option<string>, phases: seq<Phase>)

  /** A directory entry with the branch it falls into. */
  datatype Entry = Entry(file: string, kind: FileKind)

  /** The listing with each entry's kind under the suffix test `classify`. */
  function Tagged(entries: seq<string>, classify: string -> FileKind): seq<Entry> {
    seq(|entries|, i requires 0 <= i < |entries| => Entry(entries[i], classify(entries[i])))
  }

  /** What one more entry does to the scan: it extends every last-of-kind
      and filter result of the tagged prefix, and a project entry is where
      the scan of the whole listing stops. */
  lemma ScanStep(entries: seq<string>, i: nat, classify: string -> FileKind)
    requires i < |entries| && FirstGpx(Tagged(entries[..i], classify)) == i
    ensures var prev, next := Tagged(entries[..i], classify), Tagged(entries[..i + 1], classify);
            var e := Entry(entries[i], classify(entries[i]));
            && (forall k: FileKind, fallback: Option<string> ::
                  LastOfKind(next, k, fallback) == if e.kind == k then Some(e.file) else LastOfKind(prev, k, fallback))
            && (forall k: FileKind :: FilterKind(next, k) == FilterKind(prev, k) + if e.kind == k then [e.file] else [])
            && (e.kind != GpxProject ==> FirstGpx(next) == i + 1)
            && (e.kind == GpxProject ==> var all := Tagged(entries, classify);
                                         FirstGpx(all) == i && all[..i] == prev && all[i] == e)
  {
    var prev, next := Tagged(entries[..i], classify), Tagged(entries[..i + 1], classify);
    var e := Entry(entries[i], classify(entries[i]));
    assert next == prev + [e];
    assert next[..i] == prev;
    if e.kind == GpxProject {
      var all := Tagged(entries, classify);
      assert all[..i] == prev;
      assert all[i] == e;
      assert forall k | 0 <= k < i :: all[k] == prev[k];
      assert FirstGpx(all) == i;
    } else {
      assert forall k | 0 <= k < i :: next[k] == prev[k];
    }
  }

  /** The index of the first project entry, or `|es|` when there is none. */
  function FirstGpx(es: seq<Entry>): (i: nat)
    ensures i <= |es|
    ensures i < |es| ==> es[i].kind == GpxProject
    ensures forall k | 0 <= k < i :: es[k].kind != GpxProject
  {
    if es == [] then 0
    else if es[0].kind == GpxProject then 0
    else 1 + FirstGpx(es[1..])
  }

  /** The value a variable holds after the scan reassigns it at every entry
      of `kind`, starting from `fallback`. */
  function LastOfKind(es: seq<Entry>, kind: FileKind, fallback: Option<string>): Option<string> {
    if es == [] then fallback
    else if es[|es| - 1].kind == kind then Some(es[|es| - 1].file)
    else LastOfKind(es[..|es| - 1], kind, fallback)
  }

  /** The files of the entries of `kind`, in scan order. */
  function FilterKind(es: seq<Entry>, kind: FileKind): seq<string> {
    if es == [] then []
    else
      var last := es[|es| - 1];
      FilterKind(es[..|es| - 1], kind) + (if last.kind == kind then [last.file] else [])
  }

  /** The arguments once a scan over these tagged entries is done. */
  function ClassifiedEntries(es: seq<Entry>, given: Inputs): Inputs {
    var stop := FirstGpx(es);
    var scanned := es[..stop];
    Inputs(if stop < |es| then Some(es[stop].file) else given.gpxfile,
           LastOfKind(scanned, MeasurementFile, given.mfile),
           LastOfKind(scanned, InstrumentFile, given.prmfile),
           Some(FilterKind(scanned, PhaseFile)))
  }

  /** The arguments once an input directory with these entries is scanned. */
  function Classified(entries: seq<string>, given: Inputs): Inputs {
    ClassifiedEntries(Tagged(entries, KindOf), given)
  }

  /** One phase per CIF file, named after the file's stem. */
  function PhasesOf(ciffiles: seq<string>): (ps: seq<Phase>)
    ensures |ps| == |ciffiles|
    ensures forall i | 0 <= i < |ps| :: ps[i] == Phase(ciffiles[i], Stem(Name(ciffiles[i])))
  {
    seq(|ciffiles|, i requires 0 <= i < |ciffiles| => Phase(ciffiles[i], Stem(Name(ciffiles[i]))))
  }

  /** The project built from the (possibly classified) arguments; without a
      project file the phase list must be a list (`assert isinstance`). */
  function Plan(a: Inputs): Result<Project> {
    if a.gpxfile.Some? then Ok(FromGpx(a.gpxfile.value))
    else if a.ciffiles.None? then Err(TypeMismatch("ciffiles"))
    else Ok(Built(a.mfile, a.prmfile, PhasesOf(a.ciffiles.value)))
  }

  /** `load_gpx`: the input directory, when given, is its listing. */
  function LoadSpec(listing: Option<seq<string>>, given: Inputs): Result<Project> {
    Plan(if listing.Some? then Classified(listing.value, given) else given)
  }

  /** The classification loop of `load_gpx`: the entries in listing order,
      each tested with `classify`, stopping at the first project file. The
      phase list starts empty whatever the caller passed. */
  method ScanDirectory(entries: seq<string>, given: Inputs, classify: string -> FileKind) returns (a: Inputs)
    ensures a == ClassifiedEntries(Tagged(entries, classify), given)
  {
    var gpxfile, mfile, prmfile := given.gpxfile, given.mfile, given.prmfile;
    var ciffiles: seq<string> := [];
    var i := 0;
    while i < |entries|
      invariant 0 <= i <= |entries|
      invariant FirstGpx(Tagged(entries[..i], classify)) == i
      invariant gpxfile == given.gpxfile
      invariant mfile == LastOfKind(Tagged(entries[..i], classify), MeasurementFile, given.mfile)
      invariant prmfile == LastOfKind(Tagged(entries[..i], classify), InstrumentFile, given.prmfile)
      invariant ciffiles == FilterKind(Tagged(entries[..i], classify), PhaseFile)
    {
      var file := entries[i];
      var kind := classify(file);
      ScanStep(entries, i, classify);
      if kind == GpxProject {
        gpxfile := Some(file);
        break;
      } else if kind == MeasurementFile {
        mfile := Some(file);
      } else if kind == InstrumentFile {
        prmfile := Some(file);
      } else if kind == PhaseFile {
        ciffiles := ciffiles + [file];
      }
      i := i + 1;
    }
    assert entries[..|entries|] == entries;
    ghost var all := Tagged(entries, classify);
    assert all[..FirstGpx(all)] == Tagged(entries[..i], classify);
    a := Inputs(gpxfile, mfile, prmfile, Some(ciffiles));
  }

  /** `load_gpx`: the directory, when given, is scanned with the suffix test
      of `KindOf`; then a project file is opened, or a project is built. */
  method LoadGpx(listing: Option<seq<string>>, given: Inputs) returns (res: Result<Project>)
    ensures res == LoadSpec(listing, given)
  {
    var a := given;
    if listing.Some? {
      a := ScanDirectory(listing.value, given, KindOf);
    }
    if a.gpxfile.Some? {
      res := Ok(FromGpx(a.gpxfile.value));
    } else if a.ciffiles.None? {
      res := Err(TypeMismatch("ciffiles"));
    } else {
      res := Ok(Built(a.mfile, a.prmfile, PhasesOf(a.ciffiles.value)));
    }
  }

  /** The scan leaves a variable at the last entry of its kind. */
  lemma {:induction false} LastOfKindAt(es: seq<Entry>, kind: FileKind, fallback: Option<string>, i: nat)
    requires i < |es| && es[i].kind == kind
    requires forall k | i < k < |es| :: es[k].kind != kind
    ensures LastOfKind(es, kind, fallback) == Some(es[i].file)
  {
    var n := |es| - 1;
    if i < n {
      var init := es[..n];
      assert forall k | i < k < n :: init[k] == es[k];
      LastOfKindAt(init, kind, fallback, i);
    }
  }

  /** A variable whose kind the scan never meets keeps the caller's value. */
  lemma {:induction false} LastOfKindNone(es: seq<Entry>, kind: FileKind, fallback: Option<string>)
    requires forall k | 0 <= k < |es| :: es[k].kind != kind
    ensures LastOfKind(es, kind, fallback) == fallback
  {
    if es != [] {
      var n := |es| - 1;
      var init := es[..n];
      assert forall k | 0 <= k < n :: init[k] == es[k];
      LastOfKindNone(init, kind, fallback);
    }
  }

  /** The phase files found are exactly the files of the entries of that kind. */
  lemma {:induction false} FilterKindMembers(es: seq<Entry>, kind: FileKind)
    ensures forall f :: f in FilterKind(es, kind) <==> Entry(f, kind) in es
  {
    if es != [] {
      var n := |es| - 1;
      var init := es[..n];
      FilterKindMembers(init, kind);
      assert es == init + [es[n]];
    }
  }

  /** Filtering a concatenation filters each part. */
  lemma {:induction false} FilterKindAppend(xs: seq<Entry>, ys: seq<Entry>, kind: FileKind)
    ensures FilterKind(xs + ys, kind) == FilterKind(xs, kind) + FilterKind(ys, kind)
    decreases |ys|
  {
    if ys != [] {
      var n := |ys| - 1;
      assert (xs + ys)[..|xs| + n] == xs + ys[..n];
      FilterKindAppend(xs, ys[..n], kind);
    } else {
      assert xs + ys == xs;
    }
  }

  /** An entry of another kind never wins the last-of-kind race. */
  lemma {:induction false} LastOfKindSkips(pre: seq<Entry>, e: Entry, post: seq<Entry>, kind: FileKind, fallback: Option<string>)
    requires e.kind != kind
    ensures LastOfKind(pre + [e] + post, kind, fallback) == LastOfKind(pre + post, kind, fallback)
    decreases |post|
  {
    if post == [] {
      assert pre + [e] + post == pre + [e];
      assert (pre + [e])[..|pre|] == pre;
      assert pre + post == pre;
    } else {
      var n := |post| - 1;
      assert (pre + [e] + post)[..|pre| + 1 + n] == pre + [e] + post[..n];
      assert (pre + post)[..|pre| + n] == pre + post[..n];
      LastOfKindSkips(pre, e, post[..n], kind, fallback);
    }
  }

  /** Once a project file has been met, the entries after it change nothing. */
  lemma ClassifyStopsAtGpx(es: seq<Entry>, tail: seq<Entry>, given: Inputs)
    requires FirstGpx(es) < |es|
    ensures ClassifiedEntries(es + tail, given) == ClassifiedEntries(es, given)
  {
    var stop := FirstGpx(es);
    var whole := es + tail;
    assert whole[stop] == es[stop];
    assert forall k | 0 <= k < stop :: whole[k] == es[k];
    assert FirstGpx(whole) == stop;
    assert whole[..stop] == es[..stop];
  }

  /** An entry whose suffix is none of the recognised ones is ignored. */
  lemma ClassifyIgnoresOther(pre: seq<Entry>, e: Entry, post: seq<Entry>, given: Inputs)
    requires e.kind == OtherFile
    ensures ClassifiedEntries(pre + [e] + post, given) == ClassifiedEntries(pre + post, given)
  {
    var with := pre + [e] + post;
    var without := pre + post;
    var stop := FirstGpx(without);
    if stop < |pre| {
      assert forall k | 0 <= k <= stop :: with[k] == without[k];
      assert FirstGpx(with) == stop;
      assert with[..stop] == without[..stop];
    } else {
      var stop1 := stop + 1;
      forall k | 0 <= k < stop1
        ensures with[k].kind != GpxProject
      {
        if k > |pre| { assert with[k] == without[k - 1]; }
        else if k < |pre| { assert with[k] == without[k]; }
      }
      if stop < |without| {
        assert with[stop1] == without[stop];
      }
      assert FirstGpx(with) == stop1;
      var mid := without[|pre|..stop];
      assert with[..stop1] == pre + [e] + mid;
      assert without[..stop] == pre + mid;
      LastOfKindSkips(pre, e, mid, MeasurementFile, given.mfile);
      LastOfKindSkips(pre, e, mid, InstrumentFile, given.prmfile);
      FilterKindAppend(pre + [e], mid, PhaseFile);
      FilterKindAppend(pre, mid, PhaseFile);
      assert FilterKind(pre + [e], PhaseFile) == FilterKind(pre, PhaseFile) by {
        assert (pre + [e])[..|pre|] == pre;
      }
    }
  }

  /** Scanning a directory discards any phase list the caller passed. */
  lemma CallerCifsDiscarded(entries: seq<string>, given: Inputs, ciffiles: Option<seq<string>>)
    ensures Classified(entries, given).ciffiles == Some(FilterKind(Tagged(entries, KindOf)[..FirstGpx(Tagged(entries, KindOf))], PhaseFile))
    ensures Classified(entries, given) == Classified(entries, given.(ciffiles := ciffiles))
  {
  }

  /** A project file, passed in or found in the directory, is opened as it
      is: the measurement, instrument and phase arguments play no part. */
  lemma GpxTakesPrecedence(listing: Option<seq<string>>, given: Inputs, other: Inputs)
    requires given.gpxfile.Some? && other.gpxfile == given.gpxfile
    ensures listing.None? ==> LoadSpec(listing, given) == LoadSpec(listing, other) == Ok(FromGpx(given.gpxfile.value))
    ensures listing.Some? && FirstGpx(Tagged(listing.value, KindOf)) < |listing.value| ==>
              LoadSpec(listing, given) == Ok(FromGpx(listing.value[FirstGpx(Tagged(listing.value, KindOf))]))
  {
  }

  /** Without a project file, the new project has the classified histogram
      files and one phase per CIF entry in scan order. */
  lemma BuiltFromDirectory(entries: seq<string>, given: Inputs)
    requires FirstGpx(Tagged(entries, KindOf)) == |entries| && given.gpxfile.None?
    ensures var es := Tagged(entries, KindOf);
            LoadSpec(Some(entries), given) ==
              Ok(Built(LastOfKind(es, MeasurementFile, given.mfile),
                       LastOfKind(es, InstrumentFile, given.prmfile),
                       PhasesOf(FilterKind(es, PhaseFile))))
  {
    var es := Tagged(entries, KindOf);
    assert es[..FirstGpx(es)] == es;
  }

  /** An entry of a directory is classified by its own name. */
  lemma KindOfChild(dir: string, leaf: string)
    requires leaf != [] && '/' !in leaf && leaf != "."
    ensures KindOf(dir + "/" + leaf) == KindOfName(leaf)
  {
    NameOfChild(dir, leaf);
  }

  /** The suffix test ignores case. */
  lemma UpperCaseProject()
    ensures KindOfName("Sample.GPX") == GpxProject
  {
    var n := "Sample.GPX";
    RFindAt(n, '.', 6);
    assert Suffix(n) == ".GPX";
  }

  /** Only the final suffix counts: a backed-up CIF file is ignored. */
  lemma FinalSuffixOnly()
    ensures KindOfName("phase.cif.bak") == OtherFile
  {
    var n := "phase.cif.bak";
    RFindAt(n, '.', 9);
    assert Suffix(n) == ".bak";
  }

  /** A name that only starts with a dot has no suffix, so `.gpx` is ignored. */
  lemma DotFileIsOther()
    ensures KindOfName(".gpx") == OtherFile
  {
    RFindAt(".gpx", '.', 0);
  }

  /** The longer instrument-parameter suffix makes an instrument file. */
  lemma InstprmIsInstrument()
    ensures KindOfName("inst.instprm") == InstrumentFile
  {
    RFindAt("inst.instprm", '.', 4);
    assert Suffix("inst.instprm") == ".instprm";
    assert EndsWith(".instprm", Conf.PrmSuffixes[1]);
  }
}

=== FILE: legacy_params.dfy ===
/** The older parameter models in bbor_client/params.py: `ParamsUserTask`
    (study name, trial budget, seed, named input streams) and the path-based
    `InputFilesInput` checks. `ParamsUserTask.generate_study_name` assigns
    the study name in place, so that model is a class. The rest are checks. */
module LegacyParams {
  import opened Common
  import opened Conf
  import opened Text
  import opened Paths
  import ServerParams
  import ClientParams

  /** `StudyNameBaseConstraints`: room is left for the `_sNNNN` suffix. */
  const MaxStudyNameBaseLength: nat := MaxStudyNameLength - 6

  predicate ValidStudyNameBase(s: string) {
    MinStudyNameLength <= |s| <= MaxStudyNameBaseLength
  }

  /** The named input streams of `InputFiles`. A stream counts only by its
      presence; a list of cif streams likewise. */
  datatype InputFiles = InputFiles(
    gpxfile: bool,
    gpxfileName: Option<string>,
    prmfile: bool,
    prmfileName: Option<string>,
    mfile: bool,
    mfileName: Option<string>,
    ciffiles: bool,
    ciffileNames: Option<seq<string>>)

  datatype SaveInputFiles = SaveInputFiles(prm: bool, cif: bool, sequencefile: bool)

  /** The keyword arguments of `ParamsUserTask(...)`. `study_name` and
      `study_name_base` have no default, so omitting them is an error. */
  datatype UserTaskArgs = UserTaskArgs(
    studyName: Arg<string>,
    studyNameBase: Arg<string>,
    nTrialsTotal: Option<int>,
    nStartupTrials: Option<int>,
    randomSeed: Arg<int>,
    files: InputFiles,
    save: SaveInputFiles)

  datatype UserTaskFields = UserTaskFields(
    studyName: Option<string>,
    studyNameBase: Option<string>,
    nTrialsTotal: int,
    nStartupTrials: Option<int>,
    randomSeed: Option<nat>,
    files: InputFiles,
    save: SaveInputFiles)

  /** A required optional string: omitted is an error, `None` stays `None`,
      a value must satisfy `ok`. */
  function RequiredOptional(a: Arg<string>, ok: string -> bool, field: string): (r: Result<Option<string>>)
    ensures a.Omitted? ==> r.Err?
    ensures a.ExplicitNone? ==> r == Ok(None)
    ensures a.Given? ==> (r.Ok? <==> ok(a.value)) && (r.Ok? ==> r.value == Some(a.value))
  {
    match a
    case Omitted => Err(MissingRequired(field))
    case ExplicitNone => Ok(None)
    case Given(s) => if ok(s) then Ok(Some(s)) else Err(BoundsError(field))
  }

  /** `generate_random_seed` runs only on a passed value: an explicit `None`
      is replaced by the draw; an omitted seed keeps its `None` default. */
  function LegacySeed(a: Arg<int>, draw: nat): Result<Option<nat>>
  {
    match a
    case Omitted => Ok(None)
    case ExplicitNone => Ok(Some(draw))
    case Given(n) => if 0 <= n < MaxRandomSeed then Ok(Some(n)) else Err(BoundsError("random_seed"))
  }

  /** `validate_gpxfile_name`, and `validate_prmfile_name`, which as written
      also demands the `.gpx` suffix. */
  predicate GpxSuffixedName(n: Option<string>) {
    n.None? || EndsWith(Lower(n.value), ".gpx")
  }

  function UserTaskFieldStage(a: UserTaskArgs, draw: nat): Result<UserTaskFields>
    requires draw < MaxRandomSeed
  {
    var name :- RequiredOptional(a.studyName, ServerParams.ValidStudyName, "study_name");
    var base :- RequiredOptional(a.studyNameBase, ValidStudyNameBase, "study_name_base");
    var total := if a.nTrialsTotal.Some? then a.nTrialsTotal.value else DefaultNTrialsTotal;
    if !ServerParams.ValidTrialNumber(total) then Err(BoundsError("n_trials_total"))
    else
      var seed :- LegacySeed(a.randomSeed, draw);
      if !GpxSuffixedName(a.files.gpxfileName) then Err(SuffixError("gpxfile_name"))
      else if !GpxSuffixedName(a.files.prmfileName) then Err(SuffixError("prmfile_name"))
      else Ok(UserTaskFields(name, base, total, a.nStartupTrials, seed, a.files, a.save))
  }

  /** `InputFiles.validate_exclusive_input_files`. */
  function ExclusiveInputFiles(f: InputFiles): (r: Option<Error>)
  {
    if f.gpxfile && f.gpxfileName.Some? then
      if f.prmfile || f.prmfileName.Some? || f.mfile || f.mfileName.Some? || f.ciffiles || f.ciffileNames.Some? then
        Some(MutuallyExclusive("gpxfile"))
      else None
    else if f.gpxfile || f.gpxfileName.Some? then Some(MissingRequired("gpxfile_name"))
    else if f.prmfileName.None? then Some(MissingRequired("prmfile_name"))
    else if f.ciffileNames.None? then Some(MissingRequired("ciffile_names"))
    else if !f.mfile then Some(MissingRequired("mfile"))
    else if f.mfileName.None? then Some(MissingRequired("mfile_name"))
    else None
  }

  /** The legacy `validate_n_startup_trials`: `None` passes, 0 is allowed. */
  function StartupCheck(startup: Option<int>, total: int): (r: Option<Error>)
  {
    if startup.None? then None
    else if startup.value < 0 then Some(BoundsError("n_startup_trials"))
    else if startup.value > total then Some(BoundsError("n_startup_trials"))
    else None
  }

  function StudyNameCheck(name: Option<string>, base: Option<string>): (r: Option<Error>)
  {
    if name.Some? && base.Some? then Some(MutuallyExclusive("study_name"))
    else if name.None? && base.None? then Some(MissingRequired("study_name"))
    else None
  }

  /** The legacy `generate_study_name`: only when the name is absent and both
      base and seed are present. */
  function LegacyGenerate(f: UserTaskFields): UserTaskFields
  {
    if f.studyName.None? && f.studyNameBase.Some? && f.randomSeed.Some? then
      f.(studyName := Some(ClientParams.GeneratedName(f.studyNameBase.value, f.randomSeed.value)))
    else f
  }

  /** `ParamsUserTask(**kwargs)`, validators in the order pydantic runs them. */
  function UserTaskSpec(a: UserTaskArgs, draw: nat): Result<UserTaskFields>
    requires draw < MaxRandomSeed
  {
    var f :- UserTaskFieldStage(a, draw);
    var e1 := ExclusiveInputFiles(f.files);
    if e1.Some? then Err(e1.value)
    else
      var e2 := StartupCheck(f.nStartupTrials, f.nTrialsTotal);
      if e2.Some? then Err(e2.value)
      else
        var e3 := StudyNameCheck(f.studyName, f.studyNameBase);
        if e3.Some? then Err(e3.value)
        else Ok(LegacyGenerate(f))
  }

  class ParamsUserTask {
    var studyName: Option<string>
    var studyNameBase: Option<string>
    var nTrialsTotal: int
    var nStartupTrials: Option<int>
    var randomSeed: Option<nat>
    var files: InputFiles
    var save: SaveInputFiles

    function Snapshot(): UserTaskFields
      reads this
    {
      UserTaskFields(studyName, studyNameBase, nTrialsTotal, nStartupTrials, randomSeed, files, save)
    }

    constructor (f: UserTaskFields)
      ensures Snapshot() == f
    {
      studyName, studyNameBase := f.studyName, f.studyNameBase;
      nTrialsTotal, nStartupTrials, randomSeed := f.nTrialsTotal, f.nStartupTrials, f.randomSeed;
      files, save := f.files, f.save;
    }

    /** `generate_study_name`. */
    method GenerateStudyName()
      modifies this
      ensures Snapshot() == LegacyGenerate(old(Snapshot()))
    {
      if studyName.None? && studyNameBase.Some? && randomSeed.Some? {
        studyName := Some(ClientParams.GeneratedName(studyNameBase.value, randomSeed.value));
      }
    }
  }

  method ConstructUserTask(a: UserTaskArgs, draw: nat) returns (res: Result<ParamsUserTask>)
    requires draw < MaxRandomSeed
    ensures var s := UserTaskSpec(a, draw);
            (res.Ok? <==> s.Ok?) && (res.Ok? ==> fresh(res.value) && res.value.Snapshot() == s.value)
  {
    var f :- UserTaskFieldStage(a, draw);
    var e := ExclusiveInputFiles(f.files);
    if e.Some? { return Err(e.value); }
    e := StartupCheck(f.nStartupTrials, f.nTrialsTotal);
    if e.Some? { return Err(e.value); }
    e := StudyNameCheck(f.studyName, f.studyNameBase);
    if e.Some? { return Err(e.value); }
    var p := new ParamsUserTask(f);
    p.GenerateStudyName();
    return Ok(p);
  }

  // Properties of `ParamsUserTask`.

  /** Exactly one of name and base; a base is 1 to 494 characters, so any name
      synthesised from it fits the 500-character study-name bound. */
  lemma UserTaskStudyNames(a: UserTaskArgs, draw: nat)
    requires draw < MaxRandomSeed
    ensures var r := UserTaskSpec(a, draw);
            r.Ok? ==>
              && (a.studyName.Given? != a.studyNameBase.Given?)
              && (a.studyNameBase.Given? ==> 1 <= |a.studyNameBase.value| <= 494)
              && (r.value.studyName.Some? ==> ServerParams.ValidStudyName(r.value.studyName.value))
    ensures a.studyName.Given? && a.studyNameBase.Given? ==> UserTaskSpec(a, draw).Err?
  {
    var fs := UserTaskFieldStage(a, draw);
    UserTaskFieldStageNames(a, draw);
    if fs.Ok? {
      var f := fs.value;
      if f.studyName.None? && f.studyNameBase.Some? && f.randomSeed.Some? {
        ClientParams.GeneratedNameFitsServer(f.studyNameBase.value, f.randomSeed.value);
      }
    }
  }

  /** What the field stage does with the two study-name arguments. */
  lemma UserTaskFieldStageNames(a: UserTaskArgs, draw: nat)
    requires draw < MaxRandomSeed
    ensures var fs := UserTaskFieldStage(a, draw);
            fs.Ok? ==>
              && !a.studyName.Omitted? && !a.studyNameBase.Omitted?
              && fs.value.studyName == (if a.studyName.Given? then Some(a.studyName.value) else None)
              && fs.value.studyNameBase == (if a.studyNameBase.Given? then Some(a.studyNameBase.value) else None)
              && (fs.value.studyName.Some? ==> ServerParams.ValidStudyName(fs.value.studyName.value))
              && (fs.value.studyNameBase.Some? ==> ValidStudyNameBase(fs.value.studyNameBase.value))
  {
  }

  /** The start-up count may be absent; if present it must lie in
      [0, n_trials_total], 0 included. */
  lemma StartupTrialsOptional(startup: Option<int>, total: int)
    ensures StartupCheck(startup, total).None? <==> startup.None? || 0 <= startup.value <= total
    ensures StartupCheck(Some(0), total).None? <==> 0 <= total
  {
  }

  /** An explicit `None` seed becomes the draw, an omitted one stays absent,
      and then no study name is synthesised from a base. */
  lemma LegacySeedDefaulting(a: UserTaskArgs, draw: nat)
    requires draw < MaxRandomSeed
    ensures var r := UserTaskSpec(a, draw);
            r.Ok? ==>
              && (a.randomSeed.ExplicitNone? ==> r.value.randomSeed == Some(draw))
              && (a.randomSeed.Omitted? ==> r.value.randomSeed.None?)
              && (a.randomSeed.Omitted? && a.studyName.ExplicitNone? ==> r.value.studyName.None?)
  {
  }

  /** The name is synthesised iff it is absent and both base and seed are
      present; otherwise the fields are unchanged. */
  lemma LegacySynthesis(f: UserTaskFields)
    ensures f.studyName.None? && f.studyNameBase.Some? && f.randomSeed.Some? ==>
              LegacyGenerate(f).studyName ==
                Some(f.studyNameBase.value + "_s" + ZeroPad4(f.randomSeed.value))
    ensures !(f.studyName.None? && f.studyNameBase.Some? && f.randomSeed.Some?) ==> LegacyGenerate(f) == f
    ensures LegacyGenerate(f).(studyName := f.studyName) == f
  {
  }

  /** The bundle name must end in `.gpx` in any letter case, and so, as
      written, must the prm name: an instrument file name such as
      "inst.prm" is rejected. */
  lemma StreamNameSuffixes()
    ensures GpxSuffixedName(Some("Project.GPX"))
    ensures GpxSuffixedName(None)
    ensures !GpxSuffixedName(Some("inst.prm"))
  {
    var l := Lower("Project.GPX");
    assert l[7] == '.' && l[8] == 'g' && l[9] == 'p' && l[10] == 'x';
    assert l[7..] == ".gpx";
    var m := Lower("inst.prm");
    assert m[5] == 'p';
  }

  /** `validate_exclusive_input_files`: the bundle pair excludes every other
      input; half a pair is an error; without a bundle the prm name, the cif
      names, the measurement stream and its name are each required. */
  lemma InputFilesRules(f: InputFiles)
    ensures f.gpxfile && f.gpxfileName.Some? ==>
              (ExclusiveInputFiles(f).None? <==>
                 !(f.prmfile || f.prmfileName.Some? || f.mfile || f.mfileName.Some? || f.ciffiles || f.ciffileNames.Some?))
    ensures f.gpxfile != f.gpxfileName.Some? ==> ExclusiveInputFiles(f).Some?
    ensures !f.gpxfile && f.gpxfileName.None? ==>
              (ExclusiveInputFiles(f).None? <==>
                 f.prmfileName.Some? && f.ciffileNames.Some? && f.mfile && f.mfileName.Some?)
  {
  }

  // The path-based `InputFilesInput` checks.

  datatype FileRef = FileRef(path: string, size: nat)

  datatype InputFilesInputArgs = InputFilesInputArgs(
    inputdir: Option<string>,
    gpxfile: Option<FileRef>,
    prmfile: Option<FileRef>,
    mfile: Option<FileRef>,
    ciffiles: Option<seq<FileRef>>)

  /** `Path(p).suffix.lower()`. */
  function SuffixLower(p: string): string {
    Lower(Suffix(Name(p)))
  }

  predicate GpxPath(p: string) { SuffixLower(p) == ".gpx" }
  predicate PrmPath(p: string) { SuffixLower(p) in PrmSuffixes }
  predicate CifPath(p: string) { SuffixLower(p) in CifSuffixes }
  predicate MeasurementPath(p: string) { SuffixLower(p) in MfileSuffixes }

  /** The first cif path with another suffix. */
  function FirstNonCif(files: seq<FileRef>): (r: Option<Error>)
    ensures r.None? <==> forall k | 0 <= k < |files| :: CifPath(files[k].path)
  {
    if files == [] then None
    else if !CifPath(files[0].path) then Some(SuffixError("ciffiles"))
    else
      assert forall k | 1 <= k < |files| :: files[k] == files[1..][k - 1];
      FirstNonCif(files[1..])
  }

  /** What `validate_filesize` decides. Comparing a path with the field names
      is always false, so the ceiling is always `MAX_FILE_SIZE`. A single path
      fails the `isinstance(file, list)` assertion. */
  function FilesizeCheck(file: OneOrMany<FileRef>): (r: Option<Error>)
    ensures file.One? ==> r.Some?
    ensures file.Many? ==> (r.None? <==> forall k | 0 <= k < |file.items| :: file.items[k].size <= MaxFileSize)
  {
    match file
    case One(_) => Some(TypeMismatch("file"))
    case Many(xs) =>
      if forall k | 0 <= k < |xs| :: xs[k].size <= MaxFileSize then None
      else Some(FileTooLarge(xs[FirstOversize(xs)].path))
  }

  function FirstOversize(xs: seq<FileRef>): (i: nat)
    requires exists k | 0 <= k < |xs| :: xs[k].size > MaxFileSize
    ensures i < |xs| && xs[i].size > MaxFileSize
    ensures forall k | 0 <= k < i :: xs[k].size <= MaxFileSize
  {
    if xs[0].size > MaxFileSize then 0
    else
      assert forall k | 1 <= k < |xs| :: xs[k] == xs[1..][k - 1];
      1 + FirstOversize(xs[1..])
  }

  /** `validate_filesize`: the size loop with its early raise. */
  method ValidateFilesize(file: OneOrMany<FileRef>) returns (err: Option<Error>)
    ensures err == FilesizeCheck(file)
  {
    if file.One? {
      return Some(TypeMismatch("file"));
    }
    var xs := file.items;
    var k := 0;
    while k < |xs|
      invariant 0 <= k <= |xs|
      invariant forall j | 0 <= j < k :: xs[j].size <= MaxFileSize
    {
      if xs[k].size > MaxFileSize {
        assert FirstOversize(xs) == k by { FirstOversizeIsFirst(xs, k); }
        return Some(FileTooLarge(xs[k].path));
      }
      k := k + 1;
    }
    return None;
  }

  lemma FirstOversizeIsFirst(xs: seq<FileRef>, k: nat)
    requires k < |xs| && xs[k].size > MaxFileSize
    requires forall j | 0 <= j < k :: xs[j].size <= MaxFileSize
    ensures FirstOversize(xs) == k
  {
    var i := FirstOversize(xs);
    assert !(i < k) && !(k < i);
  }

  /** The field validators of one path: suffix first, then size. */
  function PathFieldCheck(f: Option<FileRef>, suffixOk: string -> bool, field: string): Option<Error>
  {
    if f.None? then None
    else if !suffixOk(f.value.path) then Some(SuffixError(field))
    else FilesizeCheck(One(f.value))
  }

  /** `validate_exclusive_input_parameters`. `resume_study` is not defined in
      the module; here it is a parameter. */
  function ExclusiveInputParameters(a: InputFilesInputArgs, resumeStudy: bool): (r: Option<Error>)
  {
    var suite := a.prmfile.Some? && a.mfile.Some? && a.ciffiles.Some?;
    var n := (if a.inputdir.Some? then 1 else 0) + (if a.gpxfile.Some? then 1 else 0) + (if suite then 1 else 0);
    if resumeStudy then (if n > 0 then Some(MutuallyExclusive("inputdir")) else None)
    else if n == 0 then Some(MissingRequired("inputdir"))
    else if n > 1 then Some(MutuallyExclusive("inputdir"))
    else None
  }

  function ValidateInputFilesInput(a: InputFilesInputArgs, resumeStudy: bool): Option<Error>
  {
    var g := PathFieldCheck(a.gpxfile, GpxPath, "gpxfile");
    if g.Some? then g
    else
      var p := PathFieldCheck(a.prmfile, PrmPath, "prmfile");
      if p.Some? then p
      else
        var m := PathFieldCheck(a.mfile, MeasurementPath, "mfile");
        if m.Some? then m
        else if a.ciffiles.Some? && FirstNonCif(a.ciffiles.value).Some? then FirstNonCif(a.ciffiles.value)
        else if a.ciffiles.Some? && FilesizeCheck(Many(a.ciffiles.value)).Some? then FilesizeCheck(Many(a.ciffiles.value))
        else ExclusiveInputParameters(a, resumeStudy)
  }

  /** Outside a resumed study exactly one source is given: the directory, the
      bundle, or the full (prm, measurement, cifs) suite; a resumed study takes none. */
  lemma ExactlyOneSource(a: InputFilesInputArgs)
    ensures var suite := a.prmfile.Some? && a.mfile.Some? && a.ciffiles.Some?;
            ExclusiveInputParameters(a, false).None? <==>
              || (a.inputdir.Some? && a.gpxfile.None? && !suite)
              || (a.inputdir.None? && a.gpxfile.Some? && !suite)
              || (a.inputdir.None? && a.gpxfile.None? && suite)
    ensures ExclusiveInputParameters(a, true).None? <==>
              a.inputdir.None? && a.gpxfile.None? && !(a.prmfile.Some? && a.mfile.Some? && a.ciffiles.Some?)
  {
  }

  /** Suffix checks ignore letter case: every accepted cif path ends in `.cif`
      in some case, and each accepted cif file is within 1 MB. */
  lemma AcceptedCifPaths(a: InputFilesInputArgs, resumeStudy: bool)
    requires ValidateInputFilesInput(a, resumeStudy).None?
    ensures a.ciffiles.Some? ==> forall k | 0 <= k < |a.ciffiles.value| ::
              SuffixLower(a.ciffiles.value[k].path) == ".cif" && a.ciffiles.value[k].size <= 1024 * 1024
  {
  }

  /** The suffix check sees the extension of the final component, in lower case. */
  lemma SuffixOfChild(dir: string, stem: string, ext: string)
    requires stem != [] && '/' !in stem
    requires 2 <= |ext| && ext[0] == '.' && '.' !in ext[1..] && '/' !in ext
    ensures SuffixLower(dir + "/" + (stem + ext)) == Lower(ext)
  {
    var leaf := stem + ext;
    assert forall k | |stem| <= k < |leaf| :: leaf[k] == ext[k - |stem|];
    NameOfChild(dir, leaf);
    RFindAt(leaf, '.', |stem|);
    assert leaf[|stem|..] == ext;
  }

  /** Letter case does not matter to the suffix checks. */
  lemma GpxSuffixExample(dir: string)
    ensures GpxPath(dir + "/" + ("Quartz" + ".GPX"))
  {
    SuffixOfChild(dir, "Quartz", ".GPX");
    assert Lower(".GPX") == ".gpx";
  }

  lemma PrmSuffixExample(dir: string)
    ensures PrmPath(dir + "/" + ("Bruker" + ".PRM"))
  {
    SuffixOfChild(dir, "Bruker", ".PRM");
    assert Lower(".PRM") == PrmSuffixes[0];
  }

  /** Only the last extension counts. */
  lemma CifSuffixExample(dir: string)
    ensures !CifPath(dir + "/" + ("phase.cif" + ".bak"))
  {
    SuffixOfChild(dir, "phase.cif", ".bak");
    assert Lower(".bak")[1] == 'b';
  }

  /** As written, a single path in any of the bundle, prm and measurement
      fields fails the size validator, so outside a resumed study the only
      accepted source is the directory. */
  lemma OnlyDirectoryAccepted(a: InputFilesInputArgs)
    requires ValidateInputFilesInput(a, false).None?
    ensures a.inputdir.Some? && a.gpxfile.None? && a.prmfile.None? && a.mfile.None?
  {
  }
}

=== FILE: parser_interface.dfy ===
/** The measurement-file parser base class (bbor_client/parsers/interface.py):
    the names it derives from a file path, the data a concrete parser hands
    back, and the two-column CSV text it produces for upload. Number
    formatting (`f'{x}'` on a float) is the parameter `fmt`. */
module ParserInterface {
  import opened Common
  import opened Paths

  /** What a concrete parser's `_parse` returns. */
  datatype ParsedData = ParsedData(header: string, twotheta: seq<real>, counts: seq<real>)

  /** The number of pairs `zip(xs, ys)` yields. */
  function PairCount<T>(xs: seq<T>, ys: seq<T>): (n: nat)
    ensures n <= |xs| && n <= |ys|
    ensures n == |xs| || n == |ys|
  {
    if |xs| < |ys| then |xs| else |ys|
  }

  /** The line written for one (two-theta, counts) pair. */
  function CsvLine(x: real, y: real, fmt: real -> string): string {
    fmt(x) + "," + fmt(y) + "\n"
  }

  /** The whole text written: one line per pair that `zip` yields, in order. */
  function CsvText(xs: seq<real>, ys: seq<real>, fmt: real -> string): string {
    if xs == [] || ys == [] then []
    else CsvLine(xs[0], ys[0], fmt) + CsvText(xs[1..], ys[1..], fmt)
  }

  /** The index of the first `c` in `s`, or `|s|` when there is none. */
  function IndexOf(s: string, c: char): (i: nat)
    ensures i <= |s|
    ensures i < |s| ==> s[i] == c
    ensures forall k | 0 <= k < i :: s[k] != c
  {
    if s == [] then 0
    else if s[0] == c then 0
    else 1 + IndexOf(s[1..], c)
  }

  /** The lines of a text whose lines end in `\n`, without their terminators. */
  function SplitLines(s: string): seq<string>
    decreases |s|
  {
    if s == [] then []
    else
      var i := IndexOf(s, '\n');
      if i == |s| then [s] else [s[..i]] + SplitLines(s[i + 1..])
  }

  /** A formatted number never spans lines. */
  predicate SingleLine(s: string) { '\n' !in s }

  /** A line without a newline, then its terminator, splits off first. */
  lemma SplitLinesCons(line: string, rest: string)
    requires '\n' !in line
    ensures SplitLines(line + "\n" + rest) == [line] + SplitLines(rest)
  {
    var s := line + "\n" + rest;
    assert s[|line|] == '\n';
    var i := IndexOf(s, '\n');
    assert i == |line|;
    assert s[..i] == line;
    assert s[i + 1..] == rest;
  }

  /** Reading the CSV text back line by line gives, for each pair `zip`
      yields and nothing else, the two formatted numbers joined by a comma:
      no title line, no pair dropped before the shorter list ends. */
  lemma {:induction false} CsvTextLines(xs: seq<real>, ys: seq<real>, fmt: real -> string)
    requires forall x: real :: SingleLine(fmt(x))
    ensures var lines := SplitLines(CsvText(xs, ys, fmt));
            && |lines| == PairCount(xs, ys)
            && forall i | 0 <= i < |lines| :: lines[i] == fmt(xs[i]) + "," + fmt(ys[i])
    decreases |xs|
  {
    if xs != [] && ys != [] {
      var x0, y0 := xs[0], ys[0];
      assert SingleLine(fmt(x0)) && SingleLine(fmt(y0));
      var line := fmt(x0) + "," + fmt(y0);
      assert '\n' !in line;
      var rest := CsvText(xs[1..], ys[1..], fmt);
      assert CsvText(xs, ys, fmt) == line + "\n" + rest;
      SplitLinesCons(line, rest);
      CsvTextLines(xs[1..], ys[1..], fmt);
      var lines := SplitLines(CsvText(xs, ys, fmt));
      forall i | 1 <= i < |lines|
        ensures lines[i] == fmt(xs[i]) + "," + fmt(ys[i])
      {
        assert lines[i] == SplitLines(rest)[i - 1];
        assert xs[1..][i - 1] == xs[i] && ys[1..][i - 1] == ys[i];
      }
    }
  }

  /** A measurement file opened by a concrete parser; every attribute is set
      once, on construction, and only read afterwards. */
  class Parser {
    const path: string
    const name: string
    const csvname: string
    const ext: string
    const header: string
    const twotheta: seq<real>
    const counts: seq<real>

    /** `__init__` once `with_suffix` and `_parse` have both succeeded. */
    constructor (filepath: string, data: ParsedData)
      requires Name(filepath) != []
      ensures path == filepath
      ensures name == Name(filepath)
      ensures ext == Suffix(Name(filepath))
      ensures Some(csvname) == WithSuffixName(filepath, ".csv")
      ensures header == data.header && twotheta == data.twotheta && counts == data.counts
    {
      path := filepath;
      name := Name(filepath);
      csvname := WithSuffixName(filepath, ".csv").value;
      ext := Suffix(Name(filepath));
      header := data.header;
      twotheta := data.twotheta;
      counts := data.counts;
    }

    /** `_to_csv_bytesio`: the text written into the upload buffer. */
    method ToCsvText(fmt: real -> string) returns (text: string)
      ensures text == CsvText(twotheta, counts, fmt)
    {
      text := [];
      var n := PairCount(twotheta, counts);
      var i := 0;
      while i < n
        invariant 0 <= i <= n
        invariant text + CsvText(twotheta[i..], counts[i..], fmt) == CsvText(twotheta, counts, fmt)
      {
        assert twotheta[i..][1..] == twotheta[i + 1..];
        assert counts[i..][1..] == counts[i + 1..];
        text := text + CsvLine(twotheta[i], counts[i], fmt);
        i := i + 1;
      }
      assert twotheta[i..] == [] || counts[i..] == [];
    }
  }

  /** Constructing a concrete parser: `with_suffix('.csv')` raises on a path
      without a name before `_parse` runs, and a failing `_parse` raises too.
      `_parse` receives the path text; what it makes of it is the parameter
      `parse` (the CSV parser reads it as the file's content). */
  method Open(filepath: string, parse: string -> Result<ParsedData>) returns (res: Result<Parser>)
    ensures Name(filepath) == [] ==> res == Err(EmptyName)
    ensures Name(filepath) != [] && parse(filepath).Err? ==> res == Err(parse(filepath).error)
    ensures res.Ok? <==> Name(filepath) != [] && parse(filepath).Ok?
    ensures res.Ok? ==> && fresh(res.value)
                        && res.value.path == filepath
                        && res.value.name == Name(filepath)
                        && res.value.ext == Suffix(Name(filepath))
                        && Some(res.value.csvname) == WithSuffixName(filepath, ".csv")
                        && res.value.header == parse(filepath).value.header
                        && res.value.twotheta == parse(filepath).value.twotheta
                        && res.value.counts == parse(filepath).value.counts
  {
    if Name(filepath) == [] {
      return Err(EmptyName);
    }
    var data :- parse(filepath);
    var p := new Parser(filepath, data);
    return Ok(p);
  }

  /** The CSV name keeps the measurement file's stem and carries the `.csv`
      suffix; the extension recorded is the suffix of the file name. */
  lemma CsvNameOfMeasurement(filepath: string)
    requires Name(filepath) != []
    ensures var c := WithSuffixName(filepath, ".csv").value;
            Suffix(c) == ".csv" && Stem(c) == Stem(Name(filepath))
    ensures Stem(Name(filepath)) + Suffix(Name(filepath)) == Name(filepath)
  {
    WithSuffixNameShape(filepath, ".csv");
    StemSuffixSplit(Name(filepath));
  }
}

=== FILE: paths.dfy ===
/** The parts of `pathlib.PurePosixPath` the client relies on: `name`,
    `suffix`, `stem` and the name that `with_suffix` produces. */
module Paths {
  import opened Common

  /** `s.rfind(c)`: the index of the last `c` in `s`, or -1. */
  function RFind(s: string, c: char): (i: int)
    ensures -1 <= i < |s|
    ensures 0 <= i ==> s[i] == c
    ensures forall k | i < k < |s| :: s[k] != c
  {
    if s == [] then -1
    else if s[|s| - 1] == c then |s| - 1
    else RFind(s[..|s| - 1], c)
  }

  /** The last `c` of `s` is at `i` when `s[i]` is `c` and no later character is. */
  lemma RFindAt(s: string, c: char, i: nat)
    requires i < |s| && s[i] == c
    requires forall k | i < k < |s| :: s[k] != c
    ensures RFind(s, c) == i
  {
  }

  /** `Path(p).name`: the final component, after dropping trailing slashes and
      `.` components (which pathlib normalises away). */
  function Name(p: string): (n: string)
    ensures '/' !in n && n != "."
    decreases |p|
  {
    if p == [] then []
    else if p[|p| - 1] == '/' then Name(p[..|p| - 1])
    else
      var i := RFind(p, '/');
      var comp := p[i + 1..];
      if comp == "." then Name(p[..i + 1]) else comp
  }

  /** `Path(name).suffix`: the text from the last dot, when that dot is
      neither the first nor the last character of the name. */
  function Suffix(name: string): (s: string)
  {
    var i := RFind(name, '.');
    if 0 < i < |name| - 1 then name[i..] else []
  }

  /** `Path(name).stem`: the name without its suffix. */
  function Stem(name: string): (s: string)
  {
    var i := RFind(name, '.');
    if 0 < i < |name| - 1 then name[..i] else name
  }

  /** `Path(p).with_suffix(suffix).name`; pathlib raises when the name is empty. */
  function WithSuffixName(p: string, suffix: string): (r: Option<string>)
  {
    var n := Name(p);
    if n == [] then None else Some(Stem(n) + suffix)
  }

  /** Stem and suffix split a name without losing characters. */
  lemma StemSuffixSplit(name: string)
    ensures Stem(name) + Suffix(name) == name
    ensures Suffix(name) == [] || (Suffix(name)[0] == '.' && '.' !in Suffix(name)[1..])
    ensures name != [] ==> Stem(name) != []
  {
    var i := RFind(name, '.');
    if 0 < i < |name| - 1 {
      assert name[..i] + name[i..] == name;
      assert forall k | i + 1 <= k < |name| :: name[k] != '.';
    }
  }

  /** The final component of `dir/leaf` is `leaf`, and a bare component names itself. */
  lemma NameOfChild(dir: string, leaf: string)
    requires leaf != [] && '/' !in leaf && leaf != "."
    ensures Name(leaf) == leaf
    ensures Name(dir + "/" + leaf) == leaf
  {
    var p := dir + "/" + leaf;
    var i := RFind(p, '/');
    assert p[|dir|] == '/';
    assert forall k | |dir| < k < |p| :: p[k] == leaf[k - |dir| - 1];
    assert p[i + 1..] == leaf;
  }

  /** Taking the name of a name changes nothing. */
  lemma NameIdempotent(p: string)
    ensures Name(Name(p)) == Name(p)
  {
    var n := Name(p);
    if n != [] { NameOfChild([], n); }
  }

  /** The name produced by `with_suffix(suffix)` keeps the stem and carries
      exactly the new suffix (for a suffix `.x…` with no further dot). */
  lemma WithSuffixNameShape(p: string, suffix: string)
    requires 2 <= |suffix| && suffix[0] == '.' && '.' !in suffix[1..]
    ensures WithSuffixName(p, suffix).Some? <==> Name(p) != []
    ensures WithSuffixName(p, suffix).Some? ==>
              var r := WithSuffixName(p, suffix).value;
              Suffix(r) == suffix && Stem(r) == Stem(Name(p))
  {
    var n := Name(p);
    if n != [] {
      StemSuffixSplit(n);
      var st := Stem(n);
      var r := st + suffix;
      var i := RFind(r, '.');
      assert r[|st|] == '.';
      assert forall k | |st| < k < |r| :: r[k] == suffix[1..][k - |st| - 1];
      assert r[i..] == suffix;
      assert r[..i] == st;
    }
  }
}

=== FILE: server_params.dfy ===
/** The server-side parameter model (`PostStudyServerParams`): it re-checks a
    fully resolved study request against the constraint primitives and against
    the three file-name registries the session keeps, and yields the payload
    that is posted. It only reads the registries, so they are a parameter. */
module ServerParams {
  import opened Common
  import opened Conf

  /** Python's Unicode `\w` character class, left abstract. */
  type WordClass = char -> bool

  /** What the model assumes of `\w`: it contains no path separator and no `$`. */
  predicate PythonWordClass(isWord: WordClass) {
    !isWord('/') && !isWord('\\') && !isWord('$')
  }

  predicate ValidStudyName(s: string) {
    MinStudyNameLength <= |s| <= MaxStudyNameLength
  }

  predicate ValidTrialNumber(n: int) {
    0 < n < MaxNTrialsTotal
  }

  predicate ValidRandomSeed(n: int) {
    0 <= n < MaxRandomSeed
  }

  /** One character of `[\w\-. 一-鿿぀-ゟ゠-ヿ]`. */
  predicate FileNameChar(c: char, isWord: WordClass) {
    || isWord(c)
    || c == '-' || c == '.' || c == ' '
    || ('\U{4E00}' <= c <= '\U{9FFF}')
    || ('\U{3040}' <= c <= '\U{309F}')
    || ('\U{30A0}' <= c <= '\U{30FF}')
  }

  /** `FileNameConstraints`: 1 to 256 characters, each in the class above. */
  predicate ValidFileName(s: string, isWord: WordClass) {
    1 <= |s| <= MaxFileNameLength && forall i | 0 <= i < |s| :: FileNameChar(s[i], isWord)
  }

  /** The class variables `prm_file_list`, `cif_file_list` and `sequence_list`. */
  datatype Registries = Registries(
    prmFileList: seq<string>,
    cifFileList: seq<string>,
    sequenceList: seq<string>)

  /** A request as handed to the server model. `None` is an absent field; a
      file content is represented by the length of its stream. */
  datatype Request = Request(
    studyName: Option<string>,
    nTrialsTotal: Option<int>,
    nStartupTrials: Option<int>,
    randomSeed: Option<int>,
    gpxFilecontent: Option<nat>,
    gpxFilename: Option<string>,
    measurementFilecontent: Option<nat>,
    measurementFilename: Option<string>,
    prmFilename: Option<string>,
    cifFilenames: Option<seq<string>>,
    initializeStudy: bool,
    sequence: Option<string>,
    tags: seq<string>)

  /** The validated model: every required field concrete, defaults applied. */
  datatype Payload = Payload(
    studyName: string,
    nTrialsTotal: int,
    nStartupTrials: int,
    randomSeed: int,
    gpxFilecontent: Option<nat>,
    gpxFilename: Option<string>,
    measurementFilecontent: Option<nat>,
    measurementFilename: Option<string>,
    prmFilename: Option<string>,
    cifFilenames: Option<seq<string>>,
    initializeStudy: bool,
    sequence: string,
    tags: seq<string>)

  function TotalOrDefault(r: Request): int {
    if r.nTrialsTotal.Some? then r.nTrialsTotal.value else DefaultNTrialsTotal
  }

  // The rules, one per model class of server.py.

  predicate StudyNameOk(r: Request) {
    r.studyName.Some? && ValidStudyName(r.studyName.value)
  }

  predicate TrialNumbersOk(r: Request) {
    && ValidTrialNumber(TotalOrDefault(r))
    && r.nStartupTrials.Some?
    && ValidTrialNumber(r.nStartupTrials.value)
    && r.nStartupTrials.value <= TotalOrDefault(r)
  }

  predicate RandomSeedOk(r: Request) {
    r.randomSeed.Some? && ValidRandomSeed(r.randomSeed.value)
  }

  predicate OptionalFileNameOk(n: Option<string>, isWord: WordClass) {
    n.None? || ValidFileName(n.value, isWord)
  }

  predicate GpxFileOk(r: Request, isWord: WordClass) {
    && OptionalFileNameOk(r.gpxFilename, isWord)
    && (r.gpxFilecontent.Some? ==> r.gpxFilecontent.value <= MaxFileSize)
    && (r.gpxFilecontent.Some? <==> r.gpxFilename.Some?)
  }

  predicate MeasurementFileOk(r: Request, isWord: WordClass) {
    && OptionalFileNameOk(r.measurementFilename, isWord)
    && (r.measurementFilecontent.Some? ==> r.measurementFilecontent.value <= MaxMeasFileSize)
    && (r.measurementFilecontent.Some? <==> r.measurementFilename.Some?)
  }

  predicate PrmFileOk(r: Request, reg: Registries, isWord: WordClass) {
    r.prmFilename.Some? ==>
      ValidFileName(r.prmFilename.value, isWord) && r.prmFilename.value in reg.prmFileList
  }

  predicate CifFileOk(r: Request, reg: Registries, isWord: WordClass) {
    r.cifFilenames.Some? ==>
      forall k | 0 <= k < |r.cifFilenames.value| ::
        ValidFileName(r.cifFilenames.value[k], isWord) && r.cifFilenames.value[k] in reg.cifFileList
  }

  predicate InputFilesOk(r: Request) {
    && (r.gpxFilecontent.Some? != r.measurementFilecontent.Some?)
    && (r.measurementFilecontent.Some? ==> r.prmFilename.Some? && r.cifFilenames.Some?)
    && (r.gpxFilecontent.Some? ==> r.prmFilename.None? && r.cifFilenames.None?)
  }

  predicate SequenceOk(r: Request, reg: Registries) {
    r.sequence.Some? && r.sequence.value in reg.sequenceList
  }

  predicate Accepts(r: Request, reg: Registries, isWord: WordClass) {
    && StudyNameOk(r)
    && TrialNumbersOk(r)
    && RandomSeedOk(r)
    && GpxFileOk(r, isWord)
    && MeasurementFileOk(r, isWord)
    && PrmFileOk(r, reg, isWord)
    && CifFileOk(r, reg, isWord)
    && InputFilesOk(r)
    && SequenceOk(r, reg)
  }

  /** The first cif name that fails its constraint or is not registered. */
  function FirstBadCif(names: seq<string>, reg: Registries, isWord: WordClass): (r: Option<Error>)
    ensures r.None? <==> forall k | 0 <= k < |names| ::
                           ValidFileName(names[k], isWord) && names[k] in reg.cifFileList
  {
    if names == [] then None
    else if !ValidFileName(names[0], isWord) then Some(PatternError("cif_filenames"))
    else if names[0] !in reg.cifFileList then Some(NotOnServer(names[0]))
    else
      var rest := FirstBadCif(names[1..], reg, isWord);
      assert forall k | 1 <= k < |names| :: names[k] == names[1..][k - 1];
      rest
  }

  /** `PostStudyServerParams.model_validate`: the payload when every rule
      holds, otherwise the error of one violated rule. */
  function Validate(r: Request, reg: Registries, isWord: WordClass): (res: Result<Payload>)
    ensures res.Ok? <==> Accepts(r, reg, isWord)
    ensures res.Ok? ==> res.value == Payload(
              r.studyName.value, TotalOrDefault(r), r.nStartupTrials.value, r.randomSeed.value,
              r.gpxFilecontent, r.gpxFilename, r.measurementFilecontent, r.measurementFilename,
              r.prmFilename, r.cifFilenames, r.initializeStudy, r.sequence.value, r.tags)
  {
    // Field constraints first, in field order.
    if r.studyName.None? then Err(MissingRequired("study_name"))
    else if !ValidStudyName(r.studyName.value) then Err(BoundsError("study_name"))
    else if !ValidTrialNumber(TotalOrDefault(r)) then Err(BoundsError("n_trials_total"))
    else if r.nStartupTrials.None? then Err(MissingRequired("n_startup_trials"))
    else if !ValidTrialNumber(r.nStartupTrials.value) then Err(BoundsError("n_startup_trials"))
    else if r.randomSeed.None? then Err(MissingRequired("random_seed"))
    else if !ValidRandomSeed(r.randomSeed.value) then Err(BoundsError("random_seed"))
    else if r.gpxFilecontent.Some? && r.gpxFilecontent.value > MaxFileSize then Err(FileTooLarge("gpx_filecontent"))
    else if !OptionalFileNameOk(r.gpxFilename, isWord) then Err(PatternError("gpx_filename"))
    else if r.measurementFilecontent.Some? && r.measurementFilecontent.value > MaxMeasFileSize then
      Err(FileTooLarge("measurement_filecontent"))
    else if !OptionalFileNameOk(r.measurementFilename, isWord) then Err(PatternError("measurement_filename"))
    else if r.prmFilename.Some? && !ValidFileName(r.prmFilename.value, isWord) then Err(PatternError("prm_filename"))
    else if r.prmFilename.Some? && r.prmFilename.value !in reg.prmFileList then Err(NotOnServer(r.prmFilename.value))
    else if r.cifFilenames.Some? && FirstBadCif(r.cifFilenames.value, reg, isWord).Some? then
      Err(FirstBadCif(r.cifFilenames.value, reg, isWord).value)
    else if r.sequence.None? then Err(MissingRequired("sequence"))
    else if r.sequence.value !in reg.sequenceList then Err(InvalidSequence(r.sequence.value))
    // Then the model validators.
    else if r.nStartupTrials.value > TotalOrDefault(r) then Err(BoundsError("n_startup_trials"))
    else if r.gpxFilecontent.Some? != r.gpxFilename.Some? then Err(MissingRequired("gpx_filename"))
    else if r.measurementFilecontent.Some? != r.measurementFilename.Some? then
      Err(MissingRequired("measurement_filename"))
    else if r.gpxFilecontent.Some? == r.measurementFilecontent.Some? then Err(MutuallyExclusive("gpx_filecontent"))
    else if r.measurementFilecontent.Some? && r.prmFilename.None? then Err(MissingRequired("prm_filename"))
    else if r.measurementFilecontent.Some? && r.cifFilenames.None? then Err(MissingRequired("cif_filenames"))
    else if r.gpxFilecontent.Some? && r.prmFilename.Some? then Err(MutuallyExclusive("prm_filename"))
    else if r.gpxFilecontent.Some? && r.cifFilenames.Some? then Err(MutuallyExclusive("cif_filenames"))
    else Ok(Payload(
      r.studyName.value, TotalOrDefault(r), r.nStartupTrials.value, r.randomSeed.value,
      r.gpxFilecontent, r.gpxFilename, r.measurementFilecontent, r.measurementFilename,
      r.prmFilename, r.cifFilenames, r.initializeStudy, r.sequence.value, r.tags))
  }

  // Consequences of the rules, one per promise of server.py.

  /** A study name is accepted exactly when its length is within [1, 500]:
      changing only the name of an accepted request keeps it accepted iff the
      new name has such a length. */
  lemma StudyNameLength(r: Request, reg: Registries, isWord: WordClass, name: string)
    requires Accepts(r, reg, isWord)
    ensures Validate(r.(studyName := Some(name)), reg, isWord).Ok? <==> 1 <= |name| <= 500
  {
  }

  /** The trial budget: both counts strictly inside (0, 10000), the startup
      count required and at most the total, the total defaulting to 200. */
  lemma TrialBudget(r: Request, reg: Registries, isWord: WordClass, total: Option<int>, startup: Option<int>)
    requires Accepts(r, reg, isWord)
    ensures var r' := r.(nTrialsTotal := total, nStartupTrials := startup);
            var t := if total.Some? then total.value else 200;
            Validate(r', reg, isWord).Ok? <==>
              startup.Some? && 0 < startup.value <= t && t < 10000
    ensures var r' := r.(nTrialsTotal := None);
            Validate(r', reg, isWord).Ok? ==> Validate(r', reg, isWord).value.nTrialsTotal == 200
  {
  }

  /** A seed is accepted exactly when it lies in [0, 10000). */
  lemma SeedRange(r: Request, reg: Registries, isWord: WordClass, seed: int)
    requires Accepts(r, reg, isWord)
    ensures Validate(r.(randomSeed := Some(seed)), reg, isWord).Ok? <==> 0 <= seed < 10000
  {
  }

  /** No accepted file name contains a path separator or a `$`. */
  lemma {:induction false} FileNameExcludesSeparators(s: string, isWord: WordClass)
    requires PythonWordClass(isWord)
    requires ValidFileName(s, isWord)
    ensures '/' !in s && '\\' !in s && '$' !in s
  {
    forall i | 0 <= i < |s|
      ensures s[i] != '/' && s[i] != '\\' && s[i] != '$'
    {
      assert FileNameChar(s[i], isWord);
    }
  }

  /** Content and file name travel together, for the project bundle and for the
      measurement; the bundle is limited to 1 MB and the measurement to 10 MB. */
  lemma PairsAndCeilings(r: Request, reg: Registries, isWord: WordClass)
    requires Validate(r, reg, isWord).Ok?
    ensures r.gpxFilecontent.Some? <==> r.gpxFilename.Some?
    ensures r.measurementFilecontent.Some? <==> r.measurementFilename.Some?
    ensures r.gpxFilecontent.Some? ==> r.gpxFilecontent.value <= 1024 * 1024
    ensures r.measurementFilecontent.Some? ==> r.measurementFilecontent.value <= 10 * 1024 * 1024
  {
  }

  /** Exactly one of bundle and measurement; a measurement needs a prm name and
      a cif list, a bundle forbids both. */
  lemma ExactlyOneInput(r: Request, reg: Registries, isWord: WordClass)
    requires Validate(r, reg, isWord).Ok?
    ensures r.gpxFilecontent.Some? <==> r.measurementFilecontent.None?
    ensures r.measurementFilecontent.Some? ==> r.prmFilename.Some? && r.cifFilenames.Some?
    ensures r.gpxFilecontent.Some? ==> r.prmFilename.None? && r.cifFilenames.None?
  {
  }

  /** Every referenced name is registered: the prm name, every cif name, and the
      sequence, for which no value is exempt (the client default "latest" included). */
  lemma RegisteredNames(r: Request, reg: Registries, isWord: WordClass)
    requires Validate(r, reg, isWord).Ok?
    ensures r.prmFilename.Some? ==> r.prmFilename.value in reg.prmFileList
    ensures r.cifFilenames.Some? ==> forall k | 0 <= k < |r.cifFilenames.value| ::
              r.cifFilenames.value[k] in reg.cifFileList
    ensures r.sequence.Some? && r.sequence.value in reg.sequenceList
    ensures LatestSequence !in reg.sequenceList ==> r.sequence.value != LatestSequence
  {
  }

  /** An empty cif list passes the registry rule whatever the registry holds. */
  lemma EmptyCifListPasses(r: Request, reg: Registries, isWord: WordClass)
    requires r.cifFilenames == Some([])
    ensures CifFileOk(r, reg, isWord)
  {
  }
}

=== FILE: session.dfy ===
/** The session state of `BBORClient` (bbor_client/client.py). The client keeps
    a token, three file-name registries, the user record, and an append-only
    history of accepted studies. It also writes the registries of the server
    parameter model. The HTTP transport is abstracted. Each request handed to
    it is appended to `outbox`. Each reply is taken, in order, from `inbox`,
    the script of what the server answers.

    Every operation is given twice: a pure step function on `World`, the whole
    observable state, and a method of the `BBORClient` class that updates its
    fields in place and is proved to end in the state the step function
    describes. The properties are lemmas about the step functions. */
module Session {
  import opened Common
  import opened Text
  import opened Paths
  import Util
  import ServerParams
  import ClientParams
  import Conf

  datatype Verb = Get | Post | Delete | Put

  /** The three kinds of server-side file the client manages. */
  datatype Kind = Prm | Cif | Seq

  function Endpoint(k: Kind): string {
    match k
    case Prm => "file/prm"
    case Cif => "file/cif"
    case Seq => "file/seq"
  }

  datatype Attachment = Attachment(filename: string, size: nat)

  datatype Payload =
    | NoPayload
    | Credentials(username: string, password: string)
    | Filenames(names: seq<string>)
    | UploadFile(filename: string, overwrite: bool)
    | StudyTask(params: ServerParams.Payload, attachment: Option<Attachment>)

  datatype Request = Request(verb: Verb, url: string, header: Option<map<string, string>>, payload: Payload)

  /** The parsed body of a reply, one shape per endpoint. */
  datatype Body =
    | Names(names: seq<string>)
    | AccessToken(token: string)
    | Me(user: string)
    | StudyAccepted(studyId: string)
    | Content(text: string)

  datatype Reply = Reply(status: int, body: Body)

  datatype World = World(
    server: string,
    token: Option<string>,
    history: seq<string>,
    prmlist: seq<string>,
    ciflist: seq<string>,
    seqlist: seq<string>,
    me: Option<string>,
    registries: ServerParams.Registries,
    inbox: seq<Reply>,
    outbox: seq<Request>)

  /** The state after an operation, and what the operation returned or raised. */
  datatype Step<T> = Step(w: World, r: Result<T>)

  function Forget<T>(s: Step<T>): (r: Step<()>)
    ensures r.w == s.w && (r.r.Ok? <==> s.r.Ok?) && (s.r.Err? ==> r.r.error == s.r.error)
  {
    Step(s.w, if s.r.Err? then Err(s.r.error) else Ok(()))
  }

  /** `send_api` prefixes a missing leading slash. */
  function NormalizeEndpoint(e: string): (r: string)
    ensures StartsWith(r, "/")
    ensures StartsWith(e, "/") ==> r == e
    ensures !StartsWith(e, "/") ==> r == "/" + e
  {
    if |e| > 0 && e[0] == '/' then e else "/" + e
  }

  /** The header of an authorised call: the bearer token merged into the
      caller's header, or the only entry when the caller gave none. */
  function AuthHeader(header: Option<map<string, string>>, token: string): (r: map<string, string>)
    ensures "Authorization" in r && r["Authorization"] == "Bearer " + token
    ensures header.Some? ==> forall k | k in header.value && k != "Authorization" :: k in r && r[k] == header.value[k]
    ensures forall k | k in r :: k == "Authorization" || (header.Some? && k in header.value)
  {
    if header.Some? && |header.value| > 0 then header.value["Authorization" := "Bearer " + token]
    else map["Authorization" := "Bearer " + token]
  }

  // The step functions.

  /** `send_api`: normalise the endpoint, resolve the server, check the token
      of an authorised call, then hand the request to the transport. */
  function Send(w: World, endpoint: string, verb: Verb, header: Option<map<string, string>>,
                auth: bool, payload: Payload): Step<Reply>
  {
    var ep := NormalizeEndpoint(endpoint);
    var url := Util.ApiUrl(w.server);
    if url.Err? then Step(w, Err(url.error))
    else if auth && w.token.None? then Step(w, Err(TokenEmpty))
    else
      var hdr := if auth then Some(AuthHeader(header, w.token.value)) else header;
      var req := Request(verb, url.value + ep, hdr, payload);
      if w.inbox == [] then Step(w.(outbox := w.outbox + [req]), Err(NoResponse))
      else Step(w.(inbox := w.inbox[1..], outbox := w.outbox + [req]), Ok(w.inbox[0]))
  }

  function ListOf(w: World, k: Kind): seq<string> {
    match k
    case Prm => w.prmlist
    case Cif => w.ciflist
    case Seq => w.seqlist
  }

  /** The server-model registry that mirrors the client's list of a kind. */
  function RegistryOf(reg: ServerParams.Registries, k: Kind): seq<string> {
    match k
    case Prm => reg.prmFileList
    case Cif => reg.cifFileList
    case Seq => reg.sequenceList
  }

  /** A reply that answers a list request with names. */
  predicate ListReply(r: Reply) {
    r.status == 200 && r.body.Names?
  }

  /** A list refresh replaces the client's list and the matching registry. */
  function SetList(w: World, k: Kind, names: seq<string>): World {
    match k
    case Prm => w.(prmlist := names, registries := w.registries.(prmFileList := names))
    case Cif => w.(ciflist := names, registries := w.registries.(cifFileList := names))
    case Seq => w.(seqlist := names, registries := w.registries.(sequenceList := names))
  }

  /** `get_prm_list`, `get_cif_list`, `get_sequence_list`. */
  function GetListStep(w: World, k: Kind): Step<Option<seq<string>>>
  {
    if !Util.TokenTruthy(w.token) then Step(w, Err(TokenEmpty))
    else
      var s := Send(w, Endpoint(k), Get, None, true, NoPayload);
      if s.r.Err? then Step(s.w, Err(s.r.error))
      else if s.r.value.status == 200 then
        if s.r.value.body.Names? then Step(SetList(s.w, k, s.r.value.body.names), Ok(Some(s.r.value.body.names)))
        else Step(s.w, Err(TypeMismatch("list")))
      else Step(s.w, Ok(None))
  }

  /** `get_me`: the user record on 200, `None` otherwise. */
  function GetMeStep(w: World): Step<Option<string>>
  {
    if !Util.TokenTruthy(w.token) then Step(w, Err(TokenEmpty))
    else
      var s := Send(w, "/user/me", Get, None, true, NoPayload);
      if s.r.Err? then Step(s.w, Err(s.r.error))
      else if s.r.value.status == 200 then
        if s.r.value.body.Me? then Step(s.w.(me := Some(s.r.value.body.user)), Ok(Some(s.r.value.body.user)))
        else Step(s.w, Err(TypeMismatch("user")))
      else Step(s.w.(me := None), Ok(None))
  }

  datatype UpdateFlags = UpdateFlags(me: bool, prm: bool, cif: bool, sequence: bool)

  const UpdateAll := UpdateFlags(true, true, true, true)

  /** `update_client_params`: the selected refreshes, in order, stopping at
      the first that raises. */
  function UpdateClientParamsStep(w: World, f: UpdateFlags): Step<()>
  {
    if !Util.TokenTruthy(w.token) then Step(w, Err(TokenEmpty))
    else
      var s1 := if f.me then Forget(GetMeStep(w)) else Step(w, Ok(()));
      if s1.r.Err? then s1
      else
        var s2 := if f.prm then Forget(GetListStep(s1.w, Prm)) else s1;
        if s2.r.Err? then s2
        else
          var s3 := if f.cif then Forget(GetListStep(s2.w, Cif)) else s2;
          if s3.r.Err? then s3
          else if f.sequence then Forget(GetListStep(s3.w, Seq)) else s3
  }

  /** `get_token`: on 200 the token is the reply's access token and every
      list is refreshed; otherwise the token is cleared. */
  function GetTokenStep(w: World, username: string, password: string): Step<()>
  {
    var s := Send(w, "/token", Post, None, false, Credentials(username, password));
    if s.r.Err? then Step(s.w, Err(s.r.error))
    else if s.r.value.status == 200 then
      if s.r.value.body.AccessToken? then UpdateClientParamsStep(s.w.(token := Some(s.r.value.body.token)), UpdateAll)
      else Step(s.w, Err(TypeMismatch("access_token")))
    else Step(s.w.(token := None), Ok(()))
  }

  /** The list an upload refreshes: as written, a sequence upload refreshes
      the cif list. */
  function RefreshAfterUpload(k: Kind): Kind {
    match k
    case Prm => Prm
    case Cif => Cif
    case Seq => Cif
  }

  /** `upload_prm`, `upload_cif`, `upload_seq`. */
  function UploadStep(w: World, k: Kind, filename: string, overwrite: bool): Step<Reply>
  {
    if !Util.TokenTruthy(w.token) then Step(w, Err(TokenEmpty))
    else
      var s := Send(w, Endpoint(k), Post, None, true, UploadFile(filename, overwrite));
      if s.r.Err? then s
      else if s.r.value.status == 200 then
        var g := GetListStep(s.w, RefreshAfterUpload(k));
        if g.r.Err? then Step(g.w, Err(g.r.error)) else Step(g.w, s.r)
      else s
  }

  /** The pre-check of the `delete_*` methods, against `prmlist` for every
      kind as written: the first unknown name raises unless absent names are
      to be ignored. */
  function DeletePrecheck(names: seq<string>, known: seq<string>, ignoreAbsent: bool): (r: Option<Error>)
    ensures r.None? <==> ignoreAbsent || forall i | 0 <= i < |names| :: names[i] in known
    ensures r.Some? ==> exists i | 0 <= i < |names| :: names[i] !in known && r.value == NotFoundOnServer(names[i])
  {
    if names == [] || ignoreAbsent then None
    else if names[0] !in known then Some(NotFoundOnServer(names[0]))
    else
      assert forall i | 1 <= i < |names| :: names[i] == names[1..][i - 1];
      DeletePrecheck(names[1..], known, ignoreAbsent)
  }

  /** `delete_prm`, `delete_cif`, `delete_seq`: the full list is sent, and the
      kind's own list is refreshed whatever the reply. */
  function DeleteFilesStep(w: World, k: Kind, filenames: OneOrMany<string>, ignoreAbsent: bool): Step<Reply>
  {
    if !Util.TokenTruthy(w.token) then Step(w, Err(TokenEmpty))
    else
      var names := AsList(filenames);
      var pre := DeletePrecheck(names, w.prmlist, ignoreAbsent);
      if pre.Some? then Step(w, Err(pre.value))
      else
        var s := Send(w, Endpoint(k), Delete, None, true, Filenames(names));
        if s.r.Err? then s
        else
          var g := GetListStep(s.w, k);
          if g.r.Err? then Step(g.w, Err(g.r.error)) else Step(g.w, s.r)
  }

  /** Uploads of the cif paths, in order, stopping at the first that raises. */
  function UploadCifsStep(w: World, files: seq<string>, overwrite: bool): Step<()>
    decreases |files|
  {
    if files == [] then Step(w, Ok(()))
    else
      var s := UploadCifsStep(w, files[..|files| - 1], overwrite);
      if s.r.Err? then s
      else Forget(UploadStep(s.w, Cif, Name(files[|files| - 1]), overwrite))
  }

  /** What the transport knows of a measurement file: its raw size, and the
      byte size of the CSV text its parser produces (or the parse error). */
  datatype Measurement = Measurement(rawSize: nat, csvSize: Result<nat>)

  /** The measurement part of `_post_study_task`, as intended: a non-empty
      file with a non-empty name is parsed and sent as CSV under its `.csv`
      name. (As written, the call to `selector` raises `TypeError` first.) */
  function MeasurementAttachment(c: ClientParams.Fields, m: Measurement): Result<Option<Attachment>>
  {
    if c.measurementfile.None? then Ok(None)
    else
      var csvname := WithSuffixName(c.measurementfile.value, ".csv");
      if csvname.None? || m.rawSize == 0 then Ok(None)
      else
        var size :- m.csvSize;
        Ok(Some(Attachment(csvname.value, size)))
  }

  /** The dump of the client model, with the measurement fields added, as the
      server model receives it. The bundle path is excluded from the dump. */
  function ServerRequestOf(c: ClientParams.Fields, att: Option<Attachment>): ServerParams.Request
  {
    ServerParams.Request(
      c.studyName, Some(c.nTrialsTotal), Some(c.nStartupTrials),
      if c.randomSeed.Some? then Some(c.randomSeed.value) else None,
      None, None,
      if att.Some? then Some(att.value.size) else None,
      if att.Some? then Some(att.value.filename) else None,
      c.prmFilename, c.cifFilenames, false, Some(c.sequence), c.tags)
  }

  /** `_post_study_task`. */
  function PostStudyTaskStep(w: World, c: ClientParams.Fields, m: Measurement, isWord: ServerParams.WordClass): Step<Reply>
  {
    if !Util.TokenTruthy(w.token) then Step(w, Err(TokenEmpty))
    else
      var att := MeasurementAttachment(c, m);
      if att.Err? then Step(w, Err(att.error))
      else
        var v := ServerParams.Validate(ServerRequestOf(c, att.value), w.registries, isWord);
        if v.Err? then Step(w, Err(v.error))
        else Send(w, "/task/study", Post, None, true, StudyTask(v.value, att.value))
  }

  /** The uploads `post_bborietveld_study_task` makes before posting: the
      prm path, then every cif path. */
  function StudyUploads(w: World, f: ClientParams.Fields): Step<()>
  {
    var s1 := if f.prmfile.Some? then Forget(UploadStep(w, Prm, Name(f.prmfile.value), f.overwritePrmfile))
              else Step(w, Ok(()));
    if s1.r.Err? then s1
    else if f.ciffiles.Some? then
      if f.ciffiles.value.One? then Step(s1.w, Err(TypeMismatch("ciffiles")))
      else UploadCifsStep(s1.w, f.ciffiles.value.items, f.overwriteCiffiles)
    else s1
  }

  /** The reply to a posted study: a 202 reply appends its study id to the
      history. */
  function Accept(s: Step<Reply>): Step<Reply>
  {
    if s.r.Err? then s
    else if s.r.value.status == 202 then
      if s.r.value.body.StudyAccepted? then Step(s.w.(history := s.w.history + [s.r.value.body.studyId]), s.r)
      else Step(s.w, Err(TypeMismatch("study_id")))
    else s
  }

  /** `post_bborietveld_study_task`: normalise with the client model (whose
      own `prm_file_list` is never filled, so it is empty), upload the prm and
      cif paths, post, and on 202 append the study id to the history. */
  function PostStudyStep(w: World, a: ClientParams.ClientArgs, draw: nat, m: Measurement,
                         isWord: ServerParams.WordClass): Step<Reply>
    requires draw < Conf.MaxRandomSeed
  {
    if !Util.TokenTruthy(w.token) then Step(w, Err(TokenEmpty))
    else
      var c := ClientParams.NormalizeSpec(a, [], draw);
      if c.Err? then Step(w, Err(c.error))
      else
        var s := StudyUploads(w, c.value);
        if s.r.Err? then Step(s.w, Err(s.r.error))
        else Accept(PostStudyTaskStep(s.w, c.value, m, isWord))
  }

  function InitialWorld(server: string, registries: ServerParams.Registries, inbox: seq<Reply>): World {
    World(server, None, [], [], [], [], None, registries, inbox, [])
  }

  /** `BBORClient.__init__`: a token is requested only when both the user
      name and the password are given. The server-model registries are shared
      by all clients, so they start as they are. */
  function Init(username: Option<string>, password: Option<string>, server: string,
                registries: ServerParams.Registries, inbox: seq<Reply>): Step<()>
  {
    var w := InitialWorld(server, registries, inbox);
    if username.Some? && password.Some? then GetTokenStep(w, username.value, password.value)
    else Step(w, Ok(()))
  }

  // The class.

  class BBORClient {
    var server: string
    var token: Option<string>
    var history: seq<string>
    var prmlist: seq<string>
    var ciflist: seq<string>
    var seqlist: seq<string>
    var me: Option<string>
    var registries: ServerParams.Registries
    var inbox: seq<Reply>
    var outbox: seq<Request>

    function State(): World
      reads this
    {
      World(server, token, history, prmlist, ciflist, seqlist, me, registries, inbox, outbox)
    }

    constructor (server: string, registries: ServerParams.Registries, inbox: seq<Reply>)
      ensures State() == InitialWorld(server, registries, inbox)
    {
      this.server := server;
      token := None;
      history, prmlist, ciflist, seqlist := [], [], [], [];
      me := None;
      this.registries := registries;
      this.inbox := inbox;
      outbox := [];
    }

    method SendApi(endpoint: string, verb: Verb, header: Option<map<string, string>>, authorization: bool,
                   payload: Payload) returns (res: Result<Reply>)
      modifies this
      ensures var s := Send(old(State()), endpoint, verb, header, authorization, payload);
              State() == s.w && res == s.r
    {
      var ep := NormalizeEndpoint(endpoint);
      var url := Util.ApiUrl(server);
      if url.Err? {
        return Err(url.error);
      }
      var hdr := header;
      if authorization {
        if token.None? {
          return Err(TokenEmpty);
        }
        hdr := Some(AuthHeader(header, token.value));
      }
      outbox := outbox + [Request(verb, url.value + ep, hdr, payload)];
      if inbox == [] {
        return Err(NoResponse);
      }
      res := Ok(inbox[0]);
      inbox := inbox[1..];
    }

    method GetList(k: Kind) returns (res: Result<Option<seq<string>>>)
      modifies this
      ensures var s := GetListStep(old(State()), k);
              State() == s.w && res == s.r
    {
      if !Util.TokenTruthy(token) {
        return Err(TokenEmpty);
      }
      var r := SendApi(Endpoint(k), Get, None, true, NoPayload);
      if r.Err? {
        return Err(r.error);
      }
      if r.value.status == 200 {
        if !r.value.body.Names? {
          return Err(TypeMismatch("list"));
        }
        var names := r.value.body.names;
        match k {
          case Prm =>
            prmlist := names;
            registries := registries.(prmFileList := names);
          case Cif =>
            ciflist := names;
            registries := registries.(cifFileList := names);
          case Seq =>
            seqlist := names;
            registries := registries.(sequenceList := names);
        }
        return Ok(Some(names));
      }
      return Ok(None);
    }

    method GetMe() returns (res: Result<Option<string>>)
      modifies this
      ensures var s := GetMeStep(old(State()));
              State() == s.w && res == s.r
    {
      if !Util.TokenTruthy(token) {
        return Err(TokenEmpty);
      }
      var r := SendApi("/user/me", Get, None, true, NoPayload);
      if r.Err? {
        return Err(r.error);
      }
      if r.value.status == 200 {
        if !r.value.body.Me? {
          return Err(TypeMismatch("user"));
        }
        me := Some(r.value.body.user);
        return Ok(Some(r.value.body.user));
      }
      me := None;
      return Ok(None);
    }

    method UpdateClientParams(f: UpdateFlags) returns (res: Result<()>)
      modifies this
      ensures var s := UpdateClientParamsStep(old(State()), f);
              State() == s.w && res == s.r
    {
      if !Util.TokenTruthy(token) {
        return Err(TokenEmpty);
      }
      if f.me {
        var r := GetMe();
        if r.Err? { return Err(r.error); }
      }
      if f.prm {
        var r := GetList(Prm);
        if r.Err? { return Err(r.error); }
      }
      if f.cif {
        var r := GetList(Cif);
        if r.Err? { return Err(r.error); }
      }
      if f.sequence {
        var r := GetList(Seq);
        if r.Err? { return Err(r.error); }
      }
      return Ok(());
    }

    method GetToken(username: string, password: string) returns (res: Result<()>)
      modifies this
      ensures var s := GetTokenStep(old(State()), username, password);
              State() == s.w && res == s.r
    {
      var r := SendApi("/token", Post, None, false, Credentials(username, password));
      if r.Err? {
        return Err(r.error);
      }
      if r.value.status == 200 {
        if !r.value.body.AccessToken? {
          return Err(TypeMismatch("access_token"));
        }
        token := Some(r.value.body.token);
        res := UpdateClientParams(UpdateAll);
      } else {
        token := None;
        res := Ok(());
      }
    }

    method Upload(k: Kind, filename: string, overwrite: bool) returns (res: Result<Reply>)
      modifies this
      ensures var s := UploadStep(old(State()), k, filename, overwrite);
              State() == s.w && res == s.r
    {
      if !Util.TokenTruthy(token) {
        return Err(TokenEmpty);
      }
      res := SendApi(Endpoint(k), Post, None, true, UploadFile(filename, overwrite));
      if res.Ok? && res.value.status == 200 {
        var g := GetList(RefreshAfterUpload(k));
        if g.Err? {
          return Err(g.error);
        }
      }
    }

    /** The pre-check loop of the `delete_*` methods; it changes nothing. */
    method PrecheckDelete(names: seq<string>, ignoreAbsent: bool) returns (err: Option<Error>)
      ensures err == DeletePrecheck(names, prmlist, ignoreAbsent)
    {
      var i := 0;
      while i < |names|
        invariant 0 <= i <= |names|
        invariant DeletePrecheck(names, prmlist, ignoreAbsent) == DeletePrecheck(names[i..], prmlist, ignoreAbsent)
      {
        if names[i] !in prmlist && !ignoreAbsent {
          return Some(NotFoundOnServer(names[i]));
        }
        assert names[i..][1..] == names[i + 1..];
        i := i + 1;
      }
      return None;
    }

    method DeleteFiles(k: Kind, filenames: OneOrMany<string>, ignoreAbsent: bool) returns (res: Result<Reply>)
      modifies this
      ensures var s := DeleteFilesStep(old(State()), k, filenames, ignoreAbsent);
              State() == s.w && res == s.r
    {
      if !Util.TokenTruthy(token) {
        return Err(TokenEmpty);
      }
      var names := AsList(filenames);
      var pre := PrecheckDelete(names, ignoreAbsent);
      if pre.Some? {
        return Err(pre.value);
      }
      res := SendApi(Endpoint(k), Delete, None, true, Filenames(names));
      if res.Ok? {
        var g := GetList(k);
        if g.Err? {
          return Err(g.error);
        }
      }
    }

    method UploadCifs(files: seq<string>, overwrite: bool) returns (res: Result<()>)
      modifies this
      ensures var s := UploadCifsStep(old(State()), files, overwrite);
              State() == s.w && res == s.r
    {
      ghost var w0 := State();
      var k := 0;
      while k < |files|
        invariant 0 <= k <= |files|
        invariant UploadCifsStep(w0, files[..k], overwrite) == Step(State(), Ok(()))
      {
        ghost var before := State();
        var r := Upload(Cif, Name(files[k]), overwrite);
        UploadCifsNext(w0, files, overwrite, k, before);
        if r.Err? {
          UploadCifsStops(w0, files, overwrite, k + 1);
          return Err(r.error);
        }
        k := k + 1;
      }
      assert files[..k] == files;
      return Ok(());
    }

    method PostStudyTask(c: ClientParams.Fields, m: Measurement, isWord: ServerParams.WordClass)
      returns (res: Result<Reply>)
      modifies this
      ensures var s := PostStudyTaskStep(old(State()), c, m, isWord);
              State() == s.w && res == s.r
    {
      if !Util.TokenTruthy(token) {
        return Err(TokenEmpty);
      }
      var att := MeasurementAttachment(c, m);
      if att.Err? {
        return Err(att.error);
      }
      var v := ServerParams.Validate(ServerRequestOf(c, att.value), registries, isWord);
      if v.Err? {
        return Err(v.error);
      }
      res := SendApi("/task/study", Post, None, true, StudyTask(v.value, att.value));
    }

    method PostStudy(a: ClientParams.ClientArgs, draw: nat, m: Measurement, isWord: ServerParams.WordClass)
      returns (res: Result<Reply>)
      requires draw < Conf.MaxRandomSeed
      modifies this
      ensures var s := PostStudyStep(old(State()), a, draw, m, isWord);
              State() == s.w && res == s.r
    {
      if !Util.TokenTruthy(token) {
        return Err(TokenEmpty);
      }
      ghost var w0 := State();
      var c := ClientParams.NormalizeSpec(a, [], draw);
      if c.Err? {
        return Err(c.error);
      }
      var f := c.value;
      if f.prmfile.Some? {
        var u := Upload(Prm, Name(f.prmfile.value), f.overwritePrmfile);
        if u.Err? {
          assert StudyUploads(w0, f) == Step(State(), Err(u.error));
          return Err(u.error);
        }
      }
      ghost var w1 := State();
      if f.ciffiles.Some? {
        if f.ciffiles.value.One? {
          assert StudyUploads(w0, f) == Step(State(), Err(TypeMismatch("ciffiles")));
          return Err(TypeMismatch("ciffiles"));
        }
        var u := UploadCifs(f.ciffiles.value.items, f.overwriteCiffiles);
        if u.Err? {
          assert StudyUploads(w0, f) == Step(State(), Err(u.error));
          return Err(u.error);
        }
      }
      assert StudyUploads(w0, f) == Step(State(), Ok(()));
      ghost var w2 := State();
      res := PostStudyTask(f, m, isWord);
      ghost var t := PostStudyTaskStep(w2, f, m, isWord);
      assert PostStudyStep(w0, a, draw, m, isWord) == Accept(t);
      if res.Ok? && res.value.status == 202 {
        if !res.value.body.StudyAccepted? {
          return Err(TypeMismatch("study_id"));
        }
        history := history + [res.value.body.studyId];
      }
    }
  }

  /** `BBORClient(username, password, server)`. */
  method New(username: Option<string>, password: Option<string>, server: string,
             registries: ServerParams.Registries, inbox: seq<Reply>) returns (res: Result<BBORClient>)
    ensures var s := Init(username, password, server, registries, inbox);
            (res.Ok? <==> s.r.Ok?) && (res.Ok? ==> fresh(res.value) && res.value.State() == s.w)
  {
    var c := new BBORClient(server, registries, inbox);
    if username.Some? && password.Some? {
      var r := c.GetToken(username.value, password.value);
      if r.Err? {
        return Err(r.error);
      }
    }
    return Ok(c);
  }

  // Properties of the session.

  /** One more cif upload after a prefix that succeeded. */
  lemma UploadCifsNext(w: World, files: seq<string>, overwrite: bool, k: nat, before: World)
    requires k < |files|
    requires UploadCifsStep(w, files[..k], overwrite) == Step(before, Ok(()))
    ensures UploadCifsStep(w, files[..k + 1], overwrite) == Forget(UploadStep(before, Cif, Name(files[k]), overwrite))
  {
    assert files[..k + 1][..k] == files[..k];
  }

  lemma {:induction false} UploadCifsStops(w: World, files: seq<string>, overwrite: bool, k: nat)
    requires k <= |files|
    requires UploadCifsStep(w, files[..k], overwrite).r.Err?
    ensures UploadCifsStep(w, files, overwrite) == UploadCifsStep(w, files[..k], overwrite)
    decreases |files| - k
  {
    if k < |files| {
      assert files[..k + 1][..k] == files[..k];
      UploadCifsStops(w, files, overwrite, k + 1);
    } else {
      assert files[..k] == files;
    }
  }

  /** A fresh client has an empty history. Without both credentials it has
      no token and empty lists; with both, the token comes from the reply to
      the token request, and a refused request leaves no token. */
  lemma InitialState(username: Option<string>, password: Option<string>, server: string,
                     registries: ServerParams.Registries, inbox: seq<Reply>)
    ensures Init(username, password, server, registries, inbox).w.history == []
    ensures !(username.Some? && password.Some?) ==>
              var w := Init(username, password, server, registries, inbox).w;
              w.token.None? && w.prmlist == [] && w.ciflist == [] && w.seqlist == []
    ensures username.Some? && password.Some? && Util.ApiUrl(server).Ok? && inbox != [] ==>
              var w := Init(username, password, server, registries, inbox).w;
              && (inbox[0].status == 200 && inbox[0].body.AccessToken? ==> w.token == Some(inbox[0].body.token))
              && (inbox[0].status != 200 ==> w.token.None? && w.prmlist == [] && w.ciflist == [] && w.seqlist == [])
  {
    if username.Some? && password.Some? {
      var w := InitialWorld(server, registries, inbox);
      GetTokenFrame(w, username.value, password.value);
      if Util.ApiUrl(server).Ok? && inbox != [] {
        GetTokenOutcome(w, username.value, password.value);
      }
    }
  }

  /** Endpoint normalisation is idempotent. */
  lemma NormalizeEndpointIdempotent(e: string)
    ensures NormalizeEndpoint(NormalizeEndpoint(e)) == NormalizeEndpoint(e)
  {
  }

  /** An authorised call without a token raises before any request is made;
      with a token, the request carries `Bearer <token>` in its header. */
  lemma AuthorizationGuard(w: World, endpoint: string, verb: Verb, header: Option<map<string, string>>, payload: Payload)
    ensures w.token.None? ==> Send(w, endpoint, verb, header, true, payload).w == w
    ensures w.token.None? && Util.ApiUrl(w.server).Ok? ==> Send(w, endpoint, verb, header, true, payload).r == Err(TokenEmpty)
    ensures w.token.Some? && Util.ApiUrl(w.server).Ok? ==>
              var s := Send(w, endpoint, verb, header, true, payload);
              && s.w.outbox == w.outbox + [Request(verb, Util.ApiUrl(w.server).value + NormalizeEndpoint(endpoint),
                                                   Some(AuthHeader(header, w.token.value)), payload)]
              && s.w.outbox[|s.w.outbox| - 1].header.value["Authorization"] == "Bearer " + w.token.value
  {
  }

  /** Sending changes only the transport queues. */
  lemma SendFrame(w: World, endpoint: string, verb: Verb, header: Option<map<string, string>>, auth: bool, payload: Payload)
    ensures var s := Send(w, endpoint, verb, header, auth, payload);
            s.w.(inbox := w.inbox, outbox := w.outbox) == w
    ensures var s := Send(w, endpoint, verb, header, auth, payload);
            s.r.Ok? ==> w.inbox != [] && s.r.value == w.inbox[0] && s.w.inbox == w.inbox[1..]
  {
  }

  /** Refreshing a list keeps the token, the server, the history and the
      user record. */
  predicate SameSession(a: World, b: World) {
    a.server == b.server && a.token == b.token && a.history == b.history
  }

  /** On 200 a list refresh replaces the kind's list and the matching
      registry with the reply's names, leaving the other lists alone; on any
      other status the lists are unchanged. */
  lemma GetListOutcome(w: World, k: Kind)
    ensures SameSession(GetListStep(w, k).w, w) && GetListStep(w, k).w.me == w.me
    ensures var s := GetListStep(w, k);
            forall j: Kind | j != k :: ListOf(s.w, j) == ListOf(w, j)
    ensures var s := GetListStep(w, k);
            s.r.Ok? && s.r.value.Some? ==>
              && ListOf(s.w, k) == s.r.value.value
              && s.r.value.value == w.inbox[0].body.names
              && w.inbox[0].status == 200
              && (k == Prm ==> s.w.registries.prmFileList == s.r.value.value)
              && (k == Cif ==> s.w.registries.cifFileList == s.r.value.value)
              && (k == Seq ==> s.w.registries.sequenceList == s.r.value.value)
    ensures var s := GetListStep(w, k);
            Util.TokenTruthy(w.token) && Util.ApiUrl(w.server).Ok? && w.inbox != [] && w.inbox[0].status != 200 ==>
              s.r == Ok(None) && ListOf(s.w, k) == ListOf(w, k) && s.w.registries == w.registries
    ensures var s := GetListStep(w, k);
            Util.TokenTruthy(w.token) && Util.ApiUrl(w.server).Ok? && w.inbox != [] &&
            w.inbox[0].status == 200 && w.inbox[0].body.Names? ==>
              s.r == Ok(Some(w.inbox[0].body.names))
    ensures var s := GetListStep(w, k);
            Util.TokenTruthy(w.token) && Util.ApiUrl(w.server).Ok? && w.inbox != [] ==>
              s.w.inbox == w.inbox[1..] && s.w.token == w.token
  {
  }

  lemma GetMeFrame(w: World)
    ensures SameSession(GetMeStep(w).w, w)
    ensures forall k: Kind :: ListOf(GetMeStep(w).w, k) == ListOf(w, k)
  {
  }

  /** `get_me`: on 200 the user record becomes the reply's user; on any other
      status it becomes `None`. Whenever the call returns, the record is what
      it returned. */
  lemma GetMeOutcome(w: World)
    ensures !Util.TokenTruthy(w.token) ==> GetMeStep(w) == Step(w, Err(TokenEmpty))
    ensures var s := GetMeStep(w);
            s.r.Ok? ==> s.w.me == s.r.value
    ensures var s := GetMeStep(w);
            Util.TokenTruthy(w.token) && Util.ApiUrl(w.server).Ok? && w.inbox != [] ==>
              && s.w.inbox == w.inbox[1..]
              && s.w.registries == w.registries
              && (w.inbox[0].status == 200 && w.inbox[0].body.Me? ==>
                    s.w.me == Some(w.inbox[0].body.user) && s.r == Ok(Some(w.inbox[0].body.user)))
              && (w.inbox[0].status == 200 && !w.inbox[0].body.Me? ==> s.w.me == w.me && s.r.Err?)
              && (w.inbox[0].status != 200 ==> s.w.me == None && s.r == Ok(None))
  {
  }

  lemma UpdateFrame(w: World, f: UpdateFlags)
    ensures SameSession(UpdateClientParamsStep(w, f).w, w)
  {
    GetMeFrame(w);
    var s1 := if f.me then Forget(GetMeStep(w)) else Step(w, Ok(()));
    GetListOutcome(s1.w, Prm);
    var s2 := if f.prm then Forget(GetListStep(s1.w, Prm)) else s1;
    GetListOutcome(s2.w, Cif);
    var s3 := if f.cif then Forget(GetListStep(s2.w, Cif)) else s2;
    GetListOutcome(s3.w, Seq);
  }

  /** `update_client_params()` with every flag: given a user reply and three
      list replies, the user record, the three lists and their registries
      become what the server sent, in the order me, prm, cif, sequence. */
  lemma UpdateAllOutcome(w: World)
    requires Util.TokenTruthy(w.token) && Util.ApiUrl(w.server).Ok?
    requires |w.inbox| >= 4 && w.inbox[0].status == 200 && w.inbox[0].body.Me?
    requires ListReply(w.inbox[1]) && ListReply(w.inbox[2]) && ListReply(w.inbox[3])
    ensures var s := UpdateClientParamsStep(w, UpdateAll);
            && s.r == Ok(())
            && s.w.me == Some(w.inbox[0].body.user)
            && s.w.prmlist == w.inbox[1].body.names
            && s.w.ciflist == w.inbox[2].body.names
            && s.w.seqlist == w.inbox[3].body.names
            && s.w.registries == ServerParams.Registries(w.inbox[1].body.names, w.inbox[2].body.names, w.inbox[3].body.names)
            && s.w.inbox == w.inbox[4..]
  {
    GetMeOutcome(w);
    GetMeFrame(w);
    var w1 := GetMeStep(w).w;
    assert w1.inbox == w.inbox[1..];
    GetListOutcome(w1, Prm);
    var w2 := GetListStep(w1, Prm).w;
    assert w2.inbox == w.inbox[2..];
    GetListOutcome(w2, Cif);
    var w3 := GetListStep(w2, Cif).w;
    assert w3.inbox == w.inbox[3..];
    GetListOutcome(w3, Seq);
  }

  lemma GetTokenFrame(w: World, username: string, password: string)
    ensures GetTokenStep(w, username, password).w.history == w.history
    ensures GetTokenStep(w, username, password).w.server == w.server
  {
    var s := Send(w, "/token", Post, None, false, Credentials(username, password));
    if s.r.Ok? && s.r.value.status == 200 && s.r.value.body.AccessToken? {
      UpdateFrame(s.w.(token := Some(s.r.value.body.token)), UpdateAll);
    }
  }

  /** `get_token`: a 200 reply with an access token sets the token to it
      (an empty token then fails the guard of the refresh that follows); any
      other status clears the token and changes nothing else. */
  lemma GetTokenOutcome(w: World, username: string, password: string)
    requires Util.ApiUrl(w.server).Ok? && w.inbox != []
    ensures var s := GetTokenStep(w, username, password);
            w.inbox[0].status == 200 && w.inbox[0].body.AccessToken? ==>
              s.w.token == Some(w.inbox[0].body.token)
    ensures var s := GetTokenStep(w, username, password);
            w.inbox[0].status == 200 && w.inbox[0].body == AccessToken("") ==> s.r == Err(TokenEmpty)
    ensures var s := GetTokenStep(w, username, password);
            w.inbox[0].status != 200 ==>
              && s.r == Ok(())
              && s.w == w.(token := None, inbox := w.inbox[1..],
                           outbox := w.outbox + [Request(Post, Util.ApiUrl(w.server).value + "/token", None,
                                                         Credentials(username, password))])
    ensures var s := GetTokenStep(w, username, password);
            w.inbox[0].status == 200 && w.inbox[0].body.AccessToken? && w.inbox[0].body.token != "" &&
            |w.inbox| >= 5 && w.inbox[1].status == 200 && w.inbox[1].body.Me? &&
            ListReply(w.inbox[2]) && ListReply(w.inbox[3]) && ListReply(w.inbox[4]) ==>
              && s.r == Ok(())
              && s.w.me == Some(w.inbox[1].body.user)
              && s.w.prmlist == w.inbox[2].body.names
              && s.w.ciflist == w.inbox[3].body.names
              && s.w.seqlist == w.inbox[4].body.names
              && s.w.registries == ServerParams.Registries(w.inbox[2].body.names, w.inbox[3].body.names, w.inbox[4].body.names)
  {
    var s := Send(w, "/token", Post, None, false, Credentials(username, password));
    if s.r.Ok? && s.r.value.status == 200 && s.r.value.body.AccessToken? {
      var w' := s.w.(token := Some(s.r.value.body.token));
      UpdateFrame(w', UpdateAll);
      if w.inbox[0].body.token != "" && |w.inbox| >= 5 && w.inbox[1].status == 200 && w.inbox[1].body.Me? &&
         ListReply(w.inbox[2]) && ListReply(w.inbox[3]) && ListReply(w.inbox[4]) {
        assert w'.inbox == w.inbox[1..];
        UpdateAllOutcome(w');
      }
    }
  }

  /** Uploads refresh a list only after a 200 reply: the prm list after a prm
      upload, the cif list after a cif upload, and, as written, the cif list
      (never the sequence list) after a sequence upload. */
  lemma UploadOutcome(w: World, k: Kind, filename: string, overwrite: bool)
    ensures SameSession(UploadStep(w, k, filename, overwrite).w, w)
    ensures var s := UploadStep(w, k, filename, overwrite);
            s.r.Ok? && s.r.value.status != 200 ==> forall j: Kind :: ListOf(s.w, j) == ListOf(w, j)
    ensures var s := UploadStep(w, k, filename, overwrite);
            k == Seq ==> s.w.seqlist == w.seqlist && s.w.registries.sequenceList == w.registries.sequenceList
    ensures var s := UploadStep(w, k, filename, overwrite);
            forall j: Kind | j != RefreshAfterUpload(k) :: ListOf(s.w, j) == ListOf(w, j)
    ensures var s := UploadStep(w, k, filename, overwrite);
            Util.TokenTruthy(w.token) && Util.ApiUrl(w.server).Ok? && |w.inbox| >= 2 &&
            w.inbox[0].status == 200 && ListReply(w.inbox[1]) ==>
              && s.r == Ok(w.inbox[0])
              && ListOf(s.w, RefreshAfterUpload(k)) == w.inbox[1].body.names
              && RegistryOf(s.w.registries, RefreshAfterUpload(k)) == w.inbox[1].body.names
    ensures var s := UploadStep(w, k, filename, overwrite);
            Util.TokenTruthy(w.token) && Util.ApiUrl(w.server).Ok? && |w.inbox| >= 2 &&
            w.inbox[0].status == 200 && w.inbox[1].status != 200 ==>
              s.r == Ok(w.inbox[0]) && s.w.registries == w.registries && forall j: Kind :: ListOf(s.w, j) == ListOf(w, j)
  {
    if Util.TokenTruthy(w.token) {
      var s := Send(w, Endpoint(k), Post, None, true, UploadFile(filename, overwrite));
      SendFrame(w, Endpoint(k), Post, None, true, UploadFile(filename, overwrite));
      assert SameSession(s.w, w) && s.w.registries == w.registries;
      assert forall j: Kind :: ListOf(s.w, j) == ListOf(w, j);
      var u := UploadStep(w, k, filename, overwrite);
      if s.r.Ok? && s.r.value.status == 200 {
        GetListOutcome(s.w, RefreshAfterUpload(k));
        assert u.w == GetListStep(s.w, RefreshAfterUpload(k)).w;
      } else {
        assert u.w == s.w;
      }
    }
  }

  lemma DeleteFrame(w: World, k: Kind, filenames: OneOrMany<string>, ignoreAbsent: bool)
    ensures SameSession(DeleteFilesStep(w, k, filenames, ignoreAbsent).w, w)
  {
    var s := Send(w, Endpoint(k), Delete, None, true, Filenames(AsList(filenames)));
    GetListOutcome(s.w, k);
  }

  /** `delete_*`: a name unknown to `prmlist` (for every kind, as written)
      raises before any request unless absent names are ignored; a single
      name is checked as a one-element list. */
  lemma DeleteRefusesUnknown(w: World, k: Kind, filenames: OneOrMany<string>, ignoreAbsent: bool)
    requires Util.TokenTruthy(w.token)
    ensures filenames.One? && filenames.item !in w.prmlist && !ignoreAbsent ==>
              DeleteFilesStep(w, k, filenames, ignoreAbsent) == Step(w, Err(NotFoundOnServer(filenames.item)))
    ensures !ignoreAbsent && (exists i | 0 <= i < |AsList(filenames)| :: AsList(filenames)[i] !in w.prmlist) ==>
              DeleteFilesStep(w, k, filenames, ignoreAbsent).w == w &&
              DeleteFilesStep(w, k, filenames, ignoreAbsent).r.Err?
  {
  }

  /** With absent names ignored, the full, unfiltered list is sent, with the
      bearer token, to the kind's endpoint. */
  lemma DeleteSendsFullList(w: World, k: Kind, filenames: OneOrMany<string>)
    requires Util.TokenTruthy(w.token) && Util.ApiUrl(w.server).Ok?
    ensures var s := DeleteFilesStep(w, k, filenames, true);
            |s.w.outbox| > |w.outbox| &&
            s.w.outbox[|w.outbox|] == Request(Delete, Util.ApiUrl(w.server).value + "/" + Endpoint(k),
                                               Some(AuthHeader(None, w.token.value)), Filenames(AsList(filenames)))
  {
    var names := AsList(filenames);
    var s := Send(w, Endpoint(k), Delete, None, true, Filenames(names));
    DeleteRequest(w, k, names);
    DeleteKeepsRequest(w, k, filenames);
    var d := DeleteFilesStep(w, k, filenames, true);
    assert d.w.outbox[|w.outbox|] == d.w.outbox[..|s.w.outbox|][|w.outbox|];
  }

  /** The request a delete sends. */
  lemma DeleteRequest(w: World, k: Kind, names: seq<string>)
    requires Util.TokenTruthy(w.token) && Util.ApiUrl(w.server).Ok?
    ensures Send(w, Endpoint(k), Delete, None, true, Filenames(names)).w.outbox ==
              w.outbox + [Request(Delete, Util.ApiUrl(w.server).value + "/" + Endpoint(k),
                                  Some(AuthHeader(None, w.token.value)), Filenames(names))]
  {
    assert Endpoint(k)[0] == 'f';
    assert NormalizeEndpoint(Endpoint(k)) == "/" + Endpoint(k);
    var u := Util.ApiUrl(w.server).value;
    assert u + NormalizeEndpoint(Endpoint(k)) == u + "/" + Endpoint(k);
  }

  /** With absent names ignored, what a delete leaves in the outbox starts
      with what its own request left there. */
  lemma DeleteKeepsRequest(w: World, k: Kind, filenames: OneOrMany<string>)
    requires Util.TokenTruthy(w.token)
    ensures var s := Send(w, Endpoint(k), Delete, None, true, Filenames(AsList(filenames)));
            var d := DeleteFilesStep(w, k, filenames, true);
            |d.w.outbox| >= |s.w.outbox| && d.w.outbox[..|s.w.outbox|] == s.w.outbox
  {
    var s := Send(w, Endpoint(k), Delete, None, true, Filenames(AsList(filenames)));
    assert DeletePrecheck(AsList(filenames), w.prmlist, true).None?;
    GetListOutbox(s.w, k);
  }

  /** A list refresh only appends to the outbox. */
  lemma GetListOutbox(w: World, k: Kind)
    ensures |GetListStep(w, k).w.outbox| >= |w.outbox|
    ensures GetListStep(w, k).w.outbox[..|w.outbox|] == w.outbox
  {
  }

  lemma {:induction false} UploadCifsFrame(w: World, files: seq<string>, overwrite: bool)
    ensures SameSession(UploadCifsStep(w, files, overwrite).w, w)
    decreases |files|
  {
    if files != [] {
      var init := files[..|files| - 1];
      UploadCifsFrame(w, init, overwrite);
      var s := UploadCifsStep(w, init, overwrite);
      UploadOutcome(s.w, Cif, Name(files[|files| - 1]), overwrite);
    }
  }

  lemma PostStudyTaskFrame(w: World, c: ClientParams.Fields, m: Measurement, isWord: ServerParams.WordClass)
    ensures SameSession(PostStudyTaskStep(w, c, m, isWord).w, w)
  {
  }

  lemma StudyUploadsFrame(w: World, f: ClientParams.Fields)
    ensures SameSession(StudyUploads(w, f).w, w)
  {
    if f.prmfile.Some? {
      UploadOutcome(w, Prm, Name(f.prmfile.value), f.overwritePrmfile);
    }
    var s1 := if f.prmfile.Some? then Forget(UploadStep(w, Prm, Name(f.prmfile.value), f.overwritePrmfile))
              else Step(w, Ok(()));
    if f.ciffiles.Some? && f.ciffiles.value.Many? {
      UploadCifsFrame(s1.w, f.ciffiles.value.items, f.overwriteCiffiles);
    }
  }

  /** The history only grows, and only by the accepted study's id: after a
      202 reply carrying a study id it is the old history plus that id;
      otherwise it is unchanged. The token is never changed. */
  lemma PostStudyHistory(w: World, a: ClientParams.ClientArgs, draw: nat, m: Measurement, isWord: ServerParams.WordClass)
    requires draw < Conf.MaxRandomSeed
    ensures var s := PostStudyStep(w, a, draw, m, isWord);
            (s.r.Ok? && s.r.value.status == 202 ==>
               s.w.history == w.history + [s.r.value.body.studyId])
            && (!(s.r.Ok? && s.r.value.status == 202) ==> s.w.history == w.history)
    ensures PostStudyStep(w, a, draw, m, isWord).w.token == w.token
  {
    var c := ClientParams.NormalizeSpec(a, [], draw);
    if Util.TokenTruthy(w.token) && c.Ok? {
      StudyUploadsFrame(w, c.value);
      var s := StudyUploads(w, c.value);
      if s.r.Ok? {
        PostStudyTaskFrame(s.w, c.value, m, isWord);
      }
    }
  }

  /** Without a measurement file the study is rejected by the server model
      before anything is posted: the bundle path is not part of the dump. */
  lemma PostStudyTaskWithoutMeasurement(w: World, c: ClientParams.Fields, m: Measurement, isWord: ServerParams.WordClass)
    requires c.measurementfile.None?
    ensures PostStudyTaskStep(w, c, m, isWord) == Step(w, PostStudyTaskStep(w, c, m, isWord).r)
    ensures PostStudyTaskStep(w, c, m, isWord).r.Err?
  {
    var r := ServerRequestOf(c, None);
    assert !ServerParams.InputFilesOk(r);
  }

  /** As written, a bundle path never reaches the server model, so a
      submission without a measurement file is rejected and never posted. */
  lemma BundleSubmissionRejected(w: World, a: ClientParams.ClientArgs, draw: nat, m: Measurement,
                                 isWord: ServerParams.WordClass)
    requires draw < Conf.MaxRandomSeed
    requires a.measurementfile.None?
    ensures PostStudyStep(w, a, draw, m, isWord).r.Err?
  {
    var c := ClientParams.NormalizeSpec(a, [], draw);
    if Util.TokenTruthy(w.token) && c.Ok? {
      ClientParams.NormalizeKeepsFiles(a, [], draw);
      var s := StudyUploads(w, c.value);
      if s.r.Ok? {
        PostStudyTaskWithoutMeasurement(s.w, c.value, m, isWord);
      }
    }
  }

  /** The client's own `prm_file_list` is empty, so with the cif guard as
      written any submission naming cif paths without allowing overwrites
      fails before anything is uploaded or posted. */
  lemma CifPathsNeedOverwrite(w: World, a: ClientParams.ClientArgs, draw: nat, m: Measurement,
                              isWord: ServerParams.WordClass)
    requires draw < Conf.MaxRandomSeed
    requires a.cifFilenames.None? && a.ciffiles.Some? && ClientParams.ArgPaths(a.ciffiles.value) != [] && !a.overwriteCiffiles
    ensures PostStudyStep(w, a, draw, m, isWord).w == w
    ensures PostStudyStep(w, a, draw, m, isWord).r.Err?
  {
    ClientParams.CifPopulation(a, [], draw);
    var xs := ClientParams.ArgPaths(a.ciffiles.value);
    assert Name(xs[0]) !in [];
  }
}

=== FILE: text.dfy ===
/** String helpers standing for the Python string operations the client uses:
    `startswith`/`endswith`, `lower()`, `'\n'.join(...)`, and the integer
    format `f'{n:04d}'` used to synthesise study names. */
module Text {

  predicate StartsWith(s: string, prefix: string) {
    |prefix| <= |s| && s[..|prefix|] == prefix
  }

  predicate EndsWith(s: string, suffix: string) {
    |suffix| <= |s| && s[|s| - |suffix|..] == suffix
  }

  /** `s.endswith(tuple)`: true when `s` ends with any of the suffixes. */
  predicate EndsWithAny(s: string, suffixes: seq<string>) {
    exists k | 0 <= k < |suffixes| :: EndsWith(s, suffixes[k])
  }

  /** `str.lower()` restricted to ASCII letters. */
  function LowerChar(c: char): (r: char)
    ensures 'A' <= c <= 'Z' ==> r as int == c as int + 32
    ensures !('A' <= c <= 'Z') ==> r == c
  {
    if 'A' <= c <= 'Z' then (c as int + 32) as char else c
  }

  function Lower(s: string): (r: string)
    ensures |r| == |s|
    ensures forall i | 0 <= i < |s| :: r[i] == LowerChar(s[i])
  {
    seq(|s|, i requires 0 <= i < |s| => LowerChar(s[i]))
  }

  predicate IsDigit(c: char) { '0' <= c <= '9' }

  predicate AllDigits(s: string) { forall i | 0 <= i < |s| :: IsDigit(s[i]) }

  function DigitChar(d: nat): (c: char)
    requires d < 10
    ensures IsDigit(c)
  {
    ('0' as int + d) as char
  }

  function DigitValue(c: char): (d: nat)
    requires IsDigit(c)
    ensures d < 10
  {
    c as int - '0' as int
  }

  /** The decimal digits of `n`, without leading zeros (`str(n)`). */
  function Decimal(n: nat): (s: string)
    ensures 1 <= |s| && AllDigits(s)
    decreases n
  {
    if n < 10 then [DigitChar(n)] else Decimal(n / 10) + [DigitChar(n % 10)]
  }

  function Zeros(k: nat): (s: string)
    ensures |s| == k
    ensures forall i | 0 <= i < k :: s[i] == '0'
  {
    if k == 0 then [] else ['0'] + Zeros(k - 1)
  }

  /** `f'{n:04d}'` for a non-negative `n`: the decimal digits, left-padded
      with zeros to at least four characters. */
  function ZeroPad4(n: nat): (s: string)
    ensures AllDigits(s) && 4 <= |s|
  {
    var d := Decimal(n);
    if |d| < 4 then Zeros(4 - |d|) + d else d
  }

  /** The number a string of decimal digits denotes (`int(s)`). */
  function ValueOf(s: string): nat
    requires AllDigits(s)
  {
    if s == [] then 0 else ValueOf(s[..|s| - 1]) * 10 + DigitValue(s[|s| - 1])
  }

  lemma {:induction false} DecimalValue(n: nat)
    ensures ValueOf(Decimal(n)) == n
    decreases n
  {
    if n >= 10 {
      DecimalValue(n / 10);
      var s := Decimal(n);
      assert s[..|s| - 1] == Decimal(n / 10);
    }
  }

  lemma {:induction false} DecimalLength(n: nat)
    ensures n < 10 ==> |Decimal(n)| == 1
    ensures n < 100 ==> |Decimal(n)| <= 2
    ensures n < 1000 ==> |Decimal(n)| <= 3
    ensures n < 10000 ==> |Decimal(n)| <= 4
    ensures 1000 <= n ==> 4 <= |Decimal(n)|
    decreases n
  {
    if n >= 10 { DecimalLength(n / 10); }
  }

  lemma {:induction false} LeadingZerosValue(k: nat, s: string)
    requires AllDigits(s)
    ensures AllDigits(Zeros(k) + s)
    ensures ValueOf(Zeros(k) + s) == ValueOf(s)
    decreases |s|
  {
    var z := Zeros(k) + s;
    if s == [] {
      ZerosValue(k);
      assert z == Zeros(k);
    } else {
      LeadingZerosValue(k, s[..|s| - 1]);
      assert z[..|z| - 1] == Zeros(k) + s[..|s| - 1];
    }
  }

  lemma {:induction false} ZerosValue(k: nat)
    ensures ValueOf(Zeros(k)) == 0
  {
    if k > 0 {
      ZerosValue(k - 1);
      var z := Zeros(k);
      assert z[..k - 1] == Zeros(k - 1);
    }
  }

  /** A seed below 10000 formats to exactly four digits that read back as the seed. */
  lemma ZeroPad4RoundTrip(n: nat)
    requires n < 10000
    ensures |ZeroPad4(n)| == 4
    ensures ValueOf(ZeroPad4(n)) == n
  {
    DecimalLength(n);
    DecimalValue(n);
    var d := Decimal(n);
    if |d| < 4 { LeadingZerosValue(4 - |d|, d); }
  }

  /** `sep.join(parts)`. */
  function Join(parts: seq<string>, sep: string): (r: string)
    ensures parts == [] ==> r == []
    ensures |parts| == 1 ==> r == parts[0]
  {
    if parts == [] then []
    else if |parts| == 1 then parts[0]
    else Join(parts[..|parts| - 1], sep) + sep + parts[|parts| - 1]
  }
}

=== FILE: trial.dfy ===
/** The structural rules of the refinement-result models
    (bbor_client/models/trial.py): the defaults of refinable numbers, the
    length rules of coefficient lists, Miller indices and spherical-harmonics
    orders, and the discriminated unions the server's documents decode into.
    Floating-point values are carried as `real` and never computed with. */
module Trial {
  import opened Common

  /** `RefinableFloat`: a value with an optional unit and standard uncertainty. */
  datatype RefinableFloat = RefinableFloat(value: real, unit: Option<string>, sig: Option<real>, refine: bool)

  /** `ConstrainableFloat`: a refinable value that may be tied by a constraint. */
  datatype ConstrainableFloat = ConstrainableFloat(value: real, unit: Option<string>, sig: Option<real>,
                                                   refine: bool, isConstrained: bool)

  /** The value of an `Optional[...] = None` field. */
  function OptionalArg<T>(a: Arg<T>): (r: Option<T>)
    ensures r.Some? <==> a.Given?
    ensures a.Given? ==> r == Some(a.value)
  {
    if a.Given? then Some(a.value) else None
  }

  /** A `bool = False` field: omitted means false, an explicit `None` is not a bool. */
  function FlagArg(a: Arg<bool>, field: string): (r: Result<bool>)
    ensures r.Err? <==> a.ExplicitNone?
    ensures r.Ok? ==> (r.value <==> a == Given(true))
  {
    match a
    case Omitted => Ok(false)
    case ExplicitNone => Err(TypeMismatch(field))
    case Given(b) => Ok(b)
  }

  /** Validating a `RefinableFloat`: `refine` is false unless set, `unit`
      and `sig` are absent unless given. */
  function MakeRefinable(value: real, unit: Arg<string>, sig: Arg<real>, refine: Arg<bool>): (r: Result<RefinableFloat>)
    ensures r.Err? <==> refine.ExplicitNone?
    ensures r.Ok? ==> && r.value.value == value
                      && r.value.unit == OptionalArg(unit)
                      && r.value.sig == OptionalArg(sig)
                      && (r.value.refine <==> refine == Given(true))
  {
    var flag :- FlagArg(refine, "refine");
    Ok(RefinableFloat(value, OptionalArg(unit), OptionalArg(sig), flag))
  }

  /** Validating a `ConstrainableFloat`: neither flag is set unless given. */
  function MakeConstrainable(value: real, unit: Arg<string>, sig: Arg<real>, refine: Arg<bool>,
                             isConstrained: Arg<bool>): (r: Result<ConstrainableFloat>)
    ensures r.Err? <==> refine.ExplicitNone? || isConstrained.ExplicitNone?
    ensures r.Ok? ==> && r.value.value == value
                      && r.value.unit == OptionalArg(unit)
                      && r.value.sig == OptionalArg(sig)
                      && (r.value.refine <==> refine == Given(true))
                      && (r.value.isConstrained <==> isConstrained == Given(true))
  {
    var flag :- FlagArg(refine, "refine");
    var constrained :- FlagArg(isConstrained, "is_constrained");
    Ok(ConstrainableFloat(value, OptionalArg(unit), OptionalArg(sig), flag, constrained))
  }

  /** A number nobody has asked to refine or constrain. */
  lemma DefaultsAreOff(value: real)
    ensures MakeRefinable(value, Omitted, Omitted, Omitted) == Ok(RefinableFloat(value, None, None, false))
    ensures MakeConstrainable(value, Omitted, Omitted, Omitted, Omitted) ==
              Ok(ConstrainableFloat(value, None, None, false, false))
  {
  }

  // ---------------------------------------------------------------------
  // Coefficient lists and Miller indices

  /** `RefinableFloatList`: values with per-value uncertainties, which may be null. */
  datatype FloatList = FloatList(values: seq<real>, sigs: seq<Option<real>>, refine: bool)

  /** The rule `validate_list_length` enforces. */
  predicate SigsMatch(l: FloatList) {
    |l.sigs| == 0 || |l.sigs| == |l.values|
  }

  /** Validating a `RefinableFloatList`: `sigs` defaults to empty; a non-empty
      `sigs` must be exactly as long as `values`. */
  function MakeFloatList(values: seq<real>, sigs: Arg<seq<Option<real>>>, refine: Arg<bool>): (r: Result<FloatList>)
    ensures r.Ok? <==> !sigs.ExplicitNone? && !refine.ExplicitNone? &&
                       (sigs.Omitted? || |sigs.value| == 0 || |sigs.value| == |values|)
    ensures r.Ok? ==> && SigsMatch(r.value)
                      && r.value.values == values
                      && r.value.sigs == (if sigs.Given? then sigs.value else [])
                      && (r.value.refine <==> refine == Given(true))
  {
    var s :- match sigs
             case Omitted => Ok([])
             case ExplicitNone => Err(TypeMismatch("sigs"))
             case Given(xs) => Ok(xs);
    var flag :- FlagArg(refine, "refine");
    if |s| == 0 then Ok(FloatList(values, s, flag))
    else if |values| != |s| then Err(LengthMismatch("sigs"))
    else Ok(FloatList(values, s, flag))
  }

  /** `MillerIndex`: a reflection given by exactly three integers. */
  datatype MillerIndex = MillerIndex(h: int, k: int, l: int)

  /** The `hkl` list of an index. */
  function Hkl(m: MillerIndex): seq<int> {
    [m.h, m.k, m.l]
  }

  /** Validating `hkl`: a list of length other than three is refused. */
  function MakeMillerIndex(hkl: seq<int>): (r: Result<MillerIndex>)
    ensures r.Ok? <==> |hkl| == 3
    ensures r.Err? ==> r.error == BoundsError("hkl")
  {
    if |hkl| == 3 then Ok(MillerIndex(hkl[0], hkl[1], hkl[2])) else Err(BoundsError("hkl"))
  }

  /** An accepted `hkl` list is the index's list, and every index's list is accepted. */
  lemma MillerIndexRoundTrip(m: MillerIndex, hkl: seq<int>)
    ensures MakeMillerIndex(Hkl(m)) == Ok(m)
    ensures MakeMillerIndex(hkl).Ok? ==> Hkl(MakeMillerIndex(hkl).value) == hkl
  {
  }

  // ---------------------------------------------------------------------
  // Phase models: atoms, crystallite size, microstrain, preferred orientation

  /** `AtomParameters`, keyed by `adp_model`. */
  datatype AtomParameters =
    | IsotropicAtom(x: ConstrainableFloat, y: ConstrainableFloat, z: ConstrainableFloat,
                    frac: RefinableFloat, uiso: RefinableFloat)
    | AnisotropicAtom(x: ConstrainableFloat, y: ConstrainableFloat, z: ConstrainableFloat,
                      frac: RefinableFloat, u11: ConstrainableFloat, u22: ConstrainableFloat,
                      u33: ConstrainableFloat, u12: Option<ConstrainableFloat>,
                      u13: Option<ConstrainableFloat>, u23: Option<ConstrainableFloat>)

  function AdpModel(a: AtomParameters): (tag: string)
    ensures a.IsotropicAtom? <==> tag == "isotropic"
    ensures a.AnisotropicAtom? <==> tag == "anisotropic"
  {
    match a
    case IsotropicAtom(_, _, _, _, _) => "isotropic"
    case AnisotropicAtom(_, _, _, _, _, _, _, _, _, _) => "anisotropic"
  }

  /** `SizeModel`, keyed by `model`. */
  datatype SizeModel =
    | IsotropicSize(size: RefinableFloat, lgMix: RefinableFloat)
    | UniaxialSize(uniqueAxis: MillerIndex, equatorial: RefinableFloat, axial: RefinableFloat,
                   lgMix: RefinableFloat)
    | EllipsoidalSize(s11: RefinableFloat, s22: RefinableFloat, s33: RefinableFloat,
                      s12: RefinableFloat, s13: RefinableFloat, s23: RefinableFloat,
                      lgMix: RefinableFloat)

  function SizeTag(s: SizeModel): (tag: string)
    ensures s.IsotropicSize? <==> tag == "isotropic"
    ensures s.UniaxialSize? <==> tag == "uniaxial"
    ensures s.EllipsoidalSize? <==> tag == "ellipsoidal"
  {
    match s
    case IsotropicSize(_, _) => "isotropic"
    case UniaxialSize(_, _, _, _) => "uniaxial"
    case EllipsoidalSize(_, _, _, _, _, _, _) => "ellipsoidal"
  }

  /** The optional generalized microstrain terms, S040 through S112 in
      declaration order. */
  datatype StrainTerms = StrainTerms(s040: Option<RefinableFloat>, s004: Option<RefinableFloat>,
                                     s220: Option<RefinableFloat>, s202: Option<RefinableFloat>,
                                     s022: Option<RefinableFloat>, s310: Option<RefinableFloat>,
                                     s103: Option<RefinableFloat>, s031: Option<RefinableFloat>,
                                     s130: Option<RefinableFloat>, s301: Option<RefinableFloat>,
                                     s013: Option<RefinableFloat>, s211: Option<RefinableFloat>,
                                     s121: Option<RefinableFloat>, s112: Option<RefinableFloat>)

  /** `MustrainModel`, keyed by `model`. */
  datatype MustrainModel =
    | IsotropicMustrain(strain: RefinableFloat, lgMix: RefinableFloat)
    | UniaxialMustrain(uniqueAxis: MillerIndex, equatorial: RefinableFloat, axial: RefinableFloat,
                       lgMix: RefinableFloat)
    | GeneralizedMustrain(s400: RefinableFloat, terms: StrainTerms, lgMix: RefinableFloat)

  function MustrainTag(m: MustrainModel): (tag: string)
    ensures m.IsotropicMustrain? <==> tag == "isotropic"
    ensures m.UniaxialMustrain? <==> tag == "uniaxial"
    ensures m.GeneralizedMustrain? <==> tag == "generalized"
  {
    match m
    case IsotropicMustrain(_, _) => "isotropic"
    case UniaxialMustrain(_, _, _, _) => "uniaxial"
    case GeneralizedMustrain(_, _, _) => "generalized"
  }

  /** `PreferredOrientationModel`, keyed by `model`. */
  datatype PreferredOrientation =
    | MarchDollase(ratio: RefinableFloat, uniqueAxis: MillerIndex)
    | SphericalHarmonics(order: int, coeffs: FloatList, names: Option<seq<string>>,
                         penaltyHkl: Option<seq<string>>, zeroMrdToler: Option<real>)

  function PreferredOrientationTag(p: PreferredOrientation): (tag: string)
    ensures p.MarchDollase? <==> tag == "March-Dollase"
    ensures p.SphericalHarmonics? <==> tag == "Spherical-Harmonics"
  {
    match p
    case MarchDollase(_, _) => "March-Dollase"
    case SphericalHarmonics(_, _, _, _, _) => "Spherical-Harmonics"
  }

  /** The largest spherical-harmonics order the model accepts. */
  const MaxHarmonicsOrder: int := 32

  /** Validating a `SphericalHarmonicsModel`: the order is an even number in
      [0, 32], the coefficient list satisfies its own rule, and the names,
      when given, are one per coefficient. */
  function MakeSphericalHarmonics(order: int, coeffs: FloatList, names: Option<seq<string>>,
                                  penaltyHkl: Option<seq<string>>, zeroMrdToler: Option<real>): (r: Result<PreferredOrientation>)
    ensures r.Ok? <==> && 0 <= order <= MaxHarmonicsOrder && order % 2 == 0
                       && SigsMatch(coeffs)
                       && (names.None? || |names.value| == |coeffs.values|)
    ensures r.Ok? ==> r.value == SphericalHarmonics(order, coeffs, names, penaltyHkl, zeroMrdToler)
  {
    if !(0 <= order <= MaxHarmonicsOrder && order % 2 == 0) then Err(BoundsError("order"))
    else if !SigsMatch(coeffs) then Err(LengthMismatch("sigs"))
    else if names.Some? && |coeffs.values| != |names.value| then Err(LengthMismatch("names"))
    else Ok(SphericalHarmonics(order, coeffs, names, penaltyHkl, zeroMrdToler))
  }

  /** The accepted orders are exactly 0, 2, ..., 32. */
  lemma HarmonicsOrders(order: int, coeffs: FloatList)
    requires SigsMatch(coeffs)
    ensures MakeSphericalHarmonics(order, coeffs, None, None, None).Ok? <==>
              exists n | 0 <= n <= 16 :: order == 2 * n
  {
    if 0 <= order <= MaxHarmonicsOrder && order % 2 == 0 {
      assert order == 2 * (order / 2);
    }
  }

  // ---------------------------------------------------------------------
  // Sample and instrument parameters as documents

  /** A field of a model: its attribute name and the alias it is serialised under. */
  datatype FieldName = FieldName(name: string, alias: string)

  /** A value in a serialised document: the discriminator text or a number. */
  datatype Value = Text(text: string) | Number(number: RefinableFloat)

  /** No two fields of a table share an alias. */
  predicate DistinctAliases(table: seq<FieldName>) {
    forall i, j | 0 <= i < j < |table| :: table[i].alias != table[j].alias
  }

  /** The discriminator key is no field's alias. */
  predicate NoTypeAlias(table: seq<FieldName>) {
    forall i | 0 <= i < |table| :: table[i].alias != "type"
  }

  /** Serialising by alias: each field is written under its alias in
      declaration order, so a later field with the same alias overwrites an
      earlier one. */
  function Put(doc: map<string, Value>, table: seq<FieldName>, values: seq<RefinableFloat>): map<string, Value>
    requires |table| == |values|
  {
    if table == [] then doc
    else
      var n := |table| - 1;
      Put(doc, table[..n], values[..n])[table[n].alias := Number(values[n])]
  }

  /** Reading one field: by alias, or by attribute name (names are accepted as well). */
  function Lookup(doc: map<string, Value>, f: FieldName): Result<RefinableFloat> {
    if f.alias in doc then
      (if doc[f.alias].Number? then Ok(doc[f.alias].number) else Err(TypeMismatch(f.name)))
    else if f.name in doc then
      (if doc[f.name].Number? then Ok(doc[f.name].number) else Err(TypeMismatch(f.name)))
    else Err(MissingRequired(f.name))
  }

  /** Reading every field of a table, in order. */
  function Get(doc: map<string, Value>, table: seq<FieldName>): (r: Result<seq<RefinableFloat>>)
    ensures r.Ok? ==> |r.value| == |table|
  {
    if table == [] then Ok([])
    else
      var n := |table| - 1;
      var init :- Get(doc, table[..n]);
      var last :- Lookup(doc, table[n]);
      Ok(init + [last])
  }

  /** After serialising with distinct aliases, each alias holds its own field's value. */
  lemma {:induction false} PutAt(doc: map<string, Value>, table: seq<FieldName>, values: seq<RefinableFloat>, i: nat)
    requires |table| == |values| && DistinctAliases(table) && i < |table|
    ensures table[i].alias in Put(doc, table, values)
    ensures Put(doc, table, values)[table[i].alias] == Number(values[i])
  {
    var n := |table| - 1;
    if i < n {
      assert table[i].alias != table[n].alias;
      assert DistinctAliases(table[..n]) by {
        forall a, b | 0 <= a < b < n ensures table[..n][a].alias != table[..n][b].alias {
          assert table[..n][a] == table[a] && table[..n][b] == table[b];
        }
      }
      PutAt(doc, table[..n], values[..n], i);
      assert table[..n][i] == table[i] && values[..n][i] == values[i];
    }
  }

  /** Keys other than the aliases keep the value they had before serialising. */
  lemma {:induction false} PutKeeps(doc: map<string, Value>, table: seq<FieldName>, values: seq<RefinableFloat>, key: string)
    requires |table| == |values| && key in doc
    requires forall i | 0 <= i < |table| :: table[i].alias != key
    ensures key in Put(doc, table, values) && Put(doc, table, values)[key] == doc[key]
  {
    if table != [] {
      var n := |table| - 1;
      assert forall i | 0 <= i < n :: table[..n][i] == table[i];
      PutKeeps(doc, table[..n], values[..n], key);
    }
  }

  /** Reading every field succeeds with the given values when each field on its own does. */
  lemma {:induction false} GetEach(doc: map<string, Value>, table: seq<FieldName>, values: seq<RefinableFloat>)
    requires |table| == |values|
    requires forall i | 0 <= i < |table| :: Lookup(doc, table[i]) == Ok(values[i])
    ensures Get(doc, table) == Ok(values)
  {
    if table != [] {
      var n := |table| - 1;
      forall i | 0 <= i < n ensures Lookup(doc, table[..n][i]) == Ok(values[..n][i]) {
        assert table[..n][i] == table[i] && values[..n][i] == values[i];
      }
      GetEach(doc, table[..n], values[..n]);
      assert Lookup(doc, table[n]) == Ok(values[n]);
      assert values[..n] + [values[n]] == values;
    }
  }

  /** With distinct aliases, reading back what was serialised gives the values. */
  lemma GetPut(doc: map<string, Value>, table: seq<FieldName>, values: seq<RefinableFloat>)
    requires |table| == |values| && DistinctAliases(table)
    ensures Get(Put(doc, table, values), table) == Ok(values)
  {
    forall i | 0 <= i < |table| ensures Lookup(Put(doc, table, values), table[i]) == Ok(values[i]) {
      PutAt(doc, table, values, i);
    }
    GetEach(Put(doc, table, values), table, values);
  }

  /** `model_dump(by_alias=True)` of a variant of a discriminated union:
      the discriminator under `type`, then the fields by alias. */
  function DumpTagged(tag: string, table: seq<FieldName>, values: seq<RefinableFloat>): map<string, Value>
    requires |table| == |values|
  {
    Put(map["type" := Text(tag)], table, values)
  }

  /** Validating a document against a discriminated union: the `type` key
      must hold the tag of one of the variants, whose fields are then read. */
  function ReadTagged(doc: map<string, Value>, tables: map<string, seq<FieldName>>): (r: Result<(string, seq<RefinableFloat>)>)
    ensures r.Ok? ==> r.value.0 in tables && |r.value.1| == |tables[r.value.0]|
    ensures ("type" !in doc || !doc["type"].Text? || doc["type"].text !in tables) ==> r == Err(TypeMismatch("type"))
  {
    if "type" !in doc || !doc["type"].Text? || doc["type"].text !in tables then Err(TypeMismatch("type"))
    else
      var tag := doc["type"].text;
      var vs :- Get(doc, tables[tag]);
      Ok((tag, vs))
  }

  /** Serialising a variant whose aliases are distinct and leave `type`
      free, then validating the document, gives back its tag and values. */
  lemma ReadDumpTagged(tag: string, tables: map<string, seq<FieldName>>, values: seq<RefinableFloat>)
    requires tag in tables && |tables[tag]| == |values|
    requires DistinctAliases(tables[tag]) && NoTypeAlias(tables[tag])
    ensures ReadTagged(DumpTagged(tag, tables[tag], values), tables) == Ok((tag, values))
  {
    var base := map["type" := Text(tag)];
    PutKeeps(base, tables[tag], values, "type");
    GetPut(base, tables[tag], values);
  }

  /** `SampleParameters`, keyed by `type`. */
  datatype SampleParameters =
    | DebyeScherrerCW(scale: RefinableFloat, absorption: RefinableFloat,
                      displaceX: RefinableFloat, displaceY: RefinableFloat)
    | DebyeScherrerTOF(scale: RefinableFloat, absorption: RefinableFloat)
    | BraggBrentano(scale: RefinableFloat, shift: RefinableFloat, transparency: RefinableFloat,
                    surfRoughA: RefinableFloat, surfRoughB: RefinableFloat)

  function SampleTag(s: SampleParameters): (tag: string)
    ensures s.DebyeScherrerCW? <==> tag == "DS"
    ensures s.DebyeScherrerTOF? <==> tag == "TOF"
    ensures s.BraggBrentano? <==> tag == "BB"
  {
    match s
    case DebyeScherrerCW(_, _, _, _) => "DS"
    case DebyeScherrerTOF(_, _) => "TOF"
    case BraggBrentano(_, _, _, _, _) => "BB"
  }

  /** The field values of a sample variant in declaration order. */
  function SampleValues(s: SampleParameters): seq<RefinableFloat> {
    match s
    case DebyeScherrerCW(a, b, c, d) => [a, b, c, d]
    case DebyeScherrerTOF(a, b) => [a, b]
    case BraggBrentano(a, b, c, d, e) => [a, b, c, d, e]
  }

  /** The variant a tag selects, filled from its field values. */
  function BuildSample(tag: string, vs: seq<RefinableFloat>): (r: Result<SampleParameters>)
    ensures r.Ok? <==> (tag == "DS" && |vs| == 4) || (tag == "TOF" && |vs| == 2) || (tag == "BB" && |vs| == 5)
    ensures r.Ok? ==> SampleTag(r.value) == tag && SampleValues(r.value) == vs
  {
    if tag == "DS" && |vs| == 4 then Ok(DebyeScherrerCW(vs[0], vs[1], vs[2], vs[3]))
    else if tag == "TOF" && |vs| == 2 then Ok(DebyeScherrerTOF(vs[0], vs[1]))
    else if tag == "BB" && |vs| == 5 then Ok(BraggBrentano(vs[0], vs[1], vs[2], vs[3], vs[4]))
    else Err(TypeMismatch("type"))
  }

  /** The fields of each sample variant in declaration order. */
  const DebyeScherrerCWFields: seq<FieldName> :=
    [FieldName("scale", "Scale"), FieldName("absorption", "Absorption"),
     FieldName("displaceX", "DisplaceX"), FieldName("displaceY", "DisplaceY")]
  const DebyeScherrerTOFFields: seq<FieldName> :=
    [FieldName("scale", "Scale"), FieldName("absorption", "Absorption")]

  /** The Bragg-Brentano fields as declared: `transparency` carries the alias `Shift`. */
  const BraggBrentanoFieldsAsWritten: seq<FieldName> :=
    [FieldName("scale", "Scale"), FieldName("shift", "Shift"), FieldName("transparency", "Shift"),
     FieldName("surf_roughA", "SurfRoughA"), FieldName("surf_roughB", "SurfRoughB")]

  /** The Bragg-Brentano fields with `transparency` under its own alias. */
  const BraggBrentanoFields: seq<FieldName> :=
    [FieldName("scale", "Scale"), FieldName("shift", "Shift"), FieldName("transparency", "Transparency"),
     FieldName("surf_roughA", "SurfRoughA"), FieldName("surf_roughB", "SurfRoughB")]

  /** The field tables of the sample union, given the Bragg-Brentano table. */
  function SampleTables(bbFields: seq<FieldName>): map<string, seq<FieldName>> {
    map["DS" := DebyeScherrerCWFields, "TOF" := DebyeScherrerTOFFields, "BB" := bbFields]
  }

  /** Serialising a sample with the declared aliases. */
  function DumpSampleAsWritten(s: SampleParameters): map<string, Value> {
    DumpTagged(SampleTag(s), SampleTables(BraggBrentanoFieldsAsWritten)[SampleTag(s)], SampleValues(s))
  }

  /** Validating a sample document with the declared aliases. */
  function LoadSampleAsWritten(doc: map<string, Value>): Result<SampleParameters> {
    var (tag, vs) :- ReadTagged(doc, SampleTables(BraggBrentanoFieldsAsWritten));
    BuildSample(tag, vs)
  }

  /** Serialising a sample. */
  function DumpSample(s: SampleParameters): map<string, Value> {
    DumpTagged(SampleTag(s), SampleTables(BraggBrentanoFields)[SampleTag(s)], SampleValues(s))
  }

  /** Validating a sample document. */
  function LoadSample(doc: map<string, Value>): Result<SampleParameters> {
    var (tag, vs) :- ReadTagged(doc, SampleTables(BraggBrentanoFields));
    BuildSample(tag, vs)
  }

  /** A serialised sample validates back to itself. */
  lemma SampleRoundTrip(s: SampleParameters)
    ensures LoadSample(DumpSample(s)) == Ok(s)
  {
    var tables := SampleTables(BraggBrentanoFields);
    assert DistinctAliases(tables[SampleTag(s)]) && NoTypeAlias(tables[SampleTag(s)]);
    ReadDumpTagged(SampleTag(s), tables, SampleValues(s));
  }

  /** A document whose `type` names no sample variant is refused. */
  lemma SampleNeedsKnownType(doc: map<string, Value>)
    requires "type" in doc && doc["type"] == Text("CW")
    ensures LoadSample(doc) == Err(TypeMismatch("type"))
  {
  }

  /** As declared, serialising a Bragg-Brentano sample writes `transparency`
      over `shift`, and validating reads both from that one key: the shift is lost. */
  lemma ShiftLostAsWritten(s: SampleParameters)
    requires s.BraggBrentano?
    ensures LoadSampleAsWritten(DumpSampleAsWritten(s)) == Ok(s.(shift := s.transparency))
  {
    var table := BraggBrentanoFieldsAsWritten;
    var vs := SampleValues(s);
    var base := map["type" := Text("BB")];
    var d0 := base["Scale" := Number(s.scale)];
    var d1 := d0["Shift" := Number(s.shift)];
    var d2 := d1["Shift" := Number(s.transparency)];
    var d3 := d2["SurfRoughA" := Number(s.surfRoughA)];
    var d := d3["SurfRoughB" := Number(s.surfRoughB)];
    assert Put(base, table[..1], vs[..1]) == d0 by {
      assert table[..1][..0] == [] && vs[..1][..0] == [];
    }
    assert Put(base, table[..2], vs[..2]) == d1 by {
      assert table[..2][..1] == table[..1] && vs[..2][..1] == vs[..1];
    }
    assert Put(base, table[..3], vs[..3]) == d2 by {
      assert table[..3][..2] == table[..2] && vs[..3][..2] == vs[..2];
    }
    assert Put(base, table[..4], vs[..4]) == d3 by {
      assert table[..4][..3] == table[..3] && vs[..4][..3] == vs[..3];
    }
    assert DumpSampleAsWritten(s) == d;
    var read := [s.scale, s.transparency, s.transparency, s.surfRoughA, s.surfRoughB];
    forall i | 0 <= i < 5 ensures Lookup(d, table[i]) == Ok(read[i]) {
    }
    GetEach(d, table, read);
  }

  /** A concrete sample on which the declared aliases fail to round-trip. */
  lemma ShiftLostExample()
    ensures var one := RefinableFloat(1.0, None, None, false);
            var two := RefinableFloat(2.0, None, None, false);
            var s := BraggBrentano(one, one, two, one, one);
            LoadSampleAsWritten(DumpSampleAsWritten(s)) != Ok(s)
  {
    var one := RefinableFloat(1.0, None, None, false);
    var two := RefinableFloat(2.0, None, None, false);
    ShiftLostAsWritten(BraggBrentano(one, one, two, one, one));
  }

  /** `InstrumentParameters`, keyed by `type`. */
  datatype InstrumentParameters =
    | PowderXrayCW(x: RefinableFloat, y: RefinableFloat, z: RefinableFloat, zero: RefinableFloat,
                   u: RefinableFloat, v: RefinableFloat, w: RefinableFloat,
                   polariz: RefinableFloat, shL: RefinableFloat, i2i1: RefinableFloat)
    | PowderNeutronCW(x: RefinableFloat, y: RefinableFloat, z: RefinableFloat, zero: RefinableFloat,
                      u: RefinableFloat, v: RefinableFloat, w: RefinableFloat,
                      polariz: RefinableFloat, shL: RefinableFloat)
    | PowderNeutronTOF(x: RefinableFloat, y: RefinableFloat, z: RefinableFloat, zero: RefinableFloat,
                       sig0: RefinableFloat, sig1: RefinableFloat, sig2: RefinableFloat, sigq: RefinableFloat,
                       alpha: RefinableFloat, beta0: RefinableFloat, beta1: RefinableFloat,
                       betaq: RefinableFloat, difA: RefinableFloat, difB: RefinableFloat, difC: RefinableFloat)

  function InstrumentTag(p: InstrumentParameters): (tag: string)
    ensures p.PowderXrayCW? <==> tag == "PXC"
    ensures p.PowderNeutronCW? <==> tag == "PNC"
    ensures p.PowderNeutronTOF? <==> tag == "PNT"
  {
    match p
    case PowderXrayCW(_, _, _, _, _, _, _, _, _, _) => "PXC"
    case PowderNeutronCW(_, _, _, _, _, _, _, _, _) => "PNC"
    case PowderNeutronTOF(_, _, _, _, _, _, _, _, _, _, _, _, _, _, _) => "PNT"
  }

  /** The field values of an instrument variant in declaration order. */
  function InstrumentValues(p: InstrumentParameters): seq<RefinableFloat> {
    match p
    case PowderXrayCW(x, y, z, zero, u, v, w, pol, shl, i21) => [x, y, z, zero, u, v, w, pol, shl, i21]
    case PowderNeutronCW(x, y, z, zero, u, v, w, pol, shl) => [x, y, z, zero, u, v, w, pol, shl]
    case PowderNeutronTOF(x, y, z, zero, s0, s1, s2, sq, al, b0, b1, bq, da, db, dc) =>
      [x, y, z, zero, s0, s1, s2, sq, al, b0, b1, bq, da, db, dc]
  }

  /** The variant a tag selects, filled from its field values. */
  function BuildInstrument(tag: string, vs: seq<RefinableFloat>): (r: Result<InstrumentParameters>)
    ensures r.Ok? <==> (tag == "PXC" && |vs| == 10) || (tag == "PNC" && |vs| == 9) || (tag == "PNT" && |vs| == 15)
    ensures r.Ok? ==> InstrumentTag(r.value) == tag && InstrumentValues(r.value) == vs
  {
    if tag == "PXC" && |vs| == 10 then
      Ok(PowderXrayCW(vs[0], vs[1], vs[2], vs[3], vs[4], vs[5], vs[6], vs[7], vs[8], vs[9]))
    else if tag == "PNC" && |vs| == 9 then
      Ok(PowderNeutronCW(vs[0], vs[1], vs[2], vs[3], vs[4], vs[5], vs[6], vs[7], vs[8]))
    else if tag == "PNT" && |vs| == 15 then
      Ok(PowderNeutronTOF(vs[0], vs[1], vs[2], vs[3], vs[4], vs[5], vs[6], vs[7], vs[8], vs[9],
                          vs[10], vs[11], vs[12], vs[13], vs[14]))
    else Err(TypeMismatch("type"))
  }

  /** The fields every instrument variant has; unaliased fields go by their name. */
  const InstrumentBaseFields: seq<FieldName> :=
    [FieldName("X", "X"), FieldName("Y", "Y"), FieldName("Z", "Z"), FieldName("zero", "Zero")]

  /** The fields of the constant-wavelength variants. */
  const PowderCWFields: seq<FieldName> :=
    InstrumentBaseFields +
    [FieldName("U", "U"), FieldName("V", "V"), FieldName("W", "W"),
     FieldName("polariz", "Polariz."), FieldName("SH_L", "SH/L")]

  const PowderXrayCWFields: seq<FieldName> := PowderCWFields + [FieldName("I2_I1", "I(L2)/I(L1)")]

  const PowderNeutronTOFFields: seq<FieldName> :=
    InstrumentBaseFields +
    [FieldName("sig0", "sig-0"), FieldName("sig1", "sig-1"), FieldName("sig2", "sig-2"),
     FieldName("sigq", "sig-q"), FieldName("alpha", "alpha"), FieldName("beta0", "beta-0"),
     FieldName("beta1", "beta-1"), FieldName("betaq", "beta-q"),
     FieldName("difA", "difA"), FieldName("difB", "difB"), FieldName("difC", "difC")]

  const InstrumentTables: map<string, seq<FieldName>> :=
    map["PXC" := PowderXrayCWFields, "PNC" := PowderCWFields, "PNT" := PowderNeutronTOFFields]

  /** Serialising an instrument. */
  function DumpInstrument(p: InstrumentParameters): map<string, Value> {
    DumpTagged(InstrumentTag(p), InstrumentTables[InstrumentTag(p)], InstrumentValues(p))
  }

  /** Validating an instrument document. */
  function LoadInstrument(doc: map<string, Value>): Result<InstrumentParameters> {
    var (tag, vs) :- ReadTagged(doc, InstrumentTables);
    BuildInstrument(tag, vs)
  }

  /** A serialised instrument validates back to itself. */
  lemma InstrumentRoundTrip(p: InstrumentParameters)
    ensures LoadInstrument(DumpInstrument(p)) == Ok(p)
  {
    var tag := InstrumentTag(p);
    InstrumentTablesDistinct(tag);
    ReadDumpTagged(tag, InstrumentTables, InstrumentValues(p));
  }

  /** Each instrument table has distinct aliases, none of them `type`. */
  lemma InstrumentTablesDistinct(tag: string)
    requires tag in InstrumentTables
    ensures DistinctAliases(InstrumentTables[tag]) && NoTypeAlias(InstrumentTables[tag])
  {
    if tag == "PXC" {
      PowderCWDistinct();
      assert forall i | 0 <= i < |PowderCWFields| :: PowderCWFields[i].alias != "I(L2)/I(L1)";
      assert forall i | 0 <= i < |PowderCWFields| :: PowderXrayCWFields[i] == PowderCWFields[i];
    } else if tag == "PNC" {
      PowderCWDistinct();
    } else {
      PowderNeutronTOFDistinct();
    }
  }

  lemma PowderCWDistinct()
    ensures DistinctAliases(PowderCWFields) && NoTypeAlias(PowderCWFields)
  {
  }

  lemma PowderNeutronTOFDistinct()
    ensures DistinctAliases(PowderNeutronTOFFields) && NoTypeAlias(PowderNeutronTOFFields)
  {
  }
}

=== FILE: util.dfy ===
/** Helpers of bbor_client/util.py: the size of a seekable stream, the server
    selector, and the token guard that decorates the authorised client calls. */
module Util {
  import opened Common
  import opened Conf

  /** A seekable binary stream: its total length and its current position. */
  class BinaryStream {
    var length: nat
    var position: nat

    constructor (length: nat, position: nat)
      requires position <= length
      ensures this.length == length && this.position == position
    {
      this.length := length;
      this.position := position;
    }

    method Tell() returns (p: nat)
      ensures p == position
    {
      p := position;
    }

    /** `seek(offset, whence)` for `whence` 0 (from the start) or 2 (from the end). */
    method Seek(offset: nat, fromEnd: bool)
      modifies this
      ensures length == old(length)
      ensures position == if fromEnd then length + offset else offset
    {
      position := if fromEnd then length + offset else offset;
    }
  }

  /** `get_file_size_from_binaryio`: `None` has size 0; a stream reports its
      total length and is left where it was. */
  method GetFileSize(stream: BinaryStream?) returns (size: nat)
    modifies stream
    ensures stream == null ==> size == 0
    ensures stream != null ==> size == stream.length
    ensures stream != null ==> stream.length == old(stream.length) && stream.position == old(stream.position)
  {
    if stream == null {
      return 0;
    }
    var current := stream.Tell();
    stream.Seek(0, true);
    size := stream.Tell();
    stream.Seek(current, false);
  }

  /** `api_url`: the base URL of a named server. */
  function ApiUrl(server: string): (r: Result<string>)
    ensures r.Ok? <==> server in ["mdx", "local", "docker"]
    ensures r.Err? ==> r.error == UnknownServer(server)
  {
    if server == "mdx" then Ok(ApiUrlMdx)
    else if server == "local" then Ok(ApiUrlLocal)
    else if server == "docker" then Ok(ApiUrlDocker)
    else Err(UnknownServer(server))
  }

  /** The three servers have three distinct base URLs, and "dev", although the
      client accepts it as a server name, has none. */
  lemma ApiUrlTable()
    ensures ApiUrl("mdx") == Ok("https://api.bborietveld.quantumbeam.org")
    ensures ApiUrl("local") == Ok("http://localhost:8000")
    ensures ApiUrl("docker") == Ok("http://bborapi:8000")
    ensures ApiUrl("dev").Err?
  {
    assert ApiUrlMdx == "https://api.bborietveld.quantumbeam.org";
  }

  lemma ApiUrlInjective(a: string, b: string)
    requires ApiUrl(a).Ok? && ApiUrl(b).Ok? && ApiUrl(a) == ApiUrl(b)
    ensures a == b
  {
  }

  /** Python truthiness of an optional token. */
  predicate TokenTruthy(token: Option<string>) {
    token.Some? && token.value != ""
  }

  /** `require_token`: the wrapped call runs iff the token is truthy. */
  function RequireToken<T>(token: Option<string>, call: () -> Result<T>): (r: Result<T>)
    ensures TokenTruthy(token) ==> r == call()
    ensures !TokenTruthy(token) ==> r == Err(TokenEmpty)
  {
    if token.Some? && |token.value| > 0 then call() else Err(TokenEmpty)
  }

  /** Both an absent and an empty token are refused. */
  lemma RequireTokenRefuses<T>(call: () -> Result<T>)
    ensures RequireToken(None, call) == Err(TokenEmpty)
    ensures RequireToken(Some(""), call) == Err(TokenEmpty)
  {
  }
}
